=== FILE: README.md ===
# dep-logic core in Dafny

This project models two parts of dep-logic, a Python library for reasoning
about Python dependency metadata.

**Version-specifier algebra (`pkg_logical`).** A specifier is one of three
kinds:
- the empty specifier, which admits nothing;
- a single range, between an optional lower bound and an optional upper
  bound, each inclusive or exclusive;
- a union of two or more pairwise separated ranges, kept in ascending order.

The model covers:
- `&`, `|` and `~` on specifiers, with the same dispatch on operand kinds as
  the Python code;
- `str`, including the short `!=X` and `!=X.*` forms of a union; the
  `!=X.*` form is printed as corrected (see Findings), and the form as
  written is modelled beside it;
- the translation of a PEP 440 specifier set into a specifier, by the
  bounds PEP 440 prescribes; the Python code's text-based computation of
  the `==X.*`, `!=X.*` and `~=` bounds is modelled beside it and differs on
  some inputs (see Left out and Findings);
- `parse`, which joins `||`-separated alternatives.

**Wheel and platform tags (`dep_logic.tags`).** The model covers:
- parsing a platform name (`linux`, `windows_arm64`, `macos_14_0_arm64`, …);
- the ordered list of platform tags that an interpreter on a platform
  accepts;
- the marker values a platform implies;
- splitting a wheel filename into its python, abi and platform tag lists,
  as in section "File name convention" of PEP 427;
- scoring a wheel for an environment (interpreter implementation, platform,
  `requires_python`), as `EnvSpec.compatibility` does.

Modules, one per file:
- `Wrappers` (wrappers.dfy): `Option` and `Result`.
- `Text` (text.dfy): the Python string operations the core uses, as
  functions on `seq<char>`. These are `split`, `join`, `replace`,
  `startswith`, `count`, `lower` and `int()` of a digit string.
- `Utils` (utils.dfy): `version_split`, `is_not_suffix`,
  `first_different_index`, `pad_zeros`, `flatten_items`, and `list.index`.
- `Versions` (versions.dfy): the version order. It compares the epoch,
  then the zero-padded release, then puts a pre-release before the final
  release.
- `Ranges` (ranges.dfy): the range specifier as a pair of bounds, with
  membership, intersection, merging and the lower-bound order.
- `Specs` (specs.dfy): the three specifier kinds, membership, validity
  (well-formed, sorted and separated ranges), `==`, and `_from_ranges`.
- `Unions` (union.dfy): `UnionSpecifier`'s `&`, `|`, `~`, `_simplified_form`
  and `str`.
- `Algebra` (algebra.dfy): the operators on any specifier, and
  `EmptySpecifier`.
- `Specifiers` (specifiers.dfy): `_from_pkg_specifier`, `from_specifierset`
  and `parse`.
- `Platforms` (platform.dfy): `Arch`, `Os`, `Platform.parse`, `str`,
  `compatible_tags` and the marker properties.
- `Tags` (tags.dfy): `parse_wheel_tags`, `Implementation`,
  `_evaluate_python`, `_evaluate_platform`, `compatibility` and
  `wheel_compatibility`.

Parts of the library that are not in this model appear as function
parameters:
- `packaging`'s `Version(...)` and `SpecifierSet(...)` readers are the
  oracles `parseVersion` and `specifierSet`. They return `None` where the
  Python code would raise.
- `str()` of a range and of a version are the parameters `rangeText` and
  `versionText`.
- The test "is `parse_version_specifier(text) & requires_python` empty" in
  `_evaluate_python` is the oracle `excluded`. It returns `None` when the
  text does not parse.

The range specifier's own source file (`range.py`) is not part of this
model. Its set-level behaviour is pinned down by
`tests/specifier/test_range.py`, which the table below cites for it.

A Python exception is an `Err` of a small error datatype. An operation that
can raise returns a `Result`.

## Model

| member | source | states |
|---|---|---|
| Versions.Bump | src/pkg_logical/specifiers/__init__.py:49-50 | incrementing the last kept release segment changes only that segment, and raises it by exactly one |
| Versions.BumpIsGreater | src/pkg_logical/specifiers/__init__.py:45-52 | the bumped release with any tail lies strictly above the original release with any tail, so the `==X.*` range is never empty |
| Ranges.IntersectContains | tests/specifier/test_range.py:169-185 | the intersection of two ranges admits exactly the versions both admit, and it is absent only when no version is in both |
| Ranges.IntersectBounds | tests/specifier/test_range.py:169-185 | the intersection is well formed and lies within both operands' bounds |
| Ranges.IntersectAny | src/pkg_logical/specifiers/union.py:116-118 | intersecting a well-formed range with the unbounded range gives back that range |
| Ranges.MergeContains | tests/specifier/test_range.py:206-223 | merging two combinable ranges admits exactly the versions either one admits |
| Ranges.MergeWellFormed | tests/specifier/test_range.py:206-223 | the merge of two combinable well-formed ranges is well formed and covers both operands' bounds |
| Ranges.AllowsLowerStrict | tests/specifier/test_range.py:71-90 | `a.allows_lower(b)` holds exactly when `a`'s lower bound is strictly below `b`'s, where an absent lower bound is lowest and an inclusive bound is below an exclusive bound at the same version |
| Ranges.AllowsLowerOrders | src/pkg_logical/specifiers/union.py:145-154 | two ranges that cannot be combined are separated, and `allows_lower` says which one comes first |
| Ranges.SeparatedDisjoint | src/pkg_logical/specifiers/union.py:126-128 | separated ranges share no version |
| Ranges.FlipComplement | src/pkg_logical/specifiers/union.py:96-112 | turning a bound around (lower to upper, inclusive to exclusive) admits exactly the versions the original bound excludes |
| Ranges.FlipFlip | src/pkg_logical/specifiers/union.py:96-112 | turning a bound around twice restores it |
| Specs.FromRanges | src/pkg_logical/specifiers/union.py:76-84 | no ranges give the empty specifier, one range gives that range, and two or more give a union of them with no supplied text |
| Specs.FromRangesContains | src/pkg_logical/specifiers/union.py:76-92 | the specifier built from a list of ranges admits exactly the versions some range in the list admits |
| Specs.FromRangesValid | src/pkg_logical/specifiers/union.py:76-84 | ranges that are sorted and separated build a valid specifier |
| Specs.AnyContainsIndex | src/pkg_logical/specifiers/union.py:89-92 | a union admits a version exactly when one of its ranges does |
| Unions.InsertContains | src/pkg_logical/specifiers/union.py:139-159 | inserting a range into a union's list admits exactly the old versions plus the range's versions |
| Unions.InsertSorted | src/pkg_logical/specifiers/union.py:139-159 | inserting a well-formed range into a sorted, separated list keeps the list sorted and separated |
| Unions.InsertKeepsLower | src/pkg_logical/specifiers/union.py:152-154 | a range strictly below the inserted one keeps its position |
| Unions.InsertKeepsHigher | src/pkg_logical/specifiers/union.py:147-151 | a range strictly above the inserted one is kept unchanged |
| Unions.OrRange | src/pkg_logical/specifiers/union.py:139-141 | `union \| r` with `r` unbounded on both sides is `r` itself |
| Unions.OrRangeContains | src/pkg_logical/specifiers/union.py:138-159 | `union \| range` admits exactly the versions either operand admits |
| Unions.OrRangeValid | src/pkg_logical/specifiers/union.py:138-159 | `union \| range` of valid operands is a valid specifier |
| Unions.RangeOrContains | tests/specifier/test_range.py:206-223 | `range \| range` admits exactly the versions either range admits |
| Unions.RangeOrValid | tests/specifier/test_range.py:206-223 | `range \| range` of well-formed ranges is valid: one merged range, or two separated ranges in ascending order |
| Unions.OrFoldContains | src/pkg_logical/specifiers/union.py:160-164 | folding `\|` over the other union's ranges admits exactly the versions either union admits |
| Unions.OrFoldValid | src/pkg_logical/specifiers/union.py:160-164 | folding `\|` over well-formed ranges keeps the accumulator valid |
| Unions.ProductContains | src/pkg_logical/specifiers/union.py:124-133 | the non-empty pairwise intersections admit exactly the versions both range lists admit |
| Unions.ProductLength | src/pkg_logical/specifiers/union.py:124-133 | the pairwise intersections number at most one per pair of ranges |
| Unions.ProductSorted | src/pkg_logical/specifiers/union.py:126-128 | the pairwise intersections of two sorted, separated lists are again sorted and separated, so no re-sorting or merging is needed |
| Unions.AndRange | src/pkg_logical/specifiers/union.py:116-118 | a union intersected with the unbounded range is the union itself |
| Unions.AndRangeContains | src/pkg_logical/specifiers/union.py:115-134 | `union & range` admits exactly the versions both operands admit |
| Unions.AndRangeValid | src/pkg_logical/specifiers/union.py:115-134 | `union & range` of valid operands is valid |
| Unions.AndUnionContains | src/pkg_logical/specifiers/union.py:115-134 | `union & union` admits exactly the versions both unions admit |
| Unions.AndUnionValid | src/pkg_logical/specifiers/union.py:115-134 | `union & union` of valid unions is valid |
| Unions.Gaps | src/pkg_logical/specifiers/union.py:100-108 | the gap list has one entry fewer than the ranges, one per adjacent pair |
| Unions.InvertIndex | src/pkg_logical/specifiers/union.py:94-113 | `~` yields a leading range only when the first range has a lower bound, one gap per adjacent pair, and a trailing range only when the last range has an upper bound, with every bound the flipped neighbouring bound |
| Unions.InvertContains | src/pkg_logical/specifiers/union.py:94-113 | the ranges of `~u` admit exactly the versions `u` does not admit |
| Unions.InvertSorted | src/pkg_logical/specifiers/union.py:94-113 | the ranges of `~u` are sorted and separated |
| Unions.InvertInvolution | src/pkg_logical/specifiers/union.py:94-113 | inverting the inverted ranges gives back the original ranges |
| Unions.InvertLength | src/pkg_logical/specifiers/union.py:94-113 | `~` yields one range per gap between adjacent ranges, plus one before the first range when it has a lower bound and one after the last when it has an upper bound |
| Unions.InvertAt | src/pkg_logical/specifiers/union.py:94-113 | each range of `~u` runs from the flipped upper bound of one range of `u` to the flipped lower bound of the next, open at the ends |
| Unions.InvertEnds | src/pkg_logical/specifiers/union.py:94-113 | `~u` starts with a lower bound exactly when `u` starts unbounded, and ends with an upper bound exactly when `u` ends unbounded |
| Unions.StableEqualSame | src/pkg_logical/specifiers/union.py:46-50 | two final releases with equal zero-padded `[epoch, *release]` lists are the same version |
| Unions.PrefixGapBounds | src/pkg_logical/specifiers/union.py:46-61 | when the `!=X.*` test passes, the left bound equals `X.0` and the right bound equals `X` with its last segment bumped, followed by `.0` |
| Unions.SimplifiedFormCases | src/pkg_logical/specifiers/union.py:24-69 | a supplied text always wins; otherwise only a two-range union open below and open above has a short form, and the `!=X.*` form needs an exclusive upper bound, an inclusive lower bound and two final releases |
| Unions.SimplifiedFormMeaning | src/pkg_logical/specifiers/union.py:32-67 | a computed `!=V` form admits exactly the versions the union admits, and so does a computed `!=X.*` form |
| Unions.SimplifiedFormAsWrittenMisprints | src/pkg_logical/specifiers/union.py:62-66 | the union `<1\|\|>=1.1.0` is printed as `!=1.*` as written, although it admits `1.5`, which `!=1.*` excludes; the corrected form prints `!=1.0.*` |
| Unions.UnionStrSupplied | src/pkg_logical/specifiers/union.py:71-74 | a union built with a supplied text prints as that text and counts as simple |
| Unions.UnionStrSplits | src/pkg_logical/specifiers/union.py:71-74 | a union without a short form prints as its ranges' texts joined by `\|\|`, and splitting the text on `\|\|` recovers them in order |
| Algebra.EmptyLaws | src/pkg_logical/specifiers/empty.py:6-40 | the empty specifier absorbs `&` and is the identity of `\|` on either side; it inverts to the unbounded range, admits nothing, equals only itself and prints `<empty>` |
| Algebra.AndContains | src/pkg_logical/specifiers/union.py:115-136 | `a & b` admits exactly the versions both operands admit, for every combination of kinds |
| Algebra.AndValid | src/pkg_logical/specifiers/union.py:115-136 | `a & b` of valid operands is valid |
| Algebra.OrContains | src/pkg_logical/specifiers/union.py:138-168 | `a \| b` admits exactly the versions either operand admits, for every combination of kinds |
| Algebra.OrValid | src/pkg_logical/specifiers/union.py:138-168 | `a \| b` of valid operands is valid |
| Algebra.InvertContains | src/pkg_logical/specifiers/union.py:94-113 | `~s` admits exactly the versions `s` does not admit |
| Algebra.InvertValid | src/pkg_logical/specifiers/union.py:94-113 | `~s` of a valid specifier is valid |
| Algebra.InvertInvert | src/pkg_logical/specifiers/union.py:94-113 | `~~s` is equal to `s` under the specifiers' `==` |
| Utils.MatchPrefixed | src/pkg_logical/utils.py:6-6 | the prefix pattern matches a field exactly when it is digits, then `a`, `b`, `c` or `rc`, then digits; the two groups rebuild the field, ignoring one trailing newline as `$` does |
| Utils.SplitField | src/pkg_logical/utils.py:23-28 | a field splits into two parts exactly when the prefix pattern matches; otherwise it is kept whole |
| Utils.VersionSplitLength | src/pkg_logical/utils.py:21-29 | `version_split` yields at least one item per dot-separated field and at most two |
| Utils.IsNotSuffix | src/pkg_logical/utils.py:32-35 | a segment counts as a suffix exactly when it starts with `dev`, `a`, `b`, `rc` or `post` |
| Utils.TakeWhileNotSuffix | src/pkg_logical/specifiers/__init__.py:55-56 | the kept segments are the longest prefix with no suffix segment, and the next segment, if any, is a suffix |
| Utils.FirstDifferentIndex | src/pkg_logical/utils.py:50-56 | the index is the first position where the sequences differ, or the shorter length when one is a prefix of the other |
| Utils.PadZeros | src/pkg_logical/utils.py:59-62 | the result keeps the parts, reaches the requested length, and adds only zeros |
| Utils.FlattenItemsSpec | src/pkg_logical/utils.py:38-47 | flattening keeps every leaf of the nested items exactly once, drops nothing else, and keeps first occurrences in order |
| Utils.Index | src/dep_logic/tags/tags.py:158-158 | `list.index` gives the first position holding the item |
| Specifiers.WildcardBounds | src/pkg_logical/specifiers/__init__.py:45-52 | `==X.*` spans from `X.0`, inclusive, to `X` with its last segment bumped followed by `.0`, exclusive, and the span is not empty |
| Specifiers.CompatibleUpper | src/pkg_logical/specifiers/__init__.py:53-61 | the `~=` upper bound drops the last release segment, bumps the one before it, appends `.0`, and lies above the version |
| Specifiers.ComparisonContains | src/pkg_logical/specifiers/__init__.py:32-37 | `>`, `>=`, `<` and `<=` admit exactly the versions that compare accordingly with the operand |
| Specifiers.EqContains | src/pkg_logical/specifiers/__init__.py:38-52 | in the corrected (PEP 440) translation, `==V` admits exactly the versions equal to `V`; `==X.*` fails only on an empty release and otherwise admits exactly the versions in `[X.0, bump(X).0)` |
| Specifiers.CompatibleContains | src/pkg_logical/specifiers/__init__.py:53-61 | in the corrected (PEP 440) translation, `~=V` needs at least two release segments and then admits exactly the versions from `V` up to the compatible upper bound |
| Specifiers.NeContains | src/pkg_logical/specifiers/__init__.py:62-85 | in the corrected (PEP 440) translation, `!=V` admits exactly the versions not equal to `V`, and `!=X.*` exactly the versions outside `[X.0, bump(X).0)` |
| Specifiers.ArbitraryRefused | src/pkg_logical/specifiers/__init__.py:86-87 | any other operator, such as `===`, raises `ValueError` |
| Specifiers.FromClauseValid | src/pkg_logical/specifiers/__init__.py:62-94 | every translated clause is a valid specifier, and a `!=` clause keeps its own text as its printed form |
| Specifiers.TakeUntilStar | src/pkg_logical/specifiers/__init__.py:45-47 | the kept parts are the longest prefix without `*`, and the next part, if any, is `*` |
| Specifiers.BumpLast | src/pkg_logical/specifiers/__init__.py:49-49 | bumping the last part raises `IndexError` on an empty list and `ValueError` when the part is not an integer; otherwise only the last part changes |
| Specifiers.FromClauseAgrees | src/pkg_logical/specifiers/__init__.py:38-61 | for plain release numbers, the text-based computation as written gives the same specifier as the version-based definition |
| Specifiers.CompatibleSuffixMisread | src/pkg_logical/specifiers/__init__.py:53-61 | as written, `~=1.0c1` gets the upper bound `1.1.0` and so excludes `1.5`, while the compatible-release rule gives `2.0` and admits it |
| Specifiers.EpochWildcardRefused | src/pkg_logical/specifiers/__init__.py:44-52 | as written, `==1!2.*` raises `ValueError`, while the intended range `[1!2.0, 1!3.0)` exists and admits `1!2.5` |
| Specifiers.EpochCompatibleRefused | src/pkg_logical/specifiers/__init__.py:53-61 | as written, `~=1!2.0` raises `ValueError`, while the intended range admits `1!2.5` |
| Specifiers.DottedSuffixMisread | src/pkg_logical/specifiers/__init__.py:53-61 | as written, `~=1.0.pre1` gets the upper bound `1.1.0` and so excludes `1.5`, while the compatible-release rule admits it |
| Specifiers.PrefixedCompatibleRefused | src/pkg_logical/specifiers/__init__.py:53-61 | as written, `~=v1.0` raises `ValueError`, while the intended range `[1.0, 2.0)` admits `1.5` |
| Specifiers.UpperCaseTagMisread | src/pkg_logical/specifiers/__init__.py:53-61 | as written, `~=1.0.RC1` gets the upper bound `1.1.0` and so excludes `1.5`, while the compatible-release rule admits it |
| Specifiers.SeparatedTagRefused | src/pkg_logical/specifiers/__init__.py:53-61 | as written, `~=1.0.c.1` raises `ValueError`, while the intended range from `1.0rc1` to `2.0` admits `1.5` |
| Specifiers.AndClausesSpec | src/pkg_logical/specifiers/__init__.py:17-22 | folding `&` over clauses succeeds exactly when every clause translates; the result is valid and admits exactly the versions the start and every clause admit |
| Specifiers.FromSpecifierSetSpec | src/pkg_logical/specifiers/__init__.py:17-22 | with clauses translated the corrected (PEP 440) way, a specifier set becomes a valid specifier admitting exactly the versions every clause admits, and the empty set becomes the unbounded range |
| Specifiers.ParsePartSpec | src/pkg_logical/specifiers/__init__.py:97-103 | every successfully parsed alternative is valid |
| Specifiers.OrPartsSpec | src/pkg_logical/specifiers/__init__.py:101-102 | folding `\|` over alternatives succeeds exactly when every alternative parses, and admits exactly the versions some alternative admits |
| Specifiers.ParseSpec | src/pkg_logical/specifiers/__init__.py:97-103 | with clauses translated the corrected (PEP 440) way, `<empty>` parses to the empty specifier; a text parses exactly when every `\|\|` alternative does, and the result is valid and admits exactly the versions some alternative admits |
| Platforms.ArchOfValue | src/dep_logic/tags/platform.py:291-300 | a recognised architecture value names the member with that value |
| Platforms.ArchParseSpec | src/dep_logic/tags/platform.py:337-345 | `i386` and `i686` read as x86, `amd64` as x86_64 and `arm64` as aarch64; every member's own value reads as that member; anything else raises `ValueError` |
| Platforms.MinManylinuxMinor | src/dep_logic/tags/platform.py:305-318 | the oldest glibc minor is 5 exactly for the x86 architectures, none exactly for armv6l, and 17 otherwise |
| Platforms.MacBinaryFormats | src/dep_logic/tags/platform.py:320-335 | the architecture's own format comes first (`arm64` for aarch64); only x86_64 and aarch64 add `universal2`; the full lists for those two |
| Platforms.MatchVersionedSound | src/dep_logic/tags/platform.py:21-23 | whatever the versioned-name matcher returns really is `family_major_minor_arch` with digit versions and an arch of `[a-z0-9_]` |
| Platforms.MatchVersionedComplete | src/dep_logic/tags/platform.py:21-23 | every name of that shape is matched, with the same groups |
| Platforms.ParseAliases | src/dep_logic/tags/platform.py:52-65 | the aliases `linux`, `windows`, `macos`, `alpine`, `macos_arm64` and `macos_x86_64` name their documented platforms |
| Platforms.ParseWindows | src/dep_logic/tags/platform.py:60-61 | `windows_<arch>` is Windows on whatever the architecture reads as, and fails as the architecture does |
| Platforms.ParseVersioned | src/dep_logic/tags/platform.py:66-73 | `manylinux_X_Y_arch`, `macos_X_Y_arch` and `musllinux_X_Y_arch` parse to that family with major `X`, minor `Y` and the architecture read from `arch` |
| Platforms.ParseRejects | src/dep_logic/tags/platform.py:74-77 | a name that is no alias, has no `windows_` prefix and has no versioned shape raises `PlatformError` |
| Platforms.StrCorrectedParses | src/dep_logic/tags/platform.py:79-84 | with the operating system name in lower case, `str` of a Windows platform, or of macOS 12.0 on arm64 or x86_64, parses back to the same platform |
| Platforms.StrForgetsVersions | src/dep_logic/tags/platform.py:79-84 | `str` of a platform depends only on the operating-system kind and the architecture, not on the versions |
| Platforms.StrDoesNotParse | src/dep_logic/tags/platform.py:79-84 | `Platform.parse("windows_arm64")` gives Windows on aarch64, whose `str` as written is `Windows_arm64`, which `Platform.parse` rejects |
| Platforms.ManylinuxRunLength | src/dep_logic/tags/platform.py:156-167 | the manylinux run has one tag per minor from the current one down to the oldest, plus one legacy alias for each of minors 5, 12 and 17 in that span |
| Platforms.ManylinuxRunPosition | src/dep_logic/tags/platform.py:157-158 | the tag `manylinux_<major>_<m>_<arch>` sits after the newer minors' tags and their aliases |
| Platforms.ManylinuxAliasPosition | src/dep_logic/tags/platform.py:159-167 | the legacy alias of minor 5, 12 or 17 comes right after that minor's own tag |
| Platforms.ManylinuxRunMembers | src/dep_logic/tags/platform.py:156-167 | every tag of the run is a manylinux tag or a legacy alias for a minor in the span |
| Platforms.MusllinuxRunShape | src/dep_logic/tags/platform.py:173-175 | the musllinux tags count upward from minor 1 to the current minor, one per minor |
| Platforms.MacGridShape | src/dep_logic/tags/platform.py:178-193 | a macOS block lists every version from newest to oldest, and every binary format of each version in order |
| Platforms.ManylinuxTags | src/dep_logic/tags/platform.py:155-170 | manylinux tags are the manylinux run down to the architecture's oldest minor, then `linux_<arch>` last; armv6l gets only `linux_<arch>` |
| Platforms.MusllinuxTags | src/dep_logic/tags/platform.py:171-175 | musllinux tags start with `linux_<arch>`, then the musllinux tags for minors 1 up to the current one |
| Platforms.MacX86Ten | src/dep_logic/tags/platform.py:177-180 | on macOS 10.x x86_64, six format tags per minor from the current one down to 10.4 |
| Platforms.MacX86Eleven | src/dep_logic/tags/platform.py:181-193 | on macOS 11 or newer x86_64, six format tags per major down to 11.0, then six per minor from 10.16 down to 10.4 |
| Platforms.MacX86Old | src/dep_logic/tags/platform.py:192-193 | macOS x86_64 before version 10 raises `PlatformError` |
| Platforms.MacArmShape | src/dep_logic/tags/platform.py:194-203 | on macOS arm64, the `arm64` and `universal2` tags per major down to 11.0, then `universal2` for 10.16 down to 10.4 |
| Platforms.MacOtherArchRefused | src/dep_logic/tags/platform.py:231-234 | macOS on any architecture other than x86_64 and arm64 raises `PlatformError` |
| Platforms.WindowsTags | src/dep_logic/tags/platform.py:204-212 | Windows has the single tag `win32`, `win_amd64` or `win_arm64` for x86, x86_64 and arm64, and raises `PlatformError` for every other architecture |
| Platforms.TagsAreNotAny | src/dep_logic/tags/platform.py:143-235 | no platform's compatible tag list contains `any`, so the extra `any` entry is always last and unique |
| Platforms.MarkersAgree | src/dep_logic/tags/platform.py:237-272 | `os_name`, `sys_platform` and `platform_system` classify the operating system consistently: Windows exactly when `nt`/`win32`/`Windows`, Darwin exactly for macOS |
| Platforms.MachineReadsBack | src/dep_logic/tags/platform.py:250-256 | `platform_machine` is `arm64` or `AMD64` exactly in the Windows and macOS cases named, and in lower case it always reads back as the platform's architecture |
| Text.SplitOnce | src/dep_logic/tags/platform.py:221-222 | unpacking `split(c, 1)` into two names fails exactly when `c` is absent; otherwise the head has no `c` and head, `c` and rest rebuild the text |
| Tags.ParseWheelTags | src/dep_logic/tags/tags.py:14-29 | a filename is refused exactly when it lacks `.whl` or its stem has other than 4 or 5 dashes; otherwise the three tag lists join back to the last three dash-separated fields |
| Tags.TagListRoundTrip | src/dep_logic/tags/tags.py:29-29 | a tag list whose tags contain no `.` splits back from its dotted text |
| Tags.ParseWheelTagsRoundTrip | src/dep_logic/tags/tags.py:14-29 | the tags of a wheel filename built from a name, version, optional build tag and tag lists come back unchanged |
| Tags.ParseImplementation | src/dep_logic/tags/tags.py:75-84 | parsing succeeds exactly for `cpython`, or for `pypy` and `pyston` when the GIL is not disabled, and keeps the name and flag |
| Tags.ParseImplementationOfName | src/dep_logic/tags/tags.py:75-84 | every supported implementation reads back from its own name |
| Tags.ShortDistinct | src/dep_logic/tags/tags.py:56-63 | the short codes are distinct two-letter codes, none of them `py` |
| Tags.Admit | src/dep_logic/tags/tags.py:134-152 | a python tag scores exactly when its version range is not excluded and the version digits read as integers, with the given kind; excluded means no score, and unreadable text means `InvalidSpecifier` |
| Tags.EvaluatePythonRefuses | src/dep_logic/tags/tags.py:122-145 | a python tag shorter than 3 raises `IndexError`; a foreign implementation prefix, or an abi that is neither `abi3`, `none` nor made for this tag, gives no score |
| Tags.EvaluatePythonAccepted | src/dep_logic/tags/tags.py:122-152 | a score means the prefix is the implementation's or `py`, the score holds the tag's major and minor, and its kind is 1 for cp/abi3, 0 for abi `none` and 2 for a matching abi, each with the corresponding range not excluded |
| Tags.EvaluatePythonAccepts | src/dep_logic/tags/tags.py:122-152 | conversely, a digit tag of the right implementation with a fitting abi and a non-excluded range gets a score |
| Tags.EvaluatePlatform | src/dep_logic/tags/tags.py:154-158 | a platform tag scores exactly when it is compatible or `any`, with a score between 1 and one more than the number of compatible tags |
| Tags.EvaluatePlatformPosition | src/dep_logic/tags/tags.py:154-158 | a tag first listed at position `i` scores its distance from the end of the list that ends with `any` |
| Tags.EvaluatePlatformAny | src/dep_logic/tags/tags.py:154-158 | `any` scores 1 and every compatible tag scores more |
| Tags.PlatformAnyScoresOne | src/dep_logic/tags/tags.py:154-158 | for every platform whose tags can be computed, `any` scores 1 |
| Tags.CombinationsAt | src/dep_logic/tags/tags.py:166-170 | the python/abi pairs run over python tags in the outer loop and abi tags in the inner loop |
| Tags.CombinationsLength | src/dep_logic/tags/tags.py:166-170 | there is exactly one pair per python tag and abi tag |
| Tags.BestPythonSpec | src/dep_logic/tags/tags.py:171-176 | the best python score fails with the first failing pair's error; it is absent exactly when no pair scores; otherwise some pair attains it and no pair scores higher |
| Tags.BestOfFails | src/dep_logic/tags/tags.py:171-176 | taking the maximum over outcomes left to right fails exactly when some outcome is an exception, and then with the first one |
| Tags.BestOfNone | src/dep_logic/tags/tags.py:171-176 | the maximum is absent exactly when every outcome is a refusal |
| Tags.BestOfMax | src/dep_logic/tags/tags.py:171-176 | a present maximum is one of the outcomes and no accepted outcome scores higher |
| Tags.BestPlatformSpec | src/dep_logic/tags/tags.py:179-182 | the best platform score is absent exactly when no tag scores; otherwise some tag attains it and no tag scores higher |
| Tags.CompatibilityPython | src/dep_logic/tags/tags.py:160-185 | a compatibility result's first three fields are the best python/abi score over all pairs, and every pair was evaluated without error |
| Tags.CompatibilityPlatform | src/dep_logic/tags/tags.py:160-185 | a compatibility result's last field is the best platform score over the wheel's platform tags |
| Tags.CompatibilityNone | src/dep_logic/tags/tags.py:160-185 | the result is "incompatible" exactly when every pair evaluates and either no pair scores or no platform tag is compatible or `any` |
| Tags.WheelCompatibilityOfName | src/dep_logic/tags/tags.py:187-195 | scoring a wheel filename is scoring the tag lists it was built from |

## Left out

- Host detection is not modelled: it reads the running interpreter and
  operating system. This covers `Platform.current`, `is_current`,
  `markers`, `Implementation.current`, `EnvSpec.current` and
  `EnvSpec.markers`.
- `platform_release` and `platform_version` are not modelled. Both are
  constant empty strings.
- `EnvSpec.from_spec` and `as_dict` are not modelled. They only combine
  `Platform.parse`, `Implementation.parse` and a specifier reader.
  `requires_python` is represented by the oracle `excluded`.
- `cached_property` caching is not modelled. It changes no result.
- The range specifier's own code (`range.py`) is not part of this model.
  Its operations are defined at set level, and its `str` is the parameter
  `rangeText`.
- `packaging`'s version and specifier-set parsing, and its pre-release
  admission policy, are not modelled. `Contains` ignores the `prerelease`
  argument.
- A version is reduced to epoch, release and a pre-release flag. Post- and
  dev-releases and local labels are not distinguished.
- The marker algebra (`markers/`) is outside this core.
- Python's `int()` also accepts surrounding whitespace, a sign, underscores
  between digits and non-ASCII digits. `Text.ParseInt` accepts only ASCII
  digit strings. This affects three places:
  - `Platforms.IllumosTags`: a release such as `-5_11` raises
    `ValueError` in the model instead of yielding no tag.
  - `Tags.Admit`: tag digits are read the same way.
  - `Specifiers.BumpLast`: segments are read the same way.
- `str.lower()` and `\d` are modelled on ASCII only (`Text.Lower`,
  `Text.IsDigit`).
- `Os.__str__` is modelled as the class name, which is what
  `src/dep_logic/tags/os.py` does.
- `Utils.FirstDifferentIndex` requires two non-empty sequences. On an empty
  one, the Python function fails with an unbound local variable. Its only
  caller passes lists that start with the epoch.
- `Algebra.Invert` requires a union to have ranges. Every union built by
  the code has at least two.
- `Unions.SimplifiedFormMeaning` is stated only for the corrected form. The
  form as written can be wrong (see Findings).
- `Unions.UnionStrSplits` assumes that no range text contains `|`.
- `Unions.UnionStr` (and `Algebra.Str` through it) prints the corrected
  `!=X.*` form, taken from the zero-padded release. For `<1||>=1.1.0` it
  prints `!=1.0.*` where the Python code prints `!=1.*`. The form as
  written is `Unions.SimplifiedFormAsWritten` (see Findings).
- `Unions.UnionStr` is total, but the Python `str` raises `IndexError` on
  a union whose two boundaries differ only in a post-release or local
  part, such as `<1.0||>=1.0.post1`. Neither boundary is a pre-release,
  both padded lists are `[0, 1, 0]`, `first_different_index`
  (`utils.py` line 56) returns their length, and `union.py` lines 53-54
  indexes past the end. The model has no post-releases or local labels,
  so two such boundaries are the same version and cannot bound a gap.
- `Specifiers.FromClause` follows PEP 440, not the text route of
  `specifiers/__init__.py` lines 45-61 and 73-78, and so do
  `Specifiers.AndClauses`, `Specifiers.FromSpecifierSet` and
  `Specifiers.Parse`. `Specifiers.FromClauseAsWritten` models that route;
  the two agree on plain release texts. They differ on these inputs:
  - a leading `v`: `==v1.*`, `!=v1.*` and `~=v1.0` raise `ValueError` as
    written;
  - an epoch: `==1!2.*`, `!=1!2.*` and `~=1!2.0` raise `ValueError` as
    written;
  - a `~=` tag that ends up as a segment of its own, which `is_not_suffix`
    then keeps: a `c` tag glued on (`~=1.0c1`, split off by the prefix
    pattern), or any of `c`, `pre`, `preview`, `r` and `rev` after a dot
    (`~=1.0.c1`, `~=1.0.pre1`, `~=1.0.preview1`, `~=1.0.r1`,
    `~=1.0.rev1`). As written the wrong segment is bumped: `~=1.0c1` gets
    the upper bound `1.1.0` instead of `2.0`, and `~=1.0.0c1` gets
    `1.0.1.0` instead of `1.1`. A glued `pre`, `preview`, `r` or `rev`
    tag (`~=1.0pre1`) is left inside its field, which `[:-1]` drops, so
    its bound agrees with PEP 440.
  - a `~=` tag in upper or mixed case after a dot (`~=1.0.RC1`,
    `~=1.0.A1`, `~=1.0.Alpha1`, `~=1.0.B1`, `~=1.0.DEV1`, `~=1.0.POST1`).
    packaging matches tags in any case and keeps the text as typed, but
    `is_not_suffix` compares case-sensitively and keeps the tag, so the
    wrong segment is bumped: `~=1.0.RC1` gets the upper bound `1.1.0`
    instead of `2.0`.
  - a `~=` tag whose number follows a dot, when the tag is kept as a
    segment: `~=1.0.c.1`, `~=1.0.pre.1`, `~=1.0.r.1`, `~=1.0.RC.1`, and a
    glued tag such as `~=1.0rc.1` or `~=1.0a.1`, whose field `0rc` or `0a`
    the prefix pattern does not split. After `[:-1]` the tag, or the field
    holding it, is the last part, and `int()` raises `ValueError` at line
    58. (`~=1.0.a.1`, `~=1.0.b.1` and `~=1.0.rc.1` stop the take-while at
    the tag and agree with PEP 440.)
- `Specifiers.EqContains` states the PEP 440 meaning of `==X.*`. As
  written, `==v1.*` and `==1!2.*` raise `ValueError` at line 49 instead.
- `Specifiers.CompatibleContains` states the PEP 440 meaning of `~=V`. As
  written, `~=v1.0`, `~=1!2.0` and a tag whose number follows a dot
  (`~=1.0.c.1`, `~=1.0rc.1`) raise `ValueError` at line 58, and a kept
  tag (`~=1.0c1`, `~=1.0.pre1`, `~=1.0.RC1`) gives a lower upper bound.
- `Specifiers.NeContains` states the PEP 440 meaning of `!=X.*`. As
  written, `!=v1.*` and `!=1!2.*` raise `ValueError` at line 77 instead.
- `Specifiers.FromSpecifierSetSpec` inherits the gaps of
  `Specifiers.FromClause`: a set holding one of the inputs above raises or
  gets a different range as written.
- `Specifiers.ParseSpec` inherits the same gaps: `parse("~=v1.0")` and
  `parse(">=1||~=1!2.0")` raise as written.
- Where the tests and the code disagree, the model follows the code. The
  tags tests use a `from_spec` with defaults for the platform, a
  free-threaded `cp313t` abi, and an `EnvCompatibility` comparison, none of
  which the code shown here has.
- `Ranges.AllowsLower` compares lower bounds only, as
  `tests/specifier/test_range.py` lines 71-90 expect.

## Findings

| source | as written | input that shows it | evidently intended | confidence | as-written member | corrected member |
|---|---|---|---|---|---|---|
| src/pkg_logical/specifiers/__init__.py:53-61 | `is_not_suffix` does not treat `c`, `pre`, `preview`, `r` or `rev` as a pre- or post-release marker, so a `c1` segment (also `.c1`, `.preview1`, `.r1`, `.rev1`) is kept and the wrong segment is bumped | `~=1.0c1` gets the upper bound `1.1.0` and excludes `1.5` | `~=1.0c1` means `>=1.0c1, ==1.*`, with upper bound `2.0` | medium, not executed | Specifiers.CompatibleSuffixMisread | Specifiers.CompatibleContains |
| src/pkg_logical/specifiers/__init__.py:44-52 | the bumped segment is read with `int()`, which fails on a segment that carries the epoch | `==1!2.*`, `!=1!2.*` and `~=1!2.0` raise `ValueError` | the range `[1!2.0, 1!3.0)` | medium, not executed | Specifiers.EpochWildcardRefused | Specifiers.EqContains |
| src/pkg_logical/specifiers/__init__.py:53-61 | `version_split` splits a dotted pre-release tag off as a segment of its own, and `is_not_suffix` keeps `pre1` | `~=1.0.pre1`, which packaging reads as `1.0rc1`, gets the upper bound `1.1.0` and excludes `1.5` | upper bound `2.0`, as for `~=1.0rc1` | medium, not executed | Specifiers.DottedSuffixMisread | Specifiers.CompatibleContains |
| src/pkg_logical/specifiers/__init__.py:53-61 | the bumped segment is read with `int()`, which fails on a segment with the leading `v` that PEP 440 allows | `~=v1.0` raises `ValueError` (so do `==v1.*` and `!=v1.*`, at lines 49 and 77) | the range `[1.0, 2.0)`, as for `~=1.0` | medium, not executed | Specifiers.PrefixedCompatibleRefused | Specifiers.CompatibleContains |
| src/pkg_logical/specifiers/__init__.py:53-61 | `is_not_suffix` compares case-sensitively, so a tag typed in upper case after a dot is kept and the wrong segment is bumped | `~=1.0.RC1`, which packaging reads as `1.0rc1`, gets the upper bound `1.1.0` and excludes `1.5` | upper bound `2.0`, as for `~=1.0rc1` | medium, not executed | Specifiers.UpperCaseTagMisread | Specifiers.CompatibleContains |
| src/pkg_logical/specifiers/__init__.py:53-61 | a tag whose number follows a dot becomes a segment of its own; it is kept, `[:-1]` leaves it last, and `int()` fails on it | `~=1.0.c.1`, which packaging reads as `1.0rc1`, raises `ValueError` | the range from `1.0rc1` to `2.0` | medium, not executed | Specifiers.SeparatedTagRefused | Specifiers.CompatibleContains |
| src/pkg_logical/specifiers/union.py:64-64 | the `!=X.*` prefix is cut from the unpadded release | `<1\|\|>=1.1.0` prints as `!=1.*`, which excludes `1.5`, which the union admits | print `!=1.0.*`, taken from the zero-padded release | high, not executed | Unions.SimplifiedFormAsWrittenMisprints | Unions.SimplifiedFormMeaning |
| src/dep_logic/tags/platform.py:79-84 | `str` uses the class name `Windows` in its original case | `str` of Windows on aarch64 is `Windows_arm64`, which `Platform.parse` rejects | the lower-case name that `parse` accepts | low, not executed | Platforms.StrDoesNotParse | Platforms.StrCorrectedParses |

=== FILE: algebra.dfy ===
/**
 * The operators every specifier supports (`&`, `|`, `~`, `==`, `str`),
 * dispatched on the kind of each operand the way Python resolves
 * `__and__` / `__rand__` and friends: `EmptySpecifier` absorbs `&` and is
 * the identity of `|`, and a range combined with a union is handled by
 * the union's reflected operator.
 */
module Algebra {
  import opened Wrappers
  import opened Versions
  import opened Ranges
  import opened Specs
  import opened Unions

  /** `a & b` */
  function And(a: Spec, b: Spec): Spec {
    match (a, b)
    case (Empty, _) => Empty
    case (_, Empty) => Empty
    case (Single(r), Single(t)) =>
      (match Intersect(r, t) case Some(i) => Single(i) case None => Empty)
    case (Single(r), Union(_, _)) => AndRange(b, r)
    case (Union(_, _), Single(t)) => AndRange(a, t)
    case (Union(_, _), Union(_, _)) => AndUnion(a, b)
  }

  /** `a | b` */
  function Or(a: Spec, b: Spec): Spec {
    match (a, b)
    case (Empty, _) => b
    case (_, Empty) => a
    case (Single(r), Single(t)) => RangeOr(r, t)
    case (Single(r), Union(ts, _)) => OrRange(ts, r)
    case (Union(rs, _), Single(t)) => OrRange(rs, t)
    case (Union(_, _), Union(ts, _)) => OrFold(a, ts)
  }

  /** `~s` */
  function Invert(s: Spec): Spec
    requires s.Union? ==> |s.ranges| > 0
  {
    match s
    case Empty => Single(AnyRange)
    case Single(r) => FromRanges(InvertRanges([r]))
    case Union(rs, _) => FromRanges(InvertRanges(rs))
  }

  /** `str(s)`; `rangeText` and `versionText` are the `str()` of a range and of a version. */
  function Str(s: Spec, rangeText: Range -> string, versionText: Version -> string): string
    requires Valid(s)
  {
    match s
    case Empty => "<empty>"
    case Single(r) => rangeText(r)
    case Union(_, _) => UnionStr(s, rangeText, versionText)
  }

  // ---------------------------------------------------------------------
  // EmptySpecifier
  // ---------------------------------------------------------------------

  /**
   * The empty specifier absorbs `&` and is the identity of `|` in both
   * operand orders, inverts to the unbounded range, admits nothing,
   * equals only itself and prints as `<empty>`.
   */
  lemma EmptyLaws(s: Spec, x: Version, rangeText: Range -> string, versionText: Version -> string)
    ensures And(Empty, s) == Empty && And(s, Empty) == Empty
    ensures Or(Empty, s) == s && Or(s, Empty) == s
    ensures Invert(Empty) == Single(AnyRange) && IsAny(Invert(Empty).range)
    ensures !Specs.Contains(Empty, x)
    ensures Equal(Empty, s) <==> s.Empty?
    ensures Equal(s, Empty) <==> s.Empty?
    ensures Str(Empty, rangeText, versionText) == "<empty>"
  {
  }

  // ---------------------------------------------------------------------
  // Set-level laws
  // ---------------------------------------------------------------------

  /** `&` admits exactly what both operands admit. */
  lemma AndContains(a: Spec, b: Spec, x: Version)
    ensures Specs.Contains(And(a, b), x) <==> Specs.Contains(a, x) && Specs.Contains(b, x)
  {
    match (a, b)
    case (Empty, _) =>
    case (_, Empty) =>
    case (Single(r), Single(t)) => IntersectContains(r, t, x);
    case (Single(r), Union(_, _)) => AndRangeContains(b, r, x);
    case (Union(_, _), Single(t)) => AndRangeContains(a, t, x);
    case (Union(_, _), Union(_, _)) => AndUnionContains(a, b, x);
  }

  lemma AndValid(a: Spec, b: Spec)
    requires Valid(a) && Valid(b)
    ensures Valid(And(a, b))
  {
    match (a, b)
    case (Empty, _) =>
    case (_, Empty) =>
    case (Single(r), Single(t)) =>
      if Intersect(r, t).Some? {
        IntersectBounds(r, t);
      }
    case (Single(r), Union(_, _)) => AndRangeValid(b, r);
    case (Union(_, _), Single(t)) => AndRangeValid(a, t);
    case (Union(_, _), Union(_, _)) => AndUnionValid(a, b);
  }

  /** `|` admits exactly what either operand admits. */
  lemma OrContains(a: Spec, b: Spec, x: Version)
    ensures Specs.Contains(Or(a, b), x) <==> Specs.Contains(a, x) || Specs.Contains(b, x)
  {
    match (a, b)
    case (Empty, _) =>
    case (_, Empty) =>
    case (Single(r), Single(t)) => RangeOrContains(r, t, x);
    case (Single(r), Union(ts, _)) => OrRangeContains(ts, r, x);
    case (Union(rs, _), Single(t)) => OrRangeContains(rs, t, x);
    case (Union(_, ts), Union(_, _)) => OrFoldContains(a, b.ranges, x);
  }

  lemma OrValid(a: Spec, b: Spec)
    requires Valid(a) && Valid(b)
    ensures Valid(Or(a, b))
  {
    match (a, b)
    case (Empty, _) =>
    case (_, Empty) =>
    case (Single(r), Single(t)) => RangeOrValid(r, t);
    case (Single(r), Union(ts, _)) => OrRangeValid(ts, r);
    case (Union(rs, _), Single(t)) => OrRangeValid(rs, t);
    case (Union(_, _), Union(ts, _)) => OrFoldValid(a, ts);
  }

  /** `~` admits exactly what the operand does not. */
  lemma InvertContains(s: Spec, x: Version)
    requires Valid(s)
    ensures Specs.Contains(Invert(s), x) <==> !Specs.Contains(s, x)
  {
    match s
    case Empty =>
    case Single(r) =>
      assert [r][1..] == [];
      Unions.InvertContains([r], x);
      FromRangesContains(InvertRanges([r]), x);
    case Union(rs, _) =>
      Unions.InvertContains(rs, x);
      FromRangesContains(InvertRanges(rs), x);
  }

  lemma InvertValid(s: Spec)
    requires Valid(s)
    ensures Valid(Invert(s))
  {
    match s
    case Empty =>
    case Single(r) =>
      InvertSorted([r]);
      FromRangesValid(InvertRanges([r]));
    case Union(rs, _) =>
      InvertSorted(rs);
      FromRangesValid(InvertRanges(rs));
  }

  /** Inverting twice gives back the operand (a union's `simplified` text aside). */
  lemma InvertInvert(s: Spec)
    requires Valid(s)
    ensures Invert(s).Union? ==> |Invert(s).ranges| > 0
    ensures Equal(Invert(Invert(s)), s)
  {
    match s
    case Empty =>
    case Single(r) =>
      var inv := InvertRanges([r]);
      if |inv| > 0 {
        InvertInvolution([r]);
        InvertSorted([r]);
      }
    case Union(rs, _) =>
      var inv := InvertRanges(rs);
      InvertIndex(rs);
      InvertInvolution(rs);
  }
}

=== FILE: platform.dfy ===
/**
 * Platforms (src/dep_logic/tags/platform.py and the `Os` records of
 * src/dep_logic/tags/os.py): parsing a platform name, its `str()`, the
 * ordered list of wheel platform tags it accepts, and its projections to
 * environment-marker values.
 */
module Platforms {
  import opened Wrappers
  import Text
  import Utils

  /** `PlatformError`, and the `ValueError` of an `Arch` or `int` lookup that fails. */
  datatype Failure = PlatformError | ValueError

  // ---------------------------------------------------------------------
  // Arch
  // ---------------------------------------------------------------------

  datatype Arch = Aarch64 | Armv6L | Armv7L | Powerpc64Le | Powerpc64 | X86 | X86_64 | S390X | RISCV64

  /** The enum value, which is also `str(arch)`. */
  function ArchValue(a: Arch): string {
    match a
    case Aarch64 => "aarch64"
    case Armv6L => "armv6l"
    case Armv7L => "armv7l"
    case Powerpc64Le => "ppc64le"
    case Powerpc64 => "ppc64"
    case X86 => "x86"
    case X86_64 => "x86_64"
    case S390X => "s390x"
    case RISCV64 => "riscv64"
  }

  /** `Arch(value)`: the member with that value, `None` where the lookup raises. */
  function ArchOfValue(s: string): (r: Option<Arch>)
    ensures r.Some? ==> ArchValue(r.value) == s
  {
    if s == "aarch64" then Some(Aarch64)
    else if s == "armv6l" then Some(Armv6L)
    else if s == "armv7l" then Some(Armv7L)
    else if s == "ppc64le" then Some(Powerpc64Le)
    else if s == "ppc64" then Some(Powerpc64)
    else if s == "x86" then Some(X86)
    else if s == "x86_64" then Some(X86_64)
    else if s == "s390x" then Some(S390X)
    else if s == "riscv64" then Some(RISCV64)
    else None
  }

  /** `Arch.parse(arch)` */
  function ArchParse(s: string): Result<Arch, Failure> {
    if s == "i386" || s == "i686" then Ok(X86)
    else if s == "amd64" then Ok(X86_64)
    else if s == "arm64" then Ok(Aarch64)
    else match ArchOfValue(s)
      case Some(a) => Ok(a)
      case None => Err(ValueError)
  }

  /**
   * `Arch.parse` reads the four aliases and every enum value (each as its
   * own member), and raises `ValueError` on anything else.
   */
  lemma ArchParseSpec(s: string)
    ensures s == "i386" || s == "i686" ==> ArchParse(s) == Ok(X86)
    ensures s == "amd64" ==> ArchParse(s) == Ok(X86_64)
    ensures s == "arm64" ==> ArchParse(s) == Ok(Aarch64)
    ensures forall a :: ArchValue(a) == s ==> ArchParse(s) == Ok(a)
    ensures ArchParse(s).Ok? <==>
      (s in ["i386", "i686", "amd64", "arm64"] || exists a :: ArchValue(a) == s)
    ensures ArchParse(s).Err? ==> ArchParse(s).error == ValueError
  {
    if ArchOfValue(s).Some? {
      assert ArchValue(ArchOfValue(s).value) == s;
    }
  }

  /** `Arch.get_minimum_manylinux_minor()` */
  function MinManylinuxMinor(a: Arch): (r: Option<nat>)
    ensures r.Some? ==> r.value == 5 || r.value == 17
    ensures r == None <==> a == Armv6L
    ensures r == Some(5) <==> a == X86 || a == X86_64
  {
    match a
    case Aarch64 | Armv7L | Powerpc64 | Powerpc64Le | S390X | RISCV64 => Some(17)
    case X86 | X86_64 => Some(5)
    case Armv6L => None
  }

  /** `Arch.get_mac_binary_formats()` */
  function MacBinaryFormats(a: Arch): (r: seq<string>)
    ensures |r| > 0 && r[0] == (if a == Aarch64 then "arm64" else ArchValue(a))
    ensures "universal2" in r <==> a == X86_64 || a == Aarch64
    ensures a == X86_64 ==> r == ["x86_64", "intel", "fat64", "fat32", "universal2", "universal"]
    ensures a == Aarch64 ==> r == ["arm64", "universal2"]
    ensures a != X86_64 && a != Aarch64 ==> r == [ArchValue(a)]
    ensures forall i :: 0 <= i < |r| ==> |r[i]| > 0
  {
    var first := if a == Aarch64 then ["arm64"] else [ArchValue(a)];
    var extended := if a == X86_64 then first + ["intel", "fat64", "fat32"] else first;
    var withUniversal2 := if a == X86_64 || a == Aarch64 then extended + ["universal2"] else extended;
    if a == X86_64 then withUniversal2 + ["universal"] else withUniversal2
  }

  // ---------------------------------------------------------------------
  // Os and Platform
  // ---------------------------------------------------------------------

  datatype Os =
    | Manylinux(major: int, minor: int)
    | Musllinux(major: int, minor: int)
    | Windows
    | Macos(major: int, minor: int)
    | FreeBsd(release: string)
    | NetBsd(release: string)
    | OpenBsd(release: string)
    | Dragonfly(release: string)
    | Illumos(release: string, machine: string)
    | Haiku(release: string)

  /** `str(os)`: the class name. */
  function OsClassName(o: Os): string {
    match o
    case Manylinux(_, _) => "Manylinux"
    case Musllinux(_, _) => "Musllinux"
    case Windows => "Windows"
    case Macos(_, _) => "Macos"
    case FreeBsd(_) => "FreeBsd"
    case NetBsd(_) => "NetBsd"
    case OpenBsd(_) => "OpenBsd"
    case Dragonfly(_) => "Dragonfly"
    case Illumos(_, _) => "Illumos"
    case Haiku(_) => "Haiku"
  }

  datatype Platform = Platform(os: Os, arch: Arch)

  // ---------------------------------------------------------------------
  // Platform.parse
  // ---------------------------------------------------------------------

  datatype Family = ManylinuxFamily | MacosFamily | MusllinuxFamily

  function FamilyName(f: Family): string {
    match f
    case ManylinuxFamily => "manylinux"
    case MacosFamily => "macos"
    case MusllinuxFamily => "musllinux"
  }

  /** The characters of `[a-z0-9_]`. */
  predicate IsArchChar(c: char) {
    'a' <= c <= 'z' || '0' <= c <= '9' || c == '_'
  }

  predicate IsArchText(s: string) {
    |s| > 0 && forall k :: 0 <= k < |s| ==> IsArchChar(s[k])
  }

  /**
   * Reference reading of `_platform_major_minor_re.match(s)` with groups
   * `(family, major, minor, arch)`: the whole string, or the string
   * without one final newline (`$`), is `family_major_minor_arch`.
   */
  ghost predicate MatchesVersioned(s: string, f: Family, major: string, minor: string, arch: string) {
    Utils.Body(s) == FamilyName(f) + "_" + major + "_" + minor + "_" + arch
    && Text.IsDigits(major) && Text.IsDigits(minor) && IsArchText(arch)
  }

  /** The family whose name and `_` begin `s`. */
  function FamilyPrefix(s: string): (r: Option<Family>)
    ensures r.Some? ==> Text.StartsWith(s, FamilyName(r.value) + "_")
  {
    if Text.StartsWith(s, "manylinux_") then Some(ManylinuxFamily)
    else if Text.StartsWith(s, "macos_") then Some(MacosFamily)
    else if Text.StartsWith(s, "musllinux_") then Some(MusllinuxFamily)
    else None
  }

  /** A digit run followed by `_` at the start of `s`: the run and what follows the `_`. */
  function DigitsField(s: string): (r: Option<(string, string)>)
    ensures r.Some? ==> Text.IsDigits(r.value.0) && s == r.value.0 + "_" + r.value.1
  {
    var i := Utils.LeadingDigits(s);
    if i == 0 || i >= |s| || s[i] != '_' then None
    else
      assert s == s[..i] + "_" + s[i + 1..];
      Some((s[..i], s[i + 1..]))
  }

  /** A hand-written recogniser for `_platform_major_minor_re`, giving its four groups. */
  function MatchVersioned(s: string): Option<(Family, string, string, string)> {
    var body := Utils.Body(s);
    match FamilyPrefix(body)
    case None => None
    case Some(f) =>
      match DigitsField(body[|FamilyName(f)| + 1..])
      case None => None
      case Some((major, rest)) =>
        match DigitsField(rest)
        case None => None
        case Some((minor, arch)) =>
          if IsArchText(arch) then Some((f, major, minor, arch)) else None
  }

  lemma Glue(name: string, major: string, minor: string, arch: string, rest: string, tail: string, body: string)
    requires body == name + "_" + tail && tail == major + "_" + rest && rest == minor + "_" + arch
    ensures body == name + "_" + major + "_" + minor + "_" + arch
  {
  }

  /** What the recogniser returns fits the pattern. */
  lemma MatchVersionedSound(s: string)
    ensures var m := MatchVersioned(s);
      m.Some? ==> MatchesVersioned(s, m.value.0, m.value.1, m.value.2, m.value.3)
  {
    var m := MatchVersioned(s);
    if m.Some? {
      var body := Utils.Body(s);
      var f := FamilyPrefix(body).value;
      var name := FamilyName(f);
      var tail := body[|name| + 1..];
      assert body == name + "_" + tail by {
        assert body[..|name| + 1] == name + "_";
      }
      var (major, rest) := DigitsField(tail).value;
      var (minor, arch) := DigitsField(rest).value;
      Glue(name, major, minor, arch, rest, tail, body);
    }
  }

  lemma {:induction false} LeadingDigitsConcat(a: string, t: string)
    requires forall k :: 0 <= k < |a| ==> Text.IsDigit(a[k])
    requires |t| > 0 && !Text.IsDigit(t[0])
    ensures Utils.LeadingDigits(a + t) == |a|
    decreases |a|
  {
    if |a| > 0 {
      assert (a + t)[1..] == a[1..] + t;
      LeadingDigitsConcat(a[1..], t);
    } else {
      assert a + t == t;
    }
  }

  lemma DigitsFieldOf(d: string, rest: string)
    requires Text.IsDigits(d)
    ensures DigitsField(d + "_" + rest) == Some((d, rest))
  {
    var s := d + "_" + rest;
    LeadingDigitsConcat(d, "_" + rest);
    assert s == d + ("_" + rest);
    assert s[..|d|] == d && s[|d| + 1..] == rest;
  }

  lemma Glue2(name: string, major: string, minor: string, arch: string, body: string)
    requires body == name + "_" + major + "_" + minor + "_" + arch
    ensures body == name + "_" + (major + "_" + minor + "_" + arch)
    ensures major + "_" + minor + "_" + arch == major + "_" + (minor + "_" + arch)
  {
  }

  lemma FamilyPrefixOf(f: Family, tail: string)
    ensures FamilyPrefix(FamilyName(f) + "_" + tail) == Some(f)
  {
    var body := FamilyName(f) + "_" + tail;
    assert body[..|FamilyName(f)| + 1] == FamilyName(f) + "_";
    if f == MusllinuxFamily {
      assert body[1] == 'u';
    } else if f == MacosFamily {
      assert body[2] == 'c';
    }
  }

  /** Every string of the pattern's shape is recognised, with exactly its groups. */
  lemma MatchVersionedComplete(s: string, f: Family, major: string, minor: string, arch: string)
    requires MatchesVersioned(s, f, major, minor, arch)
    ensures MatchVersioned(s) == Some((f, major, minor, arch))
  {
    var body := Utils.Body(s);
    var name := FamilyName(f);
    var rest := minor + "_" + arch;
    var tail := major + "_" + rest;
    Glue2(name, major, minor, arch, body);
    assert body == name + "_" + tail;
    FamilyPrefixOf(f, tail);
    assert body[|name| + 1..] == tail;
    DigitsFieldOf(major, rest);
    DigitsFieldOf(minor, arch);
  }

  /** `Platform.parse(platform)` */
  function Parse(s: string): Result<Platform, Failure> {
    if s == "linux" then Ok(Platform(Manylinux(2, 17), X86_64))
    else if s == "windows" then Ok(Platform(Windows, X86_64))
    else if s == "macos" then Ok(Platform(Macos(14, 0), Aarch64))
    else if s == "alpine" then Ok(Platform(Musllinux(1, 2), X86_64))
    else if Text.StartsWith(s, "windows_") then
      // `split("_", 1)[1]`: everything after the first `_`, which is the eighth character
      match ArchParse(s[8..])
      case Err(e) => Err(e)
      case Ok(a) => Ok(Platform(Windows, a))
    else if s == "macos_arm64" then Ok(Platform(Macos(12, 0), Aarch64))
    else if s == "macos_x86_64" then Ok(Platform(Macos(12, 0), X86_64))
    else ParseVersionedName(s)
  }

  function FamilyOs(f: Family, major: nat, minor: nat): Os {
    match f
    case ManylinuxFamily => Manylinux(major, minor)
    case MacosFamily => Macos(major, minor)
    case MusllinuxFamily => Musllinux(major, minor)
  }

  /** The last branch of `Platform.parse`: the pattern, `int()` of its numbers and `Arch.parse` of its arch. */
  function ParseVersionedName(s: string): Result<Platform, Failure> {
    match MatchVersioned(s)
    case None => Err(PlatformError)
    case Some((f, major, minor, arch)) =>
      match ArchParse(arch)
      case Err(e) => Err(e)
      case Ok(a) => Ok(Platform(FamilyOs(f, Text.DigitsValue(major), Text.DigitsValue(minor)), a))
  }

  /** The aliases `Platform.parse` knows by name. */
  lemma ParseAliases()
    ensures Parse("linux") == Ok(Platform(Manylinux(2, 17), X86_64))
    ensures Parse("windows") == Ok(Platform(Windows, X86_64))
    ensures Parse("macos") == Ok(Platform(Macos(14, 0), Aarch64))
    ensures Parse("alpine") == Ok(Platform(Musllinux(1, 2), X86_64))
    ensures Parse("macos_arm64") == Ok(Platform(Macos(12, 0), Aarch64))
    ensures Parse("macos_x86_64") == Ok(Platform(Macos(12, 0), X86_64))
  {
    assert !Text.StartsWith("macos_arm64", "windows_") by { assert "macos_arm64"[0] == 'm'; }
    assert !Text.StartsWith("macos_x86_64", "windows_") by { assert "macos_x86_64"[0] == 'm'; }
  }

  /** `windows_<arch>` is Windows on whatever `Arch.parse` makes of the rest. */
  lemma ParseWindows(rest: string)
    ensures Parse("windows_" + rest) == (match ArchParse(rest)
      case Ok(a) => Ok(Platform(Windows, a))
      case Err(e) => Err(e))
  {
    var s := "windows_" + rest;
    assert Text.StartsWith(s, "windows_");
    assert s[8..] == rest;
    assert s != "linux" && s != "windows" && s != "macos" && s != "alpine" by {
      assert |s| >= 8;
    }
  }

  /** The versioned names: family, two digit runs and an arch that `Arch.parse` reads. */
  lemma ParseVersioned(s: string, f: Family, major: string, minor: string, arch: string, a: Arch)
    requires s == FamilyName(f) + "_" + major + "_" + minor + "_" + arch
    requires Text.IsDigits(major) && Text.IsDigits(minor) && IsArchText(arch)
    requires ArchParse(arch) == Ok(a)
    ensures Parse(s) == Ok(Platform(FamilyOs(f, Text.DigitsValue(major), Text.DigitsValue(minor)), a))
  {
    ParseFallsThrough(s, f, major, minor, arch);
    assert Utils.Body(s) == s by {
      assert s[|s| - 1] == arch[|arch| - 1];
    }
    MatchVersionedComplete(s, f, major, minor, arch);
  }

  /** A versioned name is none of the earlier cases of `Platform.parse`. */
  lemma ParseFallsThrough(s: string, f: Family, major: string, minor: string, arch: string)
    requires s == FamilyName(f) + "_" + major + "_" + minor + "_" + arch
    requires Text.IsDigits(major)
    ensures Parse(s) == ParseVersionedName(s)
  {
    var name := FamilyName(f);
    assert s[0] == 'm' by { assert s[0] == name[0]; }
    assert s[|name| + 1] == major[0];
    assert Text.IsDigit(major[0]);
    assert |s| > |name| + 1;
    assert !Text.StartsWith(s, "windows_");
    if f == MacosFamily {
      assert s[6] == major[0];
      assert s != "macos_arm64" && s != "macos_x86_64";
    } else {
      assert s[2] == name[2];
      assert s != "macos_arm64" && s != "macos_x86_64";
    }
    assert s != "macos" by { assert |s| > 5; }
    ParseOther(s);
  }

  /** Anything that is not an alias, has no `windows_` prefix and does not fit the pattern is refused. */
  lemma ParseRejects(s: string)
    requires s !in ["linux", "windows", "macos", "alpine", "macos_arm64", "macos_x86_64"]
    requires !Text.StartsWith(s, "windows_")
    requires forall f, major, minor, arch :: !MatchesVersioned(s, f, major, minor, arch)
    ensures Parse(s) == Err(PlatformError)
  {
    MatchVersionedSound(s);
  }

  // ---------------------------------------------------------------------
  // __str__
  // ---------------------------------------------------------------------

  /** `str(platform)` as written: the `Os` class name, then the arch (two special spellings). */
  function Str(p: Platform): string {
    if p.os.Windows? && p.arch == X86_64 then "windows_amd64"
    else if (p.os.Macos? || p.os.Windows?) && p.arch == Aarch64 then OsClassName(p.os) + "_arm64"
    else OsClassName(p.os) + "_" + ArchValue(p.arch)
  }

  /**
   * `str()` with the lower-case names `Platform.parse` reads. Windows on
   * every arch, and the macOS 12.0 aliases, read back as themselves.
   */
  function StrCorrected(p: Platform): string {
    if p.os.Windows? && p.arch == X86_64 then "windows_amd64"
    else if (p.os.Macos? || p.os.Windows?) && p.arch == Aarch64 then Text.Lower(OsClassName(p.os)) + "_arm64"
    else Text.Lower(OsClassName(p.os)) + "_" + ArchValue(p.arch)
  }

  /** `str()` keeps only the kind of operating system and the arch: versions and releases are dropped. */
  lemma StrForgetsVersions(p: Platform, q: Platform)
    requires OsClassName(p.os) == OsClassName(q.os) && p.arch == q.arch
    ensures Str(p) == Str(q) && StrCorrected(p) == StrCorrected(q)
  {
  }

  lemma LowerWindows()
    ensures Text.Lower("Windows") == "windows"
    ensures Text.Lower("Macos") == "macos"
  {
    assert Text.LowerChar('W') == 'w';
    assert Text.LowerChar('M') == 'm';
  }

  /** The corrected `str()` of a Windows platform, and of the macOS 12.0 aliases, parses back to it. */
  lemma StrCorrectedParses(p: Platform)
    requires p.os.Windows? || (p.os == Macos(12, 0) && (p.arch == Aarch64 || p.arch == X86_64))
    ensures Parse(StrCorrected(p)) == Ok(p)
  {
    if p.os.Windows? {
      WindowsStrCorrectedParses(p.arch);
    } else {
      MacosAliasStrCorrected();
      ParseAliases();
    }
  }

  lemma MacosAliasStrCorrected()
    ensures StrCorrected(Platform(Macos(12, 0), Aarch64)) == "macos_arm64"
    ensures StrCorrected(Platform(Macos(12, 0), X86_64)) == "macos_x86_64"
  {
    LowerWindows();
    assert OsClassName(Macos(12, 0)) == "Macos";
    assert ArchValue(X86_64) == "x86_64";
  }

  lemma WindowsStrCorrectedParses(a: Arch)
    ensures Parse(StrCorrected(Platform(Windows, a))) == Ok(Platform(Windows, a))
  {
    var p := Platform(Windows, a);
    if a == X86_64 {
      ParseWindows("amd64");
      assert "windows_" + "amd64" == "windows_amd64";
    } else {
      LowerWindows();
      var rest := if a == Aarch64 then "arm64" else ArchValue(a);
      assert StrCorrected(p) == "windows_" + rest;
      ArchParseSpec(rest);
      ParseWindows(rest);
    }
  }

  /**
   * `Platform.parse("windows_arm64")` is Windows on aarch64, whose `str()`
   * is `Windows_arm64`, which `Platform.parse` refuses: the capitalised
   * class name never reads back.
   */
  lemma StrDoesNotParse()
    ensures Parse("windows_arm64") == Ok(Platform(Windows, Aarch64))
    ensures Str(Platform(Windows, Aarch64)) == "Windows_arm64"
    ensures Parse("Windows_arm64") == Err(PlatformError)
  {
    WindowsArm64Parses();
    WindowsArm64Str();
    CapitalisedRefused();
  }

  lemma WindowsArm64Str()
    ensures Str(Platform(Windows, Aarch64)) == "Windows_arm64"
  {
    assert OsClassName(Windows) == "Windows";
  }

  lemma WindowsArm64Parses()
    ensures Parse("windows_arm64") == Ok(Platform(Windows, Aarch64))
  {
    var s := "windows_arm64";
    assert Text.StartsWith(s, "windows_") by { assert s[..8] == "windows_"; }
    assert s[8..] == "arm64";
    assert ArchParse("arm64") == Ok(Aarch64);
    assert s !in ["linux", "windows", "macos", "alpine"] by { assert |s| == 13; }
  }

  lemma CapitalisedRefused()
    ensures Parse("Windows_arm64") == Err(PlatformError)
  {
    var s := "Windows_arm64";
    CapitalisedNotNamed();
    CapitalisedUnmatched();
    ParseOther(s);
  }

  /** `Windows_arm64` is none of the aliases and lacks the lower-case `windows_` prefix. */
  lemma CapitalisedNotNamed()
    ensures "Windows_arm64" != "linux" && "Windows_arm64" != "windows" && "Windows_arm64" != "macos"
    ensures "Windows_arm64" != "alpine" && "Windows_arm64" != "macos_arm64" && "Windows_arm64" != "macos_x86_64"
    ensures !Text.StartsWith("Windows_arm64", "windows_")
  {
    var s := "Windows_arm64";
    assert s[0] == 'W';
  }

  /** `Windows_arm64` starts with no family name, so the pattern does not match it. */
  lemma CapitalisedUnmatched()
    ensures MatchVersioned("Windows_arm64").None?
  {
    var s := "Windows_arm64";
    assert Utils.Body(s) == s;
    assert FamilyPrefix(s).None? by { assert s[0] == 'W'; }
  }

  /** A name that is no alias and has no `windows_` prefix goes to the pattern. */
  lemma ParseOther(s: string)
    requires s != "linux" && s != "windows" && s != "macos" && s != "alpine"
    requires s != "macos_arm64" && s != "macos_x86_64"
    requires !Text.StartsWith(s, "windows_")
    ensures Parse(s) == ParseVersionedName(s)
  {
  }

  // ---------------------------------------------------------------------
  // Count-down loops
  // ---------------------------------------------------------------------

  /**
   * Rows `row(hi)`, `row(hi - 1)`, ..., `row(lo)` laid end to end: the
   * shape of the manylinux and macOS loops, which count a version down and
   * emit a few tags per version.
   */
  function Countdown<T>(hi: int, lo: int, row: int -> seq<T>): seq<T>
    decreases hi - lo + 1
  {
    if hi < lo then [] else row(hi) + Countdown(hi - 1, lo, row)
  }

  /** Where row `v` starts in a count-down from `hi`: the total length of rows `hi` down to `v + 1`. */
  function Offset<T>(hi: int, v: int, row: int -> seq<T>): nat
    decreases hi - v
  {
    if hi <= v then 0 else |row(hi)| + Offset(hi - 1, v, row)
  }

  lemma {:induction false} CountdownLength<T>(hi: int, lo: int, row: int -> seq<T>)
    ensures |Countdown(hi, lo, row)| == Offset(hi, lo - 1, row)
    decreases hi - lo + 1
  {
    if hi >= lo {
      CountdownLength(hi - 1, lo, row);
    }
  }

  /** Element `j` of row `v` sits at `Offset(hi, v, row) + j`. */
  lemma {:induction false} CountdownAt<T>(hi: int, lo: int, row: int -> seq<T>, v: int, j: int)
    requires lo <= v <= hi && 0 <= j < |row(v)|
    ensures Offset(hi, v, row) + j < |Countdown(hi, lo, row)|
    ensures Countdown(hi, lo, row)[Offset(hi, v, row) + j] == row(v)[j]
    decreases hi - lo + 1
  {
    assert Countdown(hi, lo, row) == row(hi) + Countdown(hi - 1, lo, row);
    if v < hi {
      CountdownAt(hi - 1, lo, row, v, j);
    }
  }

  /** Every element of a count-down comes from the row of some version in range. */
  lemma {:induction false} CountdownMembers<T>(hi: int, lo: int, row: int -> seq<T>, t: T)
    requires t in Countdown(hi, lo, row)
    ensures exists v :: lo <= v <= hi && t in row(v)
    decreases hi - lo + 1
  {
    assert Countdown(hi, lo, row) == row(hi) + Countdown(hi - 1, lo, row);
    if t !in row(hi) {
      CountdownMembers(hi - 1, lo, row, t);
    }
  }

  /** A value no row holds is not in the count-down. */
  lemma {:induction false} CountdownAvoids<T>(hi: int, lo: int, row: int -> seq<T>, t: T)
    requires forall v :: lo <= v <= hi ==> t !in row(v)
    ensures t !in Countdown(hi, lo, row)
    decreases hi - lo + 1
  {
    if hi >= lo {
      CountdownAvoids(hi - 1, lo, row, t);
    }
  }

  // ---------------------------------------------------------------------
  // compatible_tags
  // ---------------------------------------------------------------------

  function PerennialTag(major: int, minor: int, a: Arch): string {
    "manylinux_" + Text.IntToString(major) + "_" + Text.IntToString(minor) + "_" + ArchValue(a)
  }

  predicate IsLegacyMinor(m: int) {
    m == 12 || m == 17 || m == 5
  }

  /** The legacy name PEP 600 keeps for glibc 2.12, 2.17 and 2.5. */
  function LegacyName(m: int, a: Arch): string {
    if m == 12 then "manylinux2010_" + ArchValue(a)
    else if m == 17 then "manylinux2014_" + ArchValue(a)
    else "manylinux1_" + ArchValue(a)
  }

  /** The legacy alias placed right after the perennial tag of minors 12, 17 and 5; none for the others. */
  function LegacyAlias(m: int, a: Arch): seq<string> {
    if IsLegacyMinor(m) then [LegacyName(m, a)] else []
  }

  function LinuxTag(a: Arch): string {
    "linux_" + ArchValue(a)
  }

  /** How many of the legacy minors 5, 12 and 17 lie in `[lo, hi]`. */
  function LegacyCount(lo: int, hi: int): nat {
    (if lo <= 5 <= hi then 1 else 0) + (if lo <= 12 <= hi then 1 else 0) + (if lo <= 17 <= hi then 1 else 0)
  }

  lemma LegacyCountStep(m: int, minor: int)
    requires m < minor
    ensures LegacyCount(m + 1, minor) == LegacyCount(m + 1, minor - 1) + (if IsLegacyMinor(minor) then 1 else 0)
  {
  }

  /** One pass of the manylinux loop: the perennial tag of minor `m`, then its legacy alias if it has one. */
  function ManylinuxRow(major: int, a: Arch): int -> seq<string> {
    m => [PerennialTag(major, m, a)] + LegacyAlias(m, a)
  }

  /** The manylinux loop: minors from `minor` down to `lo`. */
  function ManylinuxRun(major: int, minor: int, lo: int, a: Arch): seq<string> {
    Countdown(minor, lo, ManylinuxRow(major, a))
  }

  /** Minor `m` starts after the `minor - m` higher minors and the aliases among them. */
  lemma {:induction false} ManylinuxOffset(major: int, a: Arch, minor: int, m: int)
    requires m <= minor
    ensures Offset(minor, m, ManylinuxRow(major, a)) == (minor - m) + LegacyCount(m + 1, minor)
    decreases minor - m
  {
    if m < minor {
      ManylinuxOffset(major, a, minor - 1, m);
      LegacyCountStep(m, minor);
    }
  }

  /** The manylinux run holds `minor - lo + 1` perennial tags and one alias per legacy minor in range. */
  lemma ManylinuxRunLength(major: int, minor: int, lo: int, a: Arch)
    ensures |ManylinuxRun(major, minor, lo, a)| == (if minor >= lo then minor - lo + 1 else 0) + LegacyCount(lo, minor)
  {
    CountdownLength(minor, lo, ManylinuxRow(major, a));
    if minor >= lo - 1 {
      ManylinuxOffset(major, a, minor, lo - 1);
    }
  }

  /**
   * In the manylinux run the tag for minor `m` sits after the `minor - m`
   * higher minors and their aliases.
   */
  lemma ManylinuxRunPosition(major: int, minor: int, lo: int, a: Arch, m: int)
    requires lo <= m <= minor
    ensures (minor - m) + LegacyCount(m + 1, minor) < |ManylinuxRun(major, minor, lo, a)|
    ensures ManylinuxRun(major, minor, lo, a)[(minor - m) + LegacyCount(m + 1, minor)] == PerennialTag(major, m, a)
  {
    var row := ManylinuxRow(major, a);
    ManylinuxOffset(major, a, minor, m);
    assert row(m)[0] == PerennialTag(major, m, a);
    CountdownAt(minor, lo, row, m, 0);
  }

  /** A legacy minor's alias comes directly after its perennial tag. */
  lemma ManylinuxAliasPosition(major: int, minor: int, lo: int, a: Arch, m: int)
    requires lo <= m <= minor && IsLegacyMinor(m)
    ensures (minor - m) + LegacyCount(m + 1, minor) + 1 < |ManylinuxRun(major, minor, lo, a)|
    ensures ManylinuxRun(major, minor, lo, a)[(minor - m) + LegacyCount(m + 1, minor) + 1] == LegacyName(m, a)
  {
    var row := ManylinuxRow(major, a);
    assert 1 < |row(m)| && row(m)[1] == LegacyName(m, a) by {
      ManylinuxRowAlias(major, a, m);
    }
    CountdownAt(minor, lo, row, m, 1);
    ManylinuxOffset(major, a, minor, m);
  }

  /** A legacy minor's pass of the loop adds its perennial tag and then its alias. */
  lemma ManylinuxRowAlias(major: int, a: Arch, m: int)
    requires IsLegacyMinor(m)
    ensures |ManylinuxRow(major, a)(m)| == 2 && ManylinuxRow(major, a)(m)[1] == LegacyName(m, a)
  {
    var alias := LegacyAlias(m, a);
    assert alias == [LegacyName(m, a)];
    assert ManylinuxRow(major, a)(m) == [PerennialTag(major, m, a)] + alias;
  }

  /** Every tag of the manylinux run is a perennial tag or a legacy alias of a minor in range. */
  lemma ManylinuxRunMembers(major: int, minor: int, lo: int, a: Arch, t: string)
    requires t in ManylinuxRun(major, minor, lo, a)
    ensures exists m :: lo <= m <= minor && (t == PerennialTag(major, m, a) || t in LegacyAlias(m, a))
  {
    CountdownMembers(minor, lo, ManylinuxRow(major, a), t);
    var m :| lo <= m <= minor && t in ManylinuxRow(major, a)(m);
    assert t in [PerennialTag(major, m, a)] + LegacyAlias(m, a);
  }

  lemma ManylinuxRunNotAny(major: int, minor: int, lo: int, a: Arch)
    ensures "any" !in ManylinuxRun(major, minor, lo, a)
  {
    var row := ManylinuxRow(major, a);
    forall v | lo <= v <= minor
      ensures "any" !in row(v)
    {
      assert |PerennialTag(major, v, a)| > 3;
    }
    CountdownAvoids(minor, lo, row, "any");
  }

  function MusllinuxTag(major: int, minor: int, a: Arch): string {
    "musllinux_" + Text.IntToString(major) + "_" + Text.IntToString(minor) + "_" + ArchValue(a)
  }

  /** The musllinux loop: minors 1 to `minor`, ascending. */
  function MusllinuxRun(major: int, minor: int, a: Arch): seq<string>
    decreases minor
  {
    if minor < 1 then [] else MusllinuxRun(major, minor - 1, a) + [MusllinuxTag(major, minor, a)]
  }

  /** The musllinux run holds one tag per minor from 1 up to `minor`, in that order. */
  lemma {:induction false} MusllinuxRunShape(major: int, minor: int, a: Arch)
    ensures |MusllinuxRun(major, minor, a)| == (if minor < 1 then 0 else minor)
    ensures forall i :: 0 <= i < |MusllinuxRun(major, minor, a)| ==>
      MusllinuxRun(major, minor, a)[i] == MusllinuxTag(major, i + 1, a)
    decreases minor
  {
    if minor >= 1 {
      MusllinuxRunShape(major, minor - 1, a);
    }
  }

  lemma {:induction false} MusllinuxRunNotAny(major: int, minor: int, a: Arch)
    ensures "any" !in MusllinuxRun(major, minor, a)
    decreases minor
  {
    if minor >= 1 {
      MusllinuxRunNotAny(major, minor - 1, a);
      assert |MusllinuxTag(major, minor, a)| > 3;
    }
  }

  function MacTag(major: int, minor: int, format: string): string {
    "macosx_" + Text.IntToString(major) + "_" + Text.IntToString(minor) + "_" + format
  }

  /** Which version number a run of macOS tags counts down: the major (`M_0`) or the 10.x minor (`10_m`). */
  datatype MacAxis = Majors | Minors10

  function AxisTag(axis: MacAxis, v: int, format: string): string {
    match axis
    case Majors => MacTag(v, 0, format)
    case Minors10 => MacTag(10, v, format)
  }

  /** One pass of the outer macOS loop: the version `v` in every binary format, in order. */
  function MacRow(axis: MacAxis, formats: seq<string>): int -> seq<string> {
    v => seq(|formats|, j requires 0 <= j < |formats| => AxisTag(axis, v, formats[j]))
  }

  /** The nested macOS loops: versions from `hi` down to `lo`, each with every binary format. */
  function MacGrid(axis: MacAxis, hi: int, lo: int, formats: seq<string>): seq<string> {
    Countdown(hi, lo, MacRow(axis, formats))
  }

  lemma {:induction false} MacOffset(axis: MacAxis, formats: seq<string>, hi: int, v: int)
    requires v <= hi
    ensures Offset(hi, v, MacRow(axis, formats)) == (hi - v) * |formats|
    decreases hi - v
  {
    if v < hi {
      MacOffset(axis, formats, hi - 1, v);
      assert (hi - v) * |formats| == |formats| + (hi - 1 - v) * |formats|;
    }
  }

  /** The grid is row-major: version `v` and format `j` sit at `(hi - v) * |formats| + j`. */
  lemma MacGridShape(axis: MacAxis, hi: int, lo: int, formats: seq<string>, v: int, j: int)
    ensures |MacGrid(axis, hi, lo, formats)| == (if hi >= lo then (hi - lo + 1) * |formats| else 0)
    ensures lo <= v <= hi && 0 <= j < |formats| ==>
      (hi - v) * |formats| + j < |MacGrid(axis, hi, lo, formats)|
      && MacGrid(axis, hi, lo, formats)[(hi - v) * |formats| + j] == AxisTag(axis, v, formats[j])
  {
    MacGridLength(axis, hi, lo, formats);
    if lo <= v <= hi && 0 <= j < |formats| {
      MacGridAt(axis, hi, lo, formats, v, j);
      MacOffset(axis, formats, hi, v);
    }
  }

  lemma MacGridLength(axis: MacAxis, hi: int, lo: int, formats: seq<string>)
    ensures |MacGrid(axis, hi, lo, formats)| == (if hi >= lo then (hi - lo + 1) * |formats| else 0)
  {
    var row := MacRow(axis, formats);
    CountdownLength(hi, lo, row);
    if hi >= lo - 1 {
      MacOffset(axis, formats, hi, lo - 1);
    }
  }

  lemma MacGridAt(axis: MacAxis, hi: int, lo: int, formats: seq<string>, v: int, j: int)
    requires lo <= v <= hi && 0 <= j < |formats|
    ensures Offset(hi, v, MacRow(axis, formats)) + j < |MacGrid(axis, hi, lo, formats)|
    ensures MacGrid(axis, hi, lo, formats)[Offset(hi, v, MacRow(axis, formats)) + j] == AxisTag(axis, v, formats[j])
  {
    var row := MacRow(axis, formats);
    assert 0 <= j < |row(v)| && row(v)[j] == AxisTag(axis, v, formats[j]) by {
      MacRowAt(axis, formats, v, j);
    }
    CountdownAt(hi, lo, row, v, j);
  }

  lemma MacRowAt(axis: MacAxis, formats: seq<string>, v: int, j: int)
    requires 0 <= j < |formats|
    ensures |MacRow(axis, formats)(v)| == |formats|
    ensures MacRow(axis, formats)(v)[j] == AxisTag(axis, v, formats[j])
  {
  }

  lemma MacGridNotAny(axis: MacAxis, hi: int, lo: int, formats: seq<string>)
    ensures "any" !in MacGrid(axis, hi, lo, formats)
  {
    var row := MacRow(axis, formats);
    forall v | lo <= v <= hi
      ensures "any" !in row(v)
    {
      forall j | 0 <= j < |formats|
        ensures row(v)[j] != "any"
      {
        assert |AxisTag(axis, v, formats[j])| > 3;
      }
    }
    CountdownAvoids(hi, lo, row, "any");
  }

  /** macOS on x86_64: 10.x counts the minor down to 10.4; 11 and later count the major down to 11, then 10.16 to 10.4. */
  function MacX86Tags(major: int, minor: int): Result<seq<string>, Failure> {
    var formats := MacBinaryFormats(X86_64);
    if major == 10 then Ok(MacGrid(Minors10, minor, 4, formats))
    else if major >= 11 then Ok(MacGrid(Majors, major, 11, formats) + MacGrid(Minors10, 16, 4, formats))
    else Err(PlatformError)
  }

  /** macOS on arm64: the major down to 11 in `arm64` and `universal2`, then 10.16 to 10.4 in `universal2`. */
  function MacArmTags(major: int): seq<string> {
    MacGrid(Majors, major, 11, MacBinaryFormats(Aarch64)) + MacGrid(Minors10, 16, 4, ["universal2"])
  }

  /** The release text of a BSD-style tag: `.` and `-` become `_`. */
  function ReleaseTag(release: string): string {
    Text.Replace(Text.Replace(release, ".", "_"), "-", "_")
  }

  /** The Illumos branch: `illumos_` without a `_` in the release, `solaris_` from SunOS 5 on, nothing before. */
  function IllumosTags(release: string, a: Arch): Result<seq<string>, Failure> {
    match Text.SplitOnce(release, '_')
    case None => Ok(["illumos_" + release + "_" + ArchValue(a)])
    case Some((major, other)) =>
      match Text.ParseInt(major)
      case None => Err(ValueError)
      case Some(n) =>
        if n >= 5 then Ok(["solaris_" + Text.IntToString(n - 3) + "_" + other + "_" + ArchValue(a) + "_64bit"])
        else Ok([])
  }

  /** `platform.compatible_tags` */
  function CompatibleTags(p: Platform): Result<seq<string>, Failure> {
    var a := p.arch;
    match p.os
    case Manylinux(major, minor) =>
      Ok((match MinManylinuxMinor(a)
          case Some(lo) => ManylinuxRun(major, minor, lo, a)
          case None => []) + [LinuxTag(a)])
    case Musllinux(major, minor) => Ok([LinuxTag(a)] + MusllinuxRun(major, minor, a))
    case Macos(major, minor) =>
      if a == X86_64 then MacX86Tags(major, minor)
      else if a == Aarch64 then Ok(MacArmTags(major))
      else Err(PlatformError)
    case Windows =>
      if a == X86 then Ok(["win32"])
      else if a == X86_64 then Ok(["win_amd64"])
      else if a == Aarch64 then Ok(["win_arm64"])
      else Err(PlatformError)
    case FreeBsd(release) => Ok(["freebsd_" + ReleaseTag(release) + "_" + ArchValue(a)])
    case NetBsd(release) => Ok(["netbsd_" + ReleaseTag(release) + "_" + ArchValue(a)])
    case OpenBsd(release) => Ok(["openbsd_" + ReleaseTag(release) + "_" + ArchValue(a)])
    case Dragonfly(release) => Ok(["dragonfly_" + ReleaseTag(release) + "_" + ArchValue(a)])
    case Haiku(release) => Ok(["haiku_" + ReleaseTag(release) + "_" + ArchValue(a)])
    case Illumos(release, _) => IllumosTags(release, a)
  }

  /**
   * Manylinux: the run from `os.minor` down to the arch's minimum minor
   * (empty for an arch without one), then `linux_<arch>` last.
   */
  lemma ManylinuxTags(major: int, minor: int, a: Arch)
    ensures var r := CompatibleTags(Platform(Manylinux(major, minor), a));
      r.Ok? && |r.value| > 0 && r.value[|r.value| - 1] == LinuxTag(a)
      && (MinManylinuxMinor(a).None? ==> r.value == [LinuxTag(a)])
      && (MinManylinuxMinor(a).Some? ==>
            r.value[..|r.value| - 1] == ManylinuxRun(major, minor, MinManylinuxMinor(a).value, a))
  {
    var r := CompatibleTags(Platform(Manylinux(major, minor), a)).value;
    assert r[..|r| - 1] == (match MinManylinuxMinor(a) case Some(lo) => ManylinuxRun(major, minor, lo, a) case None => []);
  }

  /** Musllinux: `linux_<arch>` first, then one tag per minor from 1 up to `os.minor`. */
  lemma MusllinuxTags(major: int, minor: int, a: Arch)
    ensures var r := CompatibleTags(Platform(Musllinux(major, minor), a));
      r.Ok? && |r.value| == 1 + (if minor < 1 then 0 else minor)
      && r.value[0] == LinuxTag(a)
      && forall i :: 1 <= i < |r.value| ==> r.value[i] == MusllinuxTag(major, i, a)
  {
    MusllinuxRunShape(major, minor, a);
    var r := CompatibleTags(Platform(Musllinux(major, minor), a)).value;
    assert forall i :: 1 <= i < |r| ==> r[i] == MusllinuxRun(major, minor, a)[i - 1];
  }

  /** Windows: exactly one tag for x86, x86_64 and aarch64; any other arch is refused. */
  lemma WindowsTags(a: Arch)
    ensures a == X86 ==> CompatibleTags(Platform(Windows, a)) == Ok(["win32"])
    ensures a == X86_64 ==> CompatibleTags(Platform(Windows, a)) == Ok(["win_amd64"])
    ensures a == Aarch64 ==> CompatibleTags(Platform(Windows, a)) == Ok(["win_arm64"])
    ensures CompatibleTags(Platform(Windows, a)).Ok? <==> a in [X86, X86_64, Aarch64]
    ensures CompatibleTags(Platform(Windows, a)).Err? ==> CompatibleTags(Platform(Windows, a)).error == PlatformError
  {
  }

  /**
   * macOS on arm64: `macosx_M_0_arm64` then `macosx_M_0_universal2` for
   * each major M from `os.major` down to 11, then `macosx_10_m_universal2`
   * for m from 16 down to 4. Any arch but x86_64 and aarch64 is refused.
   */
  lemma MacArmShape(major: int, minor: int, v: int, j: int, m: int)
    ensures var r := CompatibleTags(Platform(Macos(major, minor), Aarch64));
      var k := if major >= 11 then 2 * (major - 10) else 0;
      r.Ok? && |r.value| == k + 13
      && (11 <= v <= major && 0 <= j < 2 ==> r.value[2 * (major - v) + j] == MacTag(v, 0, ["arm64", "universal2"][j]))
      && (4 <= m <= 16 ==> r.value[k + (16 - m)] == MacTag(10, m, "universal2"))
  {
    var formats := MacBinaryFormats(Aarch64);
    MacGridShape(Majors, major, 11, formats, v, j);
    MacGridShape(Minors10, 16, 4, ["universal2"], m, 0);
  }

  /** macOS 10.x on x86_64: `macosx_10_m_<format>` for m from the minor down to 4, each in all six binary formats. */
  lemma MacX86Ten(minor: int, v: int, j: int)
    ensures var r := CompatibleTags(Platform(Macos(10, minor), X86_64));
      var fs := MacBinaryFormats(X86_64);
      r.Ok? && |r.value| == (if minor >= 4 then (minor - 3) * 6 else 0)
      && (4 <= v <= minor && 0 <= j < 6 ==> r.value[(minor - v) * 6 + j] == MacTag(10, v, fs[j]))
  {
    MacGridShape(Minors10, minor, 4, MacBinaryFormats(X86_64), v, j);
  }

  /**
   * macOS 11 and later on x86_64: `macosx_M_0_<format>` for M from the
   * major down to 11, then `macosx_10_m_<format>` for m from 16 down to 4,
   * each version in all six binary formats.
   */
  lemma MacX86Eleven(major: int, minor: int, v: int, j: int)
    requires major >= 11
    ensures var r := CompatibleTags(Platform(Macos(major, minor), X86_64));
      var fs := MacBinaryFormats(X86_64);
      r.Ok? && |r.value| == (major - 10) * 6 + 78
      && (11 <= v <= major && 0 <= j < 6 ==> r.value[(major - v) * 6 + j] == MacTag(v, 0, fs[j]))
      && (4 <= v <= 16 && 0 <= j < 6 ==> r.value[(major - 10) * 6 + (16 - v) * 6 + j] == MacTag(10, v, fs[j]))
  {
    var fs := MacBinaryFormats(X86_64);
    MacX86ElevenGrids(major, minor);
    MacTwoGrids(major, fs, v, j);
  }

  lemma MacX86ElevenGrids(major: int, minor: int)
    requires major >= 11
    ensures var fs := MacBinaryFormats(X86_64);
      CompatibleTags(Platform(Macos(major, minor), X86_64)) == Ok(MacGrid(Majors, major, 11, fs) + MacGrid(Minors10, 16, 4, fs))
  {
  }

  /** The majors block from `major` down to 11 followed by the 10.16 to 10.4 block, both in six formats. */
  lemma MacTwoGrids(major: int, fs: seq<string>, v: int, j: int)
    requires major >= 11 && |fs| == 6
    ensures |MacGrid(Majors, major, 11, fs)| == (major - 10) * 6
    ensures |MacGrid(Majors, major, 11, fs) + MacGrid(Minors10, 16, 4, fs)| == (major - 10) * 6 + 78
    ensures 11 <= v <= major && 0 <= j < 6 ==>
      (MacGrid(Majors, major, 11, fs) + MacGrid(Minors10, 16, 4, fs))[(major - v) * 6 + j] == MacTag(v, 0, fs[j])
    ensures 4 <= v <= 16 && 0 <= j < 6 ==>
      (MacGrid(Majors, major, 11, fs) + MacGrid(Minors10, 16, 4, fs))[(major - 10) * 6 + (16 - v) * 6 + j] == MacTag(10, v, fs[j])
  {
    var g1 := MacGrid(Majors, major, 11, fs);
    var g2 := MacGrid(Minors10, 16, 4, fs);
    assert |g1| == (major - 10) * 6 by { MacSixLength(Majors, major, 11, fs); }
    assert |g2| == 78 by { MacSixLength(Minors10, 16, 4, fs); }
    if 11 <= v <= major && 0 <= j < 6 {
      assert g1[(major - v) * 6 + j] == MacTag(v, 0, fs[j]) by { MacSixAt(Majors, major, 11, fs, v, j); }
      assert (g1 + g2)[(major - v) * 6 + j] == g1[(major - v) * 6 + j];
    }
    if 4 <= v <= 16 && 0 <= j < 6 {
      assert g2[(16 - v) * 6 + j] == MacTag(10, v, fs[j]) by { MacSixAt(Minors10, 16, 4, fs, v, j); }
      assert (g1 + g2)[|g1| + (16 - v) * 6 + j] == g2[(16 - v) * 6 + j];
    }
  }

  lemma MacSixLength(axis: MacAxis, hi: int, lo: int, fs: seq<string>)
    requires |fs| == 6 && lo <= hi
    ensures |MacGrid(axis, hi, lo, fs)| == (hi - lo + 1) * 6
  {
    CountdownLength(hi, lo, MacRow(axis, fs));
    MacOffsetSix(axis, fs, hi, lo - 1);
  }

  lemma MacSixAt(axis: MacAxis, hi: int, lo: int, fs: seq<string>, v: int, j: int)
    requires |fs| == 6 && lo <= v <= hi && 0 <= j < 6
    ensures (hi - v) * 6 + j < |MacGrid(axis, hi, lo, fs)|
    ensures MacGrid(axis, hi, lo, fs)[(hi - v) * 6 + j] == AxisTag(axis, v, fs[j])
  {
    MacOffsetSix(axis, fs, hi, v);
    MacGridAt(axis, hi, lo, fs, v, j);
  }

  /** `MacOffset` for six formats, kept free of a product of two unknowns. */
  lemma {:induction false} MacOffsetSix(axis: MacAxis, fs: seq<string>, hi: int, v: int)
    requires |fs| == 6 && v <= hi
    ensures Offset(hi, v, MacRow(axis, fs)) == (hi - v) * 6
    decreases hi - v
  {
    if v < hi {
      MacOffsetSix(axis, fs, hi - 1, v);
      MacRowAt(axis, fs, hi, 0);
    }
  }

  /** macOS on x86_64 below 10 is refused. */
  lemma MacX86Old(major: int, minor: int)
    requires major < 10
    ensures CompatibleTags(Platform(Macos(major, minor), X86_64)) == Err(PlatformError)
  {
  }

  /** macOS on any arch but x86_64 and aarch64 has no tags. */
  lemma MacOtherArchRefused(major: int, minor: int, a: Arch)
    requires a != X86_64 && a != Aarch64
    ensures CompatibleTags(Platform(Macos(major, minor), a)) == Err(PlatformError)
  {
  }

  /** No platform's tag list contains `any`, so `any` always scores below every platform tag. */
  lemma TagsAreNotAny(p: Platform)
    requires CompatibleTags(p).Ok?
    ensures "any" !in CompatibleTags(p).value
  {
    var a := p.arch;
    match p.os
    case Manylinux(major, minor) =>
      if MinManylinuxMinor(a).Some? {
        ManylinuxRunNotAny(major, minor, MinManylinuxMinor(a).value, a);
      }
    case Musllinux(major, minor) =>
      MusllinuxRunNotAny(major, minor, a);
    case Macos(major, minor) =>
      if a == X86_64 {
        if major == 10 {
          MacGridNotAny(Minors10, minor, 4, MacBinaryFormats(X86_64));
        } else {
          MacGridNotAny(Majors, major, 11, MacBinaryFormats(X86_64));
          MacGridNotAny(Minors10, 16, 4, MacBinaryFormats(X86_64));
        }
      } else {
        MacGridNotAny(Majors, major, 11, MacBinaryFormats(Aarch64));
        MacGridNotAny(Minors10, 16, 4, ["universal2"]);
      }
    case Illumos(release, _) =>
      var r := CompatibleTags(p).value;
      if |r| > 0 {
        assert |r[0]| > 3;
      }
    case _ =>
      var r := CompatibleTags(p).value;
      assert |r[0]| > 3;
  }

  // ---------------------------------------------------------------------
  // Marker projections
  // ---------------------------------------------------------------------

  /** `platform.os_name` */
  function OsName(p: Platform): string {
    if p.os.Windows? then "nt" else "posix"
  }

  /** `platform.sys_platform` */
  function SysPlatform(p: Platform): string {
    if p.os.Windows? then "win32"
    else if p.os.Macos? || p.os.Illumos? then "darwin"
    else "linux"
  }

  /** `platform.platform_machine` */
  function PlatformMachine(p: Platform): string {
    if (p.os.Windows? || p.os.Macos?) && p.arch == Aarch64 then "arm64"
    else if p.os.Windows? && p.arch == X86_64 then "AMD64"
    else ArchValue(p.arch)
  }

  /** `platform.platform_system` */
  function PlatformSystem(p: Platform): string {
    if p.os.Macos? then "Darwin"
    else if p.os.Windows? then "Windows"
    else "Linux"
  }

  /**
   * The projections agree on the operating system: Windows is `nt`,
   * `win32` and `Windows` together; macOS and Illumos report `darwin`,
   * only macOS reports `Darwin`; everything else is `posix`, `linux`,
   * `Linux`.
   */
  lemma MarkersAgree(p: Platform)
    ensures OsName(p) == "nt" <==> p.os.Windows?
    ensures SysPlatform(p) == "win32" <==> p.os.Windows?
    ensures PlatformSystem(p) == "Windows" <==> p.os.Windows?
    ensures SysPlatform(p) == "darwin" <==> p.os.Macos? || p.os.Illumos?
    ensures PlatformSystem(p) == "Darwin" <==> p.os.Macos?
    ensures SysPlatform(p) == "linux" <==> PlatformSystem(p) == "Linux" && !p.os.Illumos?
    ensures OsName(p) == "posix" <==> !p.os.Windows?
  {
  }

  /**
   * `platform_machine` names the arch the way the host reports it:
   * `arm64` for aarch64 on Windows and macOS, `AMD64` for x86_64 on
   * Windows, the enum value otherwise, so `Arch.parse` of its lower-case
   * form gives the arch back.
   */
  lemma MachineReadsBack(p: Platform)
    ensures PlatformMachine(p) == "arm64" <==> (p.os.Windows? || p.os.Macos?) && p.arch == Aarch64
    ensures PlatformMachine(p) == "AMD64" <==> p.os.Windows? && p.arch == X86_64
    ensures PlatformMachine(p) != "arm64" && PlatformMachine(p) != "AMD64" ==> PlatformMachine(p) == ArchValue(p.arch)
    ensures ArchParse(Text.Lower(PlatformMachine(p))) == Ok(p.arch)
  {
    var m := PlatformMachine(p);
    if m == "AMD64" {
      assert Text.Lower(m) == "amd64" by {
        assert Text.LowerChar('A') == 'a' && Text.LowerChar('M') == 'm' && Text.LowerChar('D') == 'd';
        assert Text.LowerChar('6') == '6' && Text.LowerChar('4') == '4';
      }
    } else {
      assert Text.Lower(m) == m by {
        forall i | 0 <= i < |m|
          ensures Text.LowerChar(m[i]) == m[i]
        {
          assert !('A' <= m[i] <= 'Z');
        }
      }
      ArchParseSpec(m);
    }
  }
}

=== FILE: ranges.dfy ===
/**
 * `RangeSpecifier`: one interval of versions with optional, inclusive or
 * exclusive bounds. Its source file is not part of this model; the
 * operations below are the ones src/pkg_logical/specifiers/union.py calls
 * (`&`, `|`, `can_combine`, `allows_lower`, `is_any`, `contains`), each
 * defined by the set of versions it admits.
 */
module Ranges {
  import opened Wrappers
  import opened Versions

  /** One end of a range: absent (`None`), or a version and whether it is included. */
  datatype Bound = Unbounded | At(v: Version, inclusive: bool)

  /** `RangeSpecifier(min, max, include_min, include_max)` */
  datatype Range = Range(lo: Bound, hi: Bound)

  /** `RangeSpecifier()`: every version. */
  const AnyRange := Range(Unbounded, Unbounded)

  predicate AboveLo(lo: Bound, x: Version) {
    lo.Unbounded? || Lt(lo.v, x) || (lo.inclusive && Same(lo.v, x))
  }

  predicate BelowHi(hi: Bound, x: Version) {
    hi.Unbounded? || Lt(x, hi.v) || (hi.inclusive && Same(x, hi.v))
  }

  /** `range.contains(x)`, leaving out packaging's pre-release admission policy. */
  predicate Contains(r: Range, x: Version) {
    AboveLo(r.lo, x) && BelowHi(r.hi, x)
  }

  /** `range.is_any()` */
  predicate IsAny(r: Range) {
    r.lo.Unbounded? && r.hi.Unbounded?
  }

  /**
   * The invariant every constructed range keeps: when both bounds are
   * present they do not cross, and equal bounds are both inclusive.
   */
  predicate WellFormed(r: Range) {
    r.lo.At? && r.hi.At? ==>
      Lt(r.lo.v, r.hi.v) || (Same(r.lo.v, r.hi.v) && r.lo.inclusive && r.hi.inclusive)
  }

  /** Lower bound `l1` admits every version lower bound `l2` admits. */
  predicate LoLe(l1: Bound, l2: Bound) {
    l1.Unbounded? ||
    (l2.At? && (Lt(l1.v, l2.v) || (Same(l1.v, l2.v) && (l1.inclusive || !l2.inclusive))))
  }

  /** Upper bound `h1` admits every version upper bound `h2` admits. */
  predicate HiGe(h1: Bound, h2: Bound) {
    h1.Unbounded? ||
    (h2.At? && (Lt(h2.v, h1.v) || (Same(h2.v, h1.v) && (h1.inclusive || !h2.inclusive))))
  }

  function MaxLo(l1: Bound, l2: Bound): Bound { if LoLe(l1, l2) then l2 else l1 }
  function MinLo(l1: Bound, l2: Bound): Bound { if LoLe(l1, l2) then l1 else l2 }
  function MinHi(h1: Bound, h2: Bound): Bound { if HiGe(h1, h2) then h2 else h1 }
  function MaxHi(h1: Bound, h2: Bound): Bound { if HiGe(h1, h2) then h1 else h2 }

  /**
   * `a.allows_lower(b)`: `a`'s lower bound admits a version below every
   * version `b`'s lower bound admits.
   */
  predicate AllowsLower(a: Range, b: Range) {
    b.lo.At? &&
    (a.lo.Unbounded? || Lt(a.lo.v, b.lo.v)
     || (Same(a.lo.v, b.lo.v) && a.lo.inclusive && !b.lo.inclusive))
  }

  /**
   * `a` lies below `b` with a gap between them: the upper bound of `a`
   * is below the lower bound of `b`, or equal with both ends excluded.
   */
  predicate Separated(a: Range, b: Range) {
    a.hi.At? && b.lo.At? &&
    (Lt(a.hi.v, b.lo.v) || (Same(a.hi.v, b.lo.v) && !a.hi.inclusive && !b.lo.inclusive))
  }

  /** `a.can_combine(b)`: the two ranges overlap or touch. */
  predicate CanCombine(a: Range, b: Range) {
    !Separated(a, b) && !Separated(b, a)
  }

  /** `a & b`: the greater lower bound and the lesser upper bound, `None` when they cross. */
  function Intersect(a: Range, b: Range): Option<Range> {
    var r := Range(MaxLo(a.lo, b.lo), MinHi(a.hi, b.hi));
    if WellFormed(r) then Some(r) else None
  }

  /** `a | b` for two ranges that can be combined: the lesser lower and the greater upper bound. */
  function Merge(a: Range, b: Range): Range
    requires CanCombine(a, b)
  {
    Range(MinLo(a.lo, b.lo), MaxHi(a.hi, b.hi))
  }

  // ---------------------------------------------------------------------
  /**
   * The bound that turns a range end into the adjacent end of the
   * complement: same version, inclusivity negated.
   */
  function Flip(b: Bound): (f: Bound)
    ensures f.Unbounded? <==> b.Unbounded?
    ensures f.At? ==> f.v == b.v && f.inclusive == !b.inclusive
  {
    match b
    case Unbounded => Unbounded
    case At(v, inclusive) => At(v, !inclusive)
  }

  // Bound lemmas
  // ---------------------------------------------------------------------

  lemma LoLeTotal(l1: Bound, l2: Bound)
    ensures LoLe(l1, l2) || LoLe(l2, l1)
  {
    OrderLaws();
  }

  lemma HiGeTotal(h1: Bound, h2: Bound)
    ensures HiGe(h1, h2) || HiGe(h2, h1)
  {
    OrderLaws();
  }

  lemma LoLeSound(l1: Bound, l2: Bound, x: Version)
    requires LoLe(l1, l2) && AboveLo(l2, x)
    ensures AboveLo(l1, x)
  {
    OrderLaws();
  }

  lemma HiGeSound(h1: Bound, h2: Bound, x: Version)
    requires HiGe(h1, h2) && BelowHi(h2, x)
    ensures BelowHi(h1, x)
  {
    OrderLaws();
  }

  lemma LoLeTransitive(l1: Bound, l2: Bound, l3: Bound)
    requires LoLe(l1, l2) && LoLe(l2, l3)
    ensures LoLe(l1, l3)
  {
    OrderLaws();
  }

  lemma HiGeTransitive(h1: Bound, h2: Bound, h3: Bound)
    requires HiGe(h1, h2) && HiGe(h2, h3)
    ensures HiGe(h1, h3)
  {
    OrderLaws();
  }

  lemma MaxLoMeet(l1: Bound, l2: Bound, x: Version)
    ensures AboveLo(MaxLo(l1, l2), x) <==> AboveLo(l1, x) && AboveLo(l2, x)
    ensures AboveLo(MinLo(l1, l2), x) <==> AboveLo(l1, x) || AboveLo(l2, x)
  {
    LoLeTotal(l1, l2);
    if LoLe(l1, l2) {
      if AboveLo(l2, x) { LoLeSound(l1, l2, x); }
    } else {
      if AboveLo(l1, x) { LoLeSound(l2, l1, x); }
    }
  }

  lemma MinHiMeet(h1: Bound, h2: Bound, x: Version)
    ensures BelowHi(MinHi(h1, h2), x) <==> BelowHi(h1, x) && BelowHi(h2, x)
    ensures BelowHi(MaxHi(h1, h2), x) <==> BelowHi(h1, x) || BelowHi(h2, x)
  {
    HiGeTotal(h1, h2);
    if HiGe(h1, h2) {
      if BelowHi(h2, x) { HiGeSound(h1, h2, x); }
    } else {
      if BelowHi(h1, x) { HiGeSound(h2, h1, x); }
    }
  }

  // ---------------------------------------------------------------------
  // Range lemmas
  // ---------------------------------------------------------------------

  /** A version admitted by both bounds shows the bounds do not cross. */
  lemma WitnessWellFormed(r: Range, x: Version)
    requires Contains(r, x)
    ensures WellFormed(r)
  {
    OrderLaws();
  }

  /** `(a & b).contains(x) == a.contains(x) and b.contains(x)` */
  lemma IntersectContains(a: Range, b: Range, x: Version)
    ensures Intersect(a, b).Some? ==>
      (Contains(Intersect(a, b).value, x) <==> Contains(a, x) && Contains(b, x))
    ensures Intersect(a, b).None? ==> !(Contains(a, x) && Contains(b, x))
  {
    MaxLoMeet(a.lo, b.lo, x);
    MinHiMeet(a.hi, b.hi, x);
    var r := Range(MaxLo(a.lo, b.lo), MinHi(a.hi, b.hi));
    if Contains(r, x) {
      WitnessWellFormed(r, x);
    }
  }

  /** An intersection is a well-formed range inside both operands. */
  lemma IntersectBounds(a: Range, b: Range)
    requires Intersect(a, b).Some?
    ensures WellFormed(Intersect(a, b).value)
    ensures LoLe(a.lo, Intersect(a, b).value.lo) && LoLe(b.lo, Intersect(a, b).value.lo)
    ensures HiGe(a.hi, Intersect(a, b).value.hi) && HiGe(b.hi, Intersect(a, b).value.hi)
  {
    OrderLaws();
    LoLeTotal(a.lo, b.lo);
    HiGeTotal(a.hi, b.hi);
  }

  /** Intersecting with the unbounded range changes nothing. */
  lemma IntersectAny(a: Range)
    requires WellFormed(a)
    ensures Intersect(a, AnyRange) == Some(a)
  {
    OrderLaws();
  }

  /** `(a | b).contains(x) == a.contains(x) or b.contains(x)` for combinable ranges. */
  lemma MergeContains(a: Range, b: Range, x: Version)
    requires CanCombine(a, b)
    ensures Contains(Merge(a, b), x) <==> Contains(a, x) || Contains(b, x)
  {
    OrderLaws();
    MaxLoMeet(a.lo, b.lo, x);
    MinHiMeet(a.hi, b.hi, x);
    LoLeTotal(a.lo, b.lo);
    HiGeTotal(a.hi, b.hi);
    if LoLe(a.lo, b.lo) {
      if AboveLo(b.lo, x) { LoLeSound(a.lo, b.lo, x); }
    } else {
      if AboveLo(a.lo, x) { LoLeSound(b.lo, a.lo, x); }
    }
    if HiGe(a.hi, b.hi) {
      if BelowHi(b.hi, x) { HiGeSound(a.hi, b.hi, x); }
    } else {
      if BelowHi(a.hi, x) { HiGeSound(b.hi, a.hi, x); }
    }
  }

  lemma MergeWellFormed(a: Range, b: Range)
    requires CanCombine(a, b) && WellFormed(a) && WellFormed(b)
    ensures WellFormed(Merge(a, b))
    ensures LoLe(Merge(a, b).lo, a.lo) && LoLe(Merge(a, b).lo, b.lo)
    ensures HiGe(Merge(a, b).hi, a.hi) && HiGe(Merge(a, b).hi, b.hi)
  {
    OrderLaws();
    LoLeTotal(a.lo, b.lo);
    HiGeTotal(a.hi, b.hi);
  }

  /** Separated ranges share no version. */
  lemma SeparatedDisjoint(a: Range, b: Range, x: Version)
    requires Separated(a, b)
    ensures !(Contains(a, x) && Contains(b, x))
  {
    OrderLaws();
  }

  /** `allows_lower` is the strict order of lower bounds. */
  lemma AllowsLowerStrict(a: Range, b: Range)
    ensures AllowsLower(a, b) <==> !LoLe(b.lo, a.lo)
  {
    OrderLaws();
  }

  /**
   * For ranges that cannot be combined, `allows_lower` tells which one is
   * below the other.
   */
  lemma AllowsLowerOrders(a: Range, b: Range)
    requires WellFormed(a) && WellFormed(b) && !CanCombine(a, b)
    ensures AllowsLower(a, b) ==> Separated(a, b)
    ensures !AllowsLower(a, b) ==> Separated(b, a)
  {
    OrderLaws();
  }

  /** Gaps chain: `a` below `b` below `c` puts `a` below `c`. */
  lemma SeparatedTransitive(a: Range, b: Range, c: Range)
    requires WellFormed(b) && Separated(a, b) && Separated(b, c)
    ensures Separated(a, c)
  {
    OrderLaws();
  }

  /** Shrinking the ranges keeps a gap between them. */
  lemma SeparatedShrink(a: Range, b: Range, a': Range, b': Range)
    requires Separated(a, b) && HiGe(a.hi, a'.hi) && LoLe(b.lo, b'.lo)
    ensures Separated(a', b')
  {
    OrderLaws();
  }

  /** A range below two ranges is below the range merging them. */
  lemma SeparatedMerge(p: Range, a: Range, b: Range)
    requires CanCombine(a, b) && Separated(p, a) && Separated(p, b)
    ensures Separated(p, Merge(a, b))
  {
  }

  /** A flipped bound admits exactly the versions the original excludes. */
  lemma FlipComplement(b: Bound, x: Version)
    requires b.At?
    ensures AboveLo(Flip(b), x) <==> !BelowHi(b, x)
    ensures BelowHi(Flip(b), x) <==> !AboveLo(b, x)
  {
    OrderLaws();
  }

  lemma FlipFlip(b: Bound)
    ensures Flip(Flip(b)) == b
  {
  }

  /** A version below the top of `a` is below all of a range `b` above `a`. */
  lemma SeparatedBelow(a: Range, b: Range, x: Version)
    requires Separated(a, b) && BelowHi(a.hi, x)
    ensures !AboveLo(b.lo, x)
  {
    OrderLaws();
  }

  /** A version below the bottom of a well-formed range is below its top. */
  lemma BelowLoBelowHi(r: Range, x: Version)
    requires WellFormed(r) && !AboveLo(r.lo, x)
    ensures BelowHi(r.hi, x)
  {
    OrderLaws();
  }

  lemma BoundOrderReflexive(b: Bound)
    ensures LoLe(b, b) && HiGe(b, b)
  {
    OrderLaws();
  }

  /** A range above two combinable ranges is above the range merging them. */
  lemma MergeSeparated(a: Range, b: Range, q: Range)
    requires CanCombine(a, b) && Separated(a, q) && Separated(b, q)
    ensures Separated(Merge(a, b), q)
  {
  }

  /** A range lying wholly below another does not reach lower than it. */
  lemma SeparatedNotAllowsLower(a: Range, b: Range)
    requires WellFormed(a) && Separated(a, b)
    ensures !AllowsLower(b, a)
    ensures !CanCombine(a, b)
  {
    OrderLaws();
  }

  /** The gap between two separated ranges is itself a well-formed range. */
  lemma GapWellFormed(a: Range, b: Range)
    requires Separated(a, b)
    ensures WellFormed(Range(Flip(a.hi), Flip(b.lo)))
  {
  }

  /**
   * The gap below a bounded, well-formed range `r` and the gap above it
   * are separated by `r` itself.
   */
  lemma FlipSeparated(r: Range, below: Range, above: Range)
    requires WellFormed(r) && r.lo.At? && r.hi.At?
    requires below.hi == Flip(r.lo) && above.lo == Flip(r.hi)
    ensures Separated(below, above)
  {
  }

  /** Bounds at equal versions admit the same versions. */
  lemma SameBounds(v: Version, w: Version, inclusive: bool, x: Version)
    requires Same(v, w)
    ensures AboveLo(At(v, inclusive), x) <==> AboveLo(At(w, inclusive), x)
    ensures BelowHi(At(v, inclusive), x) <==> BelowHi(At(w, inclusive), x)
  {
    OrderLaws();
  }
}

=== FILE: specifiers.dfy ===
/**
 * Translation of `packaging` specifier clauses into the range algebra
 * (`_from_pkg_specifier`), the `&`-fold over a clause set
 * (`from_specifierset`) and the `||`-aware string entry point (`parse`).
 *
 * The bounds of `==P.*` and `~=v` are computed by the source from the
 * clause TEXT (split into segments, last segment incremented, joined and
 * re-parsed); `WildcardBoundsAsWritten` and `CompatibleUpperAsWritten`
 * model that route, and `WildcardBounds` / `CompatibleUpper` compute the
 * bounds PEP 440 prescribes from the parsed version, which the rest of
 * the model uses. The two agree on plain release texts (digits joined by
 * dots, `FromClauseAgrees`). They differ when the text carries an epoch
 * (`1!2`) or a leading `v`, and, for `~=`, when a tag becomes a segment of
 * its own that `is_not_suffix` keeps: a `c` tag glued on, any of `c`,
 * `pre`, `preview`, `r` and `rev` after a dot, or a tag in upper or mixed
 * case after a dot (the test is case-sensitive). When a tag's number
 * follows a dot and the tag, or the field holding it, is kept (`1.0.c.1`,
 * `1.0rc.1`), the bump fails on it instead. The lemmas at the end exhibit
 * one input of each of the kinds `FromClauseAsWritten` refuses or bounds
 * differently; the other spellings of a kind go the same way.
 */
module Specifiers {
  import opened Wrappers
  import Text
  import Utils
  import opened Versions
  import R = Ranges
  import S = Specs
  import U = Unions
  import A = Algebra

  /** The operators a clause may carry (`Arbitrary` is `===`). */
  datatype Operator = Gt | Ge | Less | Le | Eq | Compatible | Ne | Arbitrary

  /**
   * One `packaging.specifiers.Specifier`: its operator, its version text
   * (`spec.version`), and the `Version` packaging parses from that text
   * (for a wildcard clause, from the text before `.*`).
   */
  datatype Clause = Clause(op: Operator, text: string, version: Version)

  datatype Error =
    | ValueError        // an unsupported operator, or `int()` of a non-numeric segment
    | IndexError        // `version_parts[-1]` of an empty list
    | InvalidVersion    // `Version()` of a string it cannot read
    | InvalidSpecifier  // `SpecifierSet()` of a string it cannot read

  // ---------------------------------------------------------------------
  // The bounds PEP 440 prescribes
  // ---------------------------------------------------------------------

  /** `==P.*` covers `[P.0, P'.0)` where `P'` is `P` with its last segment incremented. */
  function WildcardBounds(v: Version): (b: (Version, Version))
    requires |v.release| > 0
    ensures b.0 == Version(v.epoch, v.release + [0], false)
    ensures b.1 == Version(v.epoch, Bump(v.release) + [0], false)
    ensures Lt(b.0, b.1)
  {
    BumpIsGreater(v.release, [0], [0]);
    (Version(v.epoch, v.release + [0], false), Version(v.epoch, Bump(v.release) + [0], false))
  }

  /** `~=v` stops below `B.0`, `B` the release without its last segment and with the new last one incremented. */
  function CompatibleUpper(v: Version): (u: Version)
    requires |v.release| >= 2
    ensures u.epoch == v.epoch && !u.pre
    ensures u.release == Bump(v.release[..|v.release| - 1]) + [0]
    ensures Lt(v, u)
  {
    var n := |v.release|;
    BumpIsGreater(v.release[..n - 1], v.release[n - 1..], [0]);
    assert v.release[..n - 1] + v.release[n - 1..] == v.release;
    Version(v.epoch, Bump(v.release[..n - 1]) + [0], false)
  }

  // ---------------------------------------------------------------------
  // _from_pkg_specifier
  // ---------------------------------------------------------------------

  function Point(v: Version): R.Range {
    R.Range(R.At(v, true), R.At(v, true))
  }

  /** `_from_pkg_specifier(spec)` */
  function FromClause(c: Clause): Result<S.Spec, Error> {
    var v := c.version;
    match c.op
    case Gt => Ok(S.Single(R.Range(R.At(v, false), R.Unbounded)))
    case Ge => Ok(S.Single(R.Range(R.At(v, true), R.Unbounded)))
    case Less => Ok(S.Single(R.Range(R.Unbounded, R.At(v, false))))
    case Le => Ok(S.Single(R.Range(R.Unbounded, R.At(v, true))))
    case Eq =>
      if !Text.Occurs(c.text, "*") then Ok(S.Single(Point(v)))
      else if |v.release| == 0 then Err(IndexError)
      else
        var b := WildcardBounds(v);
        Ok(S.Single(R.Range(R.At(b.0, true), R.At(b.1, false))))
    case Compatible =>
      if |v.release| < 2 then Err(IndexError)
      else Ok(S.Single(R.Range(R.At(v, true), R.At(CompatibleUpper(v), false))))
    case Ne =>
      if !Text.Occurs(c.text, "*") then Ok(S.Union(U.NotEqualRanges(v), Some("!=" + c.text)))
      else if |v.release| == 0 then Err(IndexError)
      else Ok(S.Union(U.NotEqualPrefixRanges(v.epoch, v.release), Some("!=" + c.text)))
    case Arbitrary => Err(ValueError)
  }

  /** `>v`, `>=v`, `<v`, `<=v`: one-sided bounds, inclusive exactly for `>=` and `<=`. */
  lemma ComparisonContains(c: Clause, x: Version)
    requires c.op in {Gt, Ge, Less, Le}
    ensures FromClause(c).Ok?
    ensures c.op == Gt ==> (S.Contains(FromClause(c).value, x) <==> Lt(c.version, x))
    ensures c.op == Ge ==> (S.Contains(FromClause(c).value, x) <==> !Lt(x, c.version))
    ensures c.op == Less ==> (S.Contains(FromClause(c).value, x) <==> Lt(x, c.version))
    ensures c.op == Le ==> (S.Contains(FromClause(c).value, x) <==> !Lt(c.version, x))
  {
    OrderLaws();
  }

  /** `==v` admits exactly the versions equal to `v`; `==P.*` admits `[P.0, P'.0)` and fails on an empty release. */
  lemma EqContains(c: Clause, x: Version)
    requires c.op == Eq
    ensures !Text.Occurs(c.text, "*") ==>
      FromClause(c).Ok? && (S.Contains(FromClause(c).value, x) <==> Same(x, c.version))
    ensures Text.Occurs(c.text, "*") ==> (FromClause(c).Ok? <==> |c.version.release| > 0)
    ensures Text.Occurs(c.text, "*") && FromClause(c).Ok? ==>
      (S.Contains(FromClause(c).value, x) <==>
        !Lt(x, WildcardBounds(c.version).0) && Lt(x, WildcardBounds(c.version).1))
  {
    OrderLaws();
  }

  /** `~=v` admits `[v, B.0)` and fails when the release has fewer than two segments. */
  lemma CompatibleContains(c: Clause, x: Version)
    requires c.op == Compatible
    ensures FromClause(c).Ok? <==> |c.version.release| >= 2
    ensures FromClause(c).Ok? ==>
      (S.Contains(FromClause(c).value, x) <==> !Lt(x, c.version) && Lt(x, CompatibleUpper(c.version)))
  {
    OrderLaws();
  }

  /** `!=v` admits everything but `v`; `!=P.*` admits everything outside `[P.0, P'.0)`. */
  lemma NeContains(c: Clause, x: Version)
    requires c.op == Ne
    ensures !Text.Occurs(c.text, "*") ==>
      FromClause(c).Ok? && (S.Contains(FromClause(c).value, x) <==> !Same(x, c.version))
    ensures Text.Occurs(c.text, "*") ==> (FromClause(c).Ok? <==> |c.version.release| > 0)
    ensures Text.Occurs(c.text, "*") && FromClause(c).Ok? ==>
      (S.Contains(FromClause(c).value, x) <==>
        Lt(x, WildcardBounds(c.version).0) || !Lt(x, WildcardBounds(c.version).1))
  {
    OrderLaws();
    var s := FromClause(c);
    if s.Ok? {
      S.AnyContainsPair(s.value.ranges[0], s.value.ranges[1], x);
    }
  }

  /** `===` is refused with `ValueError`. */
  lemma ArbitraryRefused(c: Clause)
    requires c.op == Arbitrary
    ensures FromClause(c) == Err(ValueError)
  {
  }

  /** Every clause the source accepts becomes a well-formed specifier; `!=` keeps its text. */
  lemma FromClauseValid(c: Clause)
    requires FromClause(c).Ok?
    ensures S.Valid(FromClause(c).value)
    ensures c.op == Ne ==> FromClause(c).value.simplified == Some("!=" + c.text)
    ensures c.op == Ne ==> U.IsSimple(FromClause(c).value)
  {
    if c.op == Ne {
      NeClauseValid(c);
    } else {
      OrderLaws();
    }
  }

  lemma NeClauseValid(c: Clause)
    requires c.op == Ne && FromClause(c).Ok?
    ensures S.Valid(FromClause(c).value)
    ensures FromClause(c).value.simplified == Some("!=" + c.text)
    ensures U.IsSimple(FromClause(c).value)
  {
    if Text.Occurs(c.text, "*") {
      NotEqualPrefixValid(c.version, "!=" + c.text);
    } else {
      NotEqualValid(c.version, "!=" + c.text);
    }
  }

  /** The two ranges of `!=v` form a valid union with a simple form. */
  lemma NotEqualValid(v: Version, text: string)
    ensures S.Valid(S.Union(U.NotEqualRanges(v), Some(text)))
    ensures U.IsSimple(S.Union(U.NotEqualRanges(v), Some(text)))
  {
    OrderLaws();
  }

  /** The two ranges of `!=P.*` form a valid union with a simple form. */
  lemma NotEqualPrefixValid(v: Version, text: string)
    requires |v.release| > 0
    ensures S.Valid(S.Union(U.NotEqualPrefixRanges(v.epoch, v.release), Some(text)))
    ensures U.IsSimple(S.Union(U.NotEqualPrefixRanges(v.epoch, v.release), Some(text)))
  {
    OrderLaws();
    BumpIsGreater(v.release, [0], [0]);
  }

  // ---------------------------------------------------------------------
  // The bounds as the source computes them, from the clause text
  // ---------------------------------------------------------------------

  /** `itertools.takewhile(lambda x: x != "*", parts)` */
  function TakeUntilStar(parts: seq<string>): (r: seq<string>)
    ensures r <= parts
    ensures "*" !in r
    ensures |r| < |parts| ==> parts[|r|] == "*"
    decreases |parts|
  {
    if |parts| == 0 || parts[0] == "*" then [] else [parts[0]] + TakeUntilStar(parts[1..])
  }

  /** `parts[-1] = str(int(parts[-1]) + 1)`, with the two ways it raises. */
  function BumpLast(parts: seq<string>): (r: Result<seq<string>, Error>)
    ensures |parts| == 0 ==> r == Err(IndexError)
    ensures |parts| > 0 ==> (r.Ok? <==> Text.ParseInt(parts[|parts| - 1]).Some?)
    ensures r.Err? ==> r.error in {IndexError, ValueError}
    ensures r.Ok? ==> |r.value| == |parts| && r.value[..|parts| - 1] == parts[..|parts| - 1]
  {
    if |parts| == 0 then Err(IndexError)
    else match Text.ParseInt(parts[|parts| - 1])
      case None => Err(ValueError)
      case Some(n) => Ok(parts[..|parts| - 1] + [Text.NatToString(n + 1)])
  }

  /**
   * The `==P.*` / `!=P.*` bounds as the source computes them: the segments
   * of `version_split(text)` before `*`, `Version` of them joined with
   * `.0`, then the last one incremented and the same again.
   * `parseVersion` is packaging's `Version()` (`None` where it raises).
   */
  function WildcardBoundsAsWritten(text: string, parseVersion: string -> Option<Version>): Result<(Version, Version), Error> {
    var parts := TakeUntilStar(Utils.VersionSplit(text));
    match parseVersion(Text.Join(parts + ["0"], "."))
    case None => Err(InvalidVersion)
    case Some(lo) =>
      match BumpLast(parts)
      case Err(e) => Err(e)
      case Ok(bumped) =>
        match parseVersion(Text.Join(bumped + ["0"], "."))
        case None => Err(InvalidVersion)
        case Some(hi) => Ok((lo, hi))
  }

  /**
   * The `~=v` upper bound as the source computes it: the segments of
   * `version_split(text)` up to the first suffix segment (`is_not_suffix`),
   * without the last one, the new last one incremented, joined with `.0`.
   */
  function CompatibleUpperAsWritten(text: string, parseVersion: string -> Option<Version>): Result<Version, Error> {
    var kept := Utils.TakeWhileNotSuffix(Utils.VersionSplit(text));
    var parts := if |kept| == 0 then [] else kept[..|kept| - 1];
    match BumpLast(parts)
    case Err(e) => Err(e)
    case Ok(bumped) =>
      match parseVersion(Text.Join(bumped + ["0"], "."))
      case None => Err(InvalidVersion)
      case Some(hi) => Ok(hi)
  }

  /** `_from_pkg_specifier(spec)` exactly as written: the text route for `==P.*`, `!=P.*` and `~=v`. */
  function FromClauseAsWritten(c: Clause, parseVersion: string -> Option<Version>): Result<S.Spec, Error> {
    var v := c.version;
    var wild := Text.Occurs(c.text, "*");
    if c.op == Eq && wild then
      match WildcardBoundsAsWritten(c.text, parseVersion)
      case Err(e) => Err(e)
      case Ok((lo, hi)) => Ok(S.Single(R.Range(R.At(lo, true), R.At(hi, false))))
    else if c.op == Ne && wild then
      match WildcardBoundsAsWritten(c.text, parseVersion)
      case Err(e) => Err(e)
      case Ok((lo, hi)) =>
        Ok(S.Union([R.Range(R.Unbounded, R.At(lo, false)), R.Range(R.At(hi, true), R.Unbounded)], Some("!=" + c.text)))
    else if c.op == Compatible then
      match CompatibleUpperAsWritten(c.text, parseVersion)
      case Err(e) => Err(e)
      case Ok(hi) => Ok(S.Single(R.Range(R.At(v, true), R.At(hi, false))))
    else FromClause(c)
  }

  // ---------------------------------------------------------------------
  // Where the two routes agree
  // ---------------------------------------------------------------------

  /** `str(n)` of each release segment. */
  function Strs(rel: seq<nat>): (r: seq<string>)
    ensures |r| == |rel|
    ensures forall i :: 0 <= i < |rel| ==> r[i] == Text.NatToString(rel[i])
  {
    seq(|rel|, i requires 0 <= i < |rel| => Text.NatToString(rel[i]))
  }

  /** `parseVersion` reads every plain dotted release (no epoch, no suffix) as that release. */
  ghost predicate ReadsReleases(parseVersion: string -> Option<Version>) {
    forall rel: seq<nat> :: |rel| > 0 ==>
      parseVersion(U.SegmentsText(rel)) == Some(Version(0, rel, false))
  }

  lemma SegmentsTextJoin(rel: seq<nat>)
    requires |rel| > 0
    ensures U.SegmentsText(rel) == Text.Join(Strs(rel), ".")
  {
  }

  /** A digit string or `*` is one field of `version_split`. */
  lemma SplitFieldPlain(f: string)
    requires Text.IsDigits(f) || f == "*"
    ensures Utils.SplitField(f) == [f]
  {
    assert f[|f| - 1] != '\n';
    assert Utils.Body(f) == f;
    var i := Utils.LeadingDigits(f);
    if Text.IsDigits(f) {
      assert i == |f|;
    } else {
      assert !Text.IsDigit(f[0]);
      assert i == 0;
    }
    assert Utils.MatchPrefixed(f).None?;
  }

  lemma {:induction false} SplitFieldsPlain(fields: seq<string>)
    requires forall k :: 0 <= k < |fields| ==> Text.IsDigits(fields[k]) || fields[k] == "*"
    ensures Utils.SplitFields(fields) == fields
    decreases |fields|
  {
    if |fields| > 0 {
      var t := fields[1..];
      SplitFieldPlain(fields[0]);
      SplitFieldsPlain(t);
      calc {
        Utils.SplitFields(fields);
        Utils.SplitField(fields[0]) + Utils.SplitFields(t);
        [fields[0]] + t;
        fields;
      }
    }
  }

  /** `version_split` of dot-joined digit strings (and `*`) gives them back. */
  lemma VersionSplitPlain(fields: seq<string>)
    requires |fields| >= 1
    requires forall k :: 0 <= k < |fields| ==> Text.IsDigits(fields[k]) || fields[k] == "*"
    ensures Utils.VersionSplit(Text.Join(fields, ".")) == fields
  {
    forall k, i | 0 <= k < |fields| && 0 <= i < |fields[k]|
      ensures fields[k][i] != '.'
    {
      if fields[k] == "*" {
        assert fields[k][i] == '*';
      } else {
        assert Text.IsDigit(fields[k][i]);
      }
    }
    Text.SplitJoin(fields, ".");
    SplitFieldsPlain(fields);
  }

  lemma {:induction false} TakeUntilStarPlain(rel: seq<nat>)
    ensures TakeUntilStar(Strs(rel) + ["*"]) == Strs(rel)
    decreases |rel|
  {
    var ps := Strs(rel) + ["*"];
    if |rel| > 0 {
      assert ps[0] != "*" by {
        assert Text.IsDigit(ps[0][0]);
      }
      assert ps[1..] == Strs(rel[1..]) + ["*"];
      TakeUntilStarPlain(rel[1..]);
      assert Strs(rel) == [ps[0]] + Strs(rel[1..]);
    }
  }

  lemma {:induction false} TakeWhileNotSuffixPlain(rel: seq<nat>)
    ensures Utils.TakeWhileNotSuffix(Strs(rel)) == Strs(rel)
    decreases |rel|
  {
    var ps := Strs(rel);
    if |rel| > 0 {
      assert Text.IsDigit(ps[0][0]);
      assert Utils.IsNotSuffix(ps[0]);
      assert ps[1..] == Strs(rel[1..]);
      TakeWhileNotSuffixPlain(rel[1..]);
      assert ps == [ps[0]] + ps[1..];
    }
  }

  lemma BumpLastPlain(rel: seq<nat>)
    requires |rel| > 0
    ensures BumpLast(Strs(rel)) == Ok(Strs(Bump(rel)))
  {
    var n := |rel|;
    Text.ParseIntOfNatToString(rel[n - 1]);
    assert Strs(rel)[n - 1] == Text.NatToString(rel[n - 1]);
    var r := Strs(rel)[..n - 1] + [Text.NatToString(rel[n - 1] + 1)];
    assert BumpLast(Strs(rel)) == Ok(r);
    assert |r| == |Strs(Bump(rel))|;
    forall i | 0 <= i < n
      ensures r[i] == Strs(Bump(rel))[i]
    {
      if i < n - 1 {
        assert Bump(rel)[i] == rel[i];
      }
    }
    assert r == Strs(Bump(rel));
  }

  lemma StrsPadded(rel: seq<nat>)
    ensures Strs(rel + [0]) == Strs(rel) + ["0"]
  {
    assert Text.NatToString(0) == "0";
  }

  lemma StrsPlain(rel: seq<nat>)
    ensures forall k :: 0 <= k < |Strs(rel)| ==> Text.IsDigits(Strs(rel)[k]) || Strs(rel)[k] == "*"
  {
  }

  /** The text of `P.*` splits into `P`'s segments followed by `*`. */
  lemma WildcardTextSplit(rel: seq<nat>)
    requires |rel| > 0
    ensures TakeUntilStar(Utils.VersionSplit(U.SegmentsText(rel) + ".*")) == Strs(rel)
  {
    SegmentsTextJoin(rel);
    Text.JoinAppend(Strs(rel), "*", ".");
    var t := U.SegmentsText(rel);
    assert t + "." + "*" == t + ".*";
    assert Text.Join(Strs(rel) + ["*"], ".") == t + ".*";
    StrsPlain(rel);
    var fields := Strs(rel) + ["*"];
    assert forall k :: 0 <= k < |fields| ==> Text.IsDigits(fields[k]) || fields[k] == "*" by {
      assert forall k :: 0 <= k < |rel| ==> fields[k] == Strs(rel)[k];
    }
    VersionSplitPlain(Strs(rel) + ["*"]);
    TakeUntilStarPlain(rel);
  }

  /** Joining `P`'s segments and `"0"` is the text of `P.0`. */
  lemma PaddedText(rel: seq<nat>)
    requires |rel| > 0
    ensures Text.Join(Strs(rel) + ["0"], ".") == U.SegmentsText(rel + [0])
  {
    StrsPadded(rel);
    SegmentsTextJoin(rel + [0]);
  }

  /** `Version()` of `P`'s segments joined with `.0` reads `P.0`. */
  lemma PaddedReads(rel: seq<nat>, parseVersion: string -> Option<Version>)
    requires |rel| > 0 && ReadsReleases(parseVersion)
    ensures parseVersion(Text.Join(Strs(rel) + ["0"], ".")) == Some(Version(0, rel + [0], false))
  {
    PaddedText(rel);
    assert |rel + [0]| > 0;
  }

  /**
   * On a plain release `P` (epoch 0, digits only) the text route of
   * `==P.*` yields exactly the PEP 440 bounds.
   */
  lemma WildcardAgrees(rel: seq<nat>, parseVersion: string -> Option<Version>)
    requires |rel| > 0 && ReadsReleases(parseVersion)
    ensures WildcardBoundsAsWritten(U.SegmentsText(rel) + ".*", parseVersion) == Ok(WildcardBounds(Version(0, rel, false)))
  {
    WildcardTextSplit(rel);
    PaddedReads(rel, parseVersion);
    BumpLastPlain(rel);
    PaddedReads(Bump(rel), parseVersion);
  }

  lemma StrsPrefix(rel: seq<nat>, k: nat)
    requires k <= |rel|
    ensures Strs(rel)[..k] == Strs(rel[..k])
  {
    assert forall i :: 0 <= i < k ==> Strs(rel)[..k][i] == Strs(rel[..k])[i];
  }

  /** The segments `~=v` keeps from a plain release, before its last one is dropped. */
  lemma CompatibleKeeps(rel: seq<nat>)
    requires |rel| >= 2
    ensures Utils.TakeWhileNotSuffix(Utils.VersionSplit(U.SegmentsText(rel))) == Strs(rel)
  {
    SegmentsTextJoin(rel);
    StrsPlain(rel);
    VersionSplitPlain(Strs(rel));
    TakeWhileNotSuffixPlain(rel);
  }

  /** On a plain release of two or more segments the text route of `~=v` yields the PEP 440 upper bound. */
  lemma CompatibleAgrees(rel: seq<nat>, parseVersion: string -> Option<Version>)
    requires |rel| >= 2 && ReadsReleases(parseVersion)
    ensures CompatibleUpperAsWritten(U.SegmentsText(rel), parseVersion) == Ok(CompatibleUpper(Version(0, rel, false)))
  {
    CompatibleKeeps(rel);
    ReadsAt(parseVersion, Bump(rel[..|rel| - 1]) + [0]);
    CompatibleUpperOfPlainKept(U.SegmentsText(rel), parseVersion, rel);
  }

  lemma ReadsAt(parseVersion: string -> Option<Version>, rel: seq<nat>)
    requires ReadsReleases(parseVersion) && |rel| > 0
    ensures parseVersion(U.SegmentsText(rel)) == Some(Version(0, rel, false))
  {
  }

  /** The text route of `~=v` once the kept segments are known to be a release's. */
  lemma CompatibleUpperOfPlainKept(text: string, parseVersion: string -> Option<Version>, rel: seq<nat>)
    requires |rel| >= 2
    requires Utils.TakeWhileNotSuffix(Utils.VersionSplit(text)) == Strs(rel)
    requires var upper := Bump(rel[..|rel| - 1]) + [0];
      parseVersion(U.SegmentsText(upper)) == Some(Version(0, upper, false))
    ensures CompatibleUpperAsWritten(text, parseVersion) == Ok(CompatibleUpper(Version(0, rel, false)))
  {
    var n := |rel|;
    StrsPrefix(rel, n - 1);
    CompatibleUpperOfKept(text, parseVersion, rel[..n - 1]);
  }

  /**
   * A clause whose text is a plain release: epoch 0, no suffix, and for
   * `==P.*`, `!=P.*` and `~=v` the text is the release written out.
   */
  predicate PlainClause(c: Clause) {
    var v := c.version;
    v.epoch == 0 && !v.pre
    && ((c.op == Eq || c.op == Ne) && Text.Occurs(c.text, "*") ==>
          |v.release| > 0 && c.text == U.SegmentsText(v.release) + ".*")
    && (c.op == Compatible ==> |v.release| >= 2 && c.text == U.SegmentsText(v.release))
  }

  /** On plain clauses the source's text route and the PEP 440 bounds give the same specifier. */
  lemma FromClauseAgrees(c: Clause, parseVersion: string -> Option<Version>)
    requires PlainClause(c) && ReadsReleases(parseVersion)
    ensures FromClauseAsWritten(c, parseVersion) == FromClause(c)
  {
    if (c.op == Eq || c.op == Ne) && Text.Occurs(c.text, "*") {
      WildcardClauseAgrees(c, parseVersion);
    } else if c.op == Compatible {
      CompatibleClauseAgrees(c, parseVersion);
    }
  }

  lemma WildcardClauseAgrees(c: Clause, parseVersion: string -> Option<Version>)
    requires PlainClause(c) && ReadsReleases(parseVersion)
    requires (c.op == Eq || c.op == Ne) && Text.Occurs(c.text, "*")
    ensures FromClauseAsWritten(c, parseVersion) == FromClause(c)
  {
    var v := c.version;
    assert v == Version(0, v.release, false);
    WildcardAgrees(v.release, parseVersion);
    WildcardRoutesAgree(c, parseVersion);
  }

  /** Once the text route's bounds are PEP 440's, `==P.*` and `!=P.*` come out the same either way. */
  lemma WildcardRoutesAgree(c: Clause, parseVersion: string -> Option<Version>)
    requires (c.op == Eq || c.op == Ne) && Text.Occurs(c.text, "*") && |c.version.release| > 0
    requires WildcardBoundsAsWritten(c.text, parseVersion) == Ok(WildcardBounds(c.version))
    ensures FromClauseAsWritten(c, parseVersion) == FromClause(c)
  {
    var v := c.version;
    var b := WildcardBounds(v);
    if c.op == Ne {
      assert U.NotEqualPrefixRanges(v.epoch, v.release)
        == [R.Range(R.Unbounded, R.At(b.0, false)), R.Range(R.At(b.1, true), R.Unbounded)];
    }
  }

  lemma CompatibleClauseAgrees(c: Clause, parseVersion: string -> Option<Version>)
    requires PlainClause(c) && ReadsReleases(parseVersion) && c.op == Compatible
    ensures FromClauseAsWritten(c, parseVersion) == FromClause(c)
  {
    var v := c.version;
    assert v == Version(0, v.release, false);
    CompatibleAgrees(v.release, parseVersion);
    assert CompatibleUpperAsWritten(c.text, parseVersion) == Ok(CompatibleUpper(v));
  }

  // ---------------------------------------------------------------------
  // Where they do not
  // ---------------------------------------------------------------------

  lemma VersionSplitOfPreRelease()
    ensures Utils.VersionSplit("1.0c1") == ["1", "0", "c1"]
  {
    Text.SplitJoin(["1", "0c1"], ".");
    assert Text.Join(["1", "0c1"], ".") == "1.0c1";
    var body := "0c1";
    assert Utils.Body(body) == body;
    assert Utils.LeadingDigits(body) == 1;
    assert body[1..] == "c1" && body[..1] == "0";
    assert "c1"[..1] == "c" && "c1"[1..] == "1";
    assert !Text.StartsWith("c1", "rc");
    assert Utils.MatchPrefixed(body) == Some(("0", "c1"));
    SplitFieldPlain("1");
    assert Utils.SplitFields(["0c1"]) == ["0", "c1"];
  }

  lemma VersionSplitOfEpoch(last: string)
    requires last == "*" || last == "0"
    ensures Utils.VersionSplit("1!2." + last) == ["1!2", last]
  {
    EpochDotSplit(last);
    EpochFieldWhole();
    SplitFieldPlain(last);
    var fs := ["1!2", last];
    assert fs[1..] == [last] && fs[1..][1..] == [];
    assert Utils.SplitFields([last]) == [last];
  }

  lemma EpochDotSplit(last: string)
    requires last == "*" || last == "0"
    ensures Text.SplitOn("1!2." + last, ".") == ["1!2", last]
  {
    Text.SplitJoin(["1!2", last], ".");
    assert Text.Join(["1!2", last], ".") == "1!2." + last;
  }

  /** `1!2` has no pre-release tag for `_prefix_regex` to split off. */
  lemma EpochFieldWhole()
    ensures Utils.SplitField("1!2") == ["1!2"]
  {
    assert Utils.Body("1!2") == "1!2";
    assert Utils.LeadingDigits("1!2") == 1;
    assert Utils.MatchPrefixed("1!2").None?;
  }

  /** The text route of `~=` once the kept segments (without the last) are known to be a release's. */
  lemma CompatibleUpperOfKept(text: string, parseVersion: string -> Option<Version>, init: seq<nat>)
    requires |init| > 0
    requires var kept := Utils.TakeWhileNotSuffix(Utils.VersionSplit(text));
      |kept| > 0 && kept[..|kept| - 1] == Strs(init)
    requires parseVersion(U.SegmentsText(Bump(init) + [0])) == Some(Version(0, Bump(init) + [0], false))
    ensures CompatibleUpperAsWritten(text, parseVersion) == Ok(Version(0, Bump(init) + [0], false))
  {
    BumpLastPlain(init);
    PaddedText(Bump(init));
  }

  /** A text that splits into `1`, `0` and a segment `is_not_suffix` keeps gets the upper bound `1.1.0`. */
  lemma CompatibleUpperOfPreRelease(text: string, parseVersion: string -> Option<Version>, tag: string)
    requires Utils.VersionSplit(text) == ["1", "0", tag] && Utils.IsNotSuffix(tag)
    requires parseVersion("1.1.0") == Some(Version(0, [1, 1, 0], false))
    ensures CompatibleUpperAsWritten(text, parseVersion) == Ok(Version(0, [1, 1, 0], false))
  {
    KeepsPreReleaseSegment(tag);
    TextOfSegments();
    CompatibleUpperOfKept(text, parseVersion, [1, 0]);
  }

  lemma TextOfSegments()
    ensures Strs([1, 0]) == ["1", "0"]
    ensures Bump([1, 0]) + [0] == [1, 1, 0]
    ensures U.SegmentsText([1, 1, 0]) == "1.1.0"
  {
    assert Bump([1, 0]) == [1, 1];
    assert Text.NatToString(1) == "1";
    assert Text.NatToString(0) == "0";
    assert Strs([1, 1, 0]) == ["1", "1", "0"];
    SegmentsTextJoin([1, 1, 0]);
    assert Text.Join(["1", "1", "0"], ".") == "1.1.0";
  }

  lemma KeepsPreReleaseSegment(tag: string)
    requires Utils.IsNotSuffix(tag)
    ensures Utils.TakeWhileNotSuffix(["1", "0", tag]) == ["1", "0", tag]
  {
    var ps := ["1", "0", tag];
    assert Utils.IsNotSuffix("1") && Utils.IsNotSuffix("0");
    assert ps[1..] == ["0", tag] && ps[1..][1..] == [tag] && ps[1..][1..][1..] == [];
  }

  lemma ParseIntOfEpoch()
    ensures Text.ParseInt("1!2").None?
  {
    assert !Text.IsDigit("1!2"[1]);
  }

  lemma WildcardBoundsOfEpoch(parseVersion: string -> Option<Version>)
    requires parseVersion("1!2.0").Some?
    ensures WildcardBoundsAsWritten("1!2.*", parseVersion) == Err(ValueError)
  {
    VersionSplitOfEpoch("*");
    assert "1!2." + "*" == "1!2.*";
    EpochStarParts();
    EpochBumpFails();
  }

  lemma EpochStarParts()
    ensures TakeUntilStar(["1!2", "*"]) == ["1!2"]
    ensures Text.Join(["1!2"] + ["0"], ".") == "1!2.0"
  {
    assert ["1!2"] + ["0"] == ["1!2", "0"];
  }

  /** Incrementing the last segment of `1!2` fails on `int("1!2")`. */
  lemma EpochBumpFails()
    ensures BumpLast(["1!2"]) == Err(ValueError)
  {
    ParseIntOfEpoch();
  }

  lemma KeepsEpochSegments()
    ensures Utils.TakeWhileNotSuffix(["1!2", "0"]) == ["1!2", "0"]
  {
    var ps := ["1!2", "0"];
    assert Utils.IsNotSuffix("1!2") by { assert "1!2"[0] == '1' && "1!2"[..2] != "rc"; }
    assert Utils.IsNotSuffix("0") by { assert "0"[0] == '0'; }
    assert ps[1..] == ["0"] && ps[1..][1..] == [];
  }

  lemma CompatibleUpperOfEpoch(parseVersion: string -> Option<Version>)
    ensures CompatibleUpperAsWritten("1!2.0", parseVersion) == Err(ValueError)
  {
    VersionSplitOfEpoch("0");
    assert "1!2." + "0" == "1!2.0";
    KeepsEpochSegments();
    assert ["1!2", "0"][..1] == ["1!2"];
    EpochBumpFails();
  }

  /**
   * `~=1.0c1`: `version_split` separates `c1` (the regex knows the `c`
   * spelling) but `is_not_suffix` does not treat it as a suffix, so the
   * source keeps `1.0` as the prefix and stops at `1.1.0` instead of
   * `2.0`; `1.5` satisfies `~=1.0c1` yet falls outside the source's range.
   */
  lemma CompatibleSuffixMisread(parseVersion: string -> Option<Version>)
    requires parseVersion("1.1.0") == Some(Version(0, [1, 1, 0], false))
    ensures var c := Clause(Compatible, "1.0c1", Version(0, [1, 0], true));
      var x := Version(0, [1, 5], false);
      CompatibleUpperAsWritten(c.text, parseVersion) == Ok(Version(0, [1, 1, 0], false))
      && CompatibleUpper(c.version) == Version(0, [2, 0], false)
      && FromClause(c).Ok? && S.Contains(FromClause(c).value, x)
      && FromClauseAsWritten(c, parseVersion).Ok? && !S.Contains(FromClauseAsWritten(c, parseVersion).value, x)
  {
    var c := Clause(Compatible, "1.0c1", Version(0, [1, 0], true));
    VersionSplitOfPreRelease();
    TagsKept();
    CompatibleUpperOfPreRelease(c.text, parseVersion, "c1");
    MisreadRangeExcludes(c, parseVersion);
    CorrectRangeAdmits(c);
  }

  /** The source's range for a misread `~=1.0` pre-release, `[1.0<pre>, 1.1.0)`, leaves `1.5` out. */
  lemma MisreadRangeExcludes(c: Clause, parseVersion: string -> Option<Version>)
    requires c.op == Compatible && c.version == Version(0, [1, 0], true)
    requires CompatibleUpperAsWritten(c.text, parseVersion) == Ok(Version(0, [1, 1, 0], false))
    ensures FromClauseAsWritten(c, parseVersion).Ok?
    ensures !S.Contains(FromClauseAsWritten(c, parseVersion).value, Version(0, [1, 5], false))
  {
    var hi := Version(0, [1, 1, 0], false);
    assert FromClauseAsWritten(c, parseVersion) == Ok(S.Single(R.Range(R.At(c.version, true), R.At(hi, false))));
    AboveMisreadUpper();
  }

  lemma AboveMisreadUpper()
    ensures !Lt(Version(0, [1, 5], false), Version(0, [1, 1, 0], false))
    ensures !Same(Version(0, [1, 5], false), Version(0, [1, 1, 0], false))
  {
    assert PaddedCmp([1, 5], [1, 1, 0]) == 1 by {
      assert Drop1([1, 5]) == [5] && Drop1([1, 1, 0]) == [1, 0];
    }
  }

  /** PEP 440's range for `~=1.0`, with or without a pre-release, is `[1.0, 2.0)` and holds `1.5`. */
  lemma CorrectRangeAdmits(c: Clause)
    requires c.op == Compatible && c.version.epoch == 0 && c.version.release == [1, 0]
    ensures CompatibleUpper(c.version) == Version(0, [2, 0], false)
    ensures FromClause(c).Ok? && S.Contains(FromClause(c).value, Version(0, [1, 5], false))
  {
    var x := Version(0, [1, 5], false);
    assert [1, 0][..1] == [1];
    assert CompatibleUpper(c.version) == Version(0, [2, 0], false);
    assert PaddedCmp([1, 5], [1, 0]) == 1 by {
      assert Drop1([1, 5]) == [5] && Drop1([1, 0]) == [0];
    }
    assert PaddedCmp([1, 5], [2, 0]) == -1;
    CompatibleContains(c, x);
  }

  /**
   * `==1!2.*`: the epoch stays glued to the first segment, so
   * `int("1!2")` raises although the clause means `[1!2.0, 1!3.0)`;
   * `1!2.5` lies in that range.
   */
  lemma EpochWildcardRefused(parseVersion: string -> Option<Version>)
    requires parseVersion("1!2.0").Some?
    ensures var c := Clause(Eq, "1!2.*", Version(1, [2], false));
      FromClauseAsWritten(c, parseVersion) == Err(ValueError)
      && FromClause(c).Ok? && S.Contains(FromClause(c).value, Version(1, [2, 5], false))
  {
    var c := Clause(Eq, "1!2.*", Version(1, [2], false));
    EpochWildcardText();
    WildcardBoundsOfEpoch(parseVersion);
    assert FromClauseAsWritten(c, parseVersion) == Err(ValueError);
    EpochWildcardAdmits(c);
  }

  lemma EpochWildcardText()
    ensures Text.Occurs("1!2.*", "*")
  {
    assert Text.StartsWith("*", "*");
    assert "1!2.*"[4..] == "*";
  }

  /** PEP 440's range for `==1!2.*`, `[1!2.0, 1!3.0)`, holds `1!2.5`. */
  lemma EpochWildcardAdmits(c: Clause)
    requires c == Clause(Eq, "1!2.*", Version(1, [2], false))
    ensures FromClause(c).Ok? && S.Contains(FromClause(c).value, Version(1, [2, 5], false))
  {
    var x := Version(1, [2, 5], false);
    EpochWildcardText();
    assert [2] + [0] == [2, 0];
    assert Bump([2]) == [3] && [3] + [0] == [3, 0];
    assert WildcardBounds(c.version) == (Version(1, [2, 0], false), Version(1, [3, 0], false));
    assert PaddedCmp([2, 5], [2, 0]) == 1 by {
      assert Drop1([2, 5]) == [5] && Drop1([2, 0]) == [0];
    }
    assert PaddedCmp([2, 5], [3, 0]) == -1;
    EqContains(c, x);
  }

  /** `~=1!2.0` fails the same way, on `int("1!2")`, although it means `[1!2.0, 1!3.0)`. */
  lemma EpochCompatibleRefused(parseVersion: string -> Option<Version>)
    ensures FromClauseAsWritten(Clause(Compatible, "1!2.0", Version(1, [2, 0], false)), parseVersion) == Err(ValueError)
    ensures FromClause(Clause(Compatible, "1!2.0", Version(1, [2, 0], false))).Ok?
    ensures S.Contains(FromClause(Clause(Compatible, "1!2.0", Version(1, [2, 0], false))).value, Version(1, [2, 5], false))
  {
    var c := Clause(Compatible, "1!2.0", Version(1, [2, 0], false));
    CompatibleUpperOfEpoch(parseVersion);
    CompatibleAsWrittenFails(c, parseVersion);
    EpochCompatibleAdmits(c);
  }

  /** A `~=` clause whose upper bound cannot be computed fails with that error. */
  lemma CompatibleAsWrittenFails(c: Clause, parseVersion: string -> Option<Version>)
    requires c.op == Compatible && CompatibleUpperAsWritten(c.text, parseVersion).Err?
    ensures FromClauseAsWritten(c, parseVersion) == Err(CompatibleUpperAsWritten(c.text, parseVersion).error)
  {
  }

  /** PEP 440's range for `~=1!2.0`, `[1!2.0, 1!3.0)`, holds `1!2.5`. */
  lemma EpochCompatibleAdmits(c: Clause)
    requires c == Clause(Compatible, "1!2.0", Version(1, [2, 0], false))
    ensures FromClause(c).Ok? && S.Contains(FromClause(c).value, Version(1, [2, 5], false))
  {
    var x := Version(1, [2, 5], false);
    var rel := c.version.release;
    assert rel[..|rel| - 1] == [2];
    assert Bump([2]) == [3] && [3] + [0] == [3, 0];
    assert CompatibleUpper(c.version).release == [3, 0];
    assert PaddedCmp([2, 5], [2, 0]) == 1 by {
      assert Drop1([2, 5]) == [5] && Drop1([2, 0]) == [0];
    }
    assert PaddedCmp([2, 5], [3, 0]) == -1;
    CompatibleContains(c, x);
  }

  /** A field that does not start with a digit is kept whole by `_prefix_regex`. */
  lemma NonDigitFieldWhole(f: string)
    requires |f| > 0 && !Text.IsDigit(f[0]) && f[|f| - 1] != '\n'
    ensures Utils.SplitField(f) == [f]
  {
    assert Utils.Body(f) == f;
    assert Utils.LeadingDigits(f) == 0;
  }

  /** `is_not_suffix` keeps `c1`, `pre1` and `v1`: none starts with `dev`, `a`, `b`, `rc` or `post`. */
  lemma TagsKept()
    ensures Utils.IsNotSuffix("c1") && Utils.IsNotSuffix("pre1") && Utils.IsNotSuffix("v1") && Utils.IsNotSuffix("0")
  {
    assert "c1"[..2] != "rc" by { assert "c1"[..2][0] == 'c'; }
    assert "pre1"[..4] != "post" by { assert "pre1"[..4][1] == 'r'; }
    assert "c1"[0] == 'c' && "pre1"[0] == 'p' && "v1"[0] == 'v' && "0"[0] == '0';
  }

  lemma DottedPreReleaseFields()
    ensures Text.SplitOn("1.0.pre1", ".") == ["1", "0", "pre1"]
  {
    Text.SplitJoin(["1", "0", "pre1"], ".");
    assert Text.Join(["1", "0", "pre1"], ".") == "1.0.pre1";
  }

  lemma VersionSplitOfDottedPreRelease()
    ensures Utils.VersionSplit("1.0.pre1") == ["1", "0", "pre1"]
  {
    DottedPreReleaseFields();
    DottedPreReleaseWhole();
    SplitOfWholeFields("1.0.pre1", ["1", "0", "pre1"]);
  }

  lemma DottedPreReleaseWhole()
    ensures Utils.SplitFields(["1", "0", "pre1"]) == ["1", "0", "pre1"]
  {
    NonDigitFieldWhole("pre1");
    SplitFieldPlain("0");
    SplitFieldPlain("1");
    WholeFields("1", "0", "pre1");
  }

  lemma SplitOfWholeFields(v: string, fs: seq<string>)
    requires Text.SplitOn(v, ".") == fs && Utils.SplitFields(fs) == fs
    ensures Utils.VersionSplit(v) == fs
  {
  }

  /** Three fields that `version_split` leaves whole come out unchanged. */
  lemma WholeFields(a: string, b: string, c: string)
    requires Utils.SplitField(a) == [a] && Utils.SplitField(b) == [b] && Utils.SplitField(c) == [c]
    ensures Utils.SplitFields([a, b, c]) == [a, b, c]
  {
    var fs := [a, b, c];
    assert fs[1..] == [b, c] && fs[1..][1..] == [c] && fs[1..][1..][1..] == [];
    assert Utils.SplitFields([c]) == [c];
    assert Utils.SplitFields([b, c]) == [b, c];
  }

  /**
   * `~=1.0.pre1`: PEP 440 accepts a `.` before the pre-release tag, so
   * packaging reads `1.0rc1`; the source splits `pre1` off as a segment of
   * its own, `is_not_suffix` keeps it (it knows neither `pre`, `preview`,
   * `c` nor `r`/`rev`), and the bound becomes `1.1.0` instead of `2.0`.
   */
  lemma DottedSuffixMisread(parseVersion: string -> Option<Version>)
    requires parseVersion("1.1.0") == Some(Version(0, [1, 1, 0], false))
    ensures CompatibleUpperAsWritten("1.0.pre1", parseVersion) == Ok(Version(0, [1, 1, 0], false))
    ensures FromClauseAsWritten(Clause(Compatible, "1.0.pre1", Version(0, [1, 0], true)), parseVersion).Ok?
    ensures !S.Contains(FromClauseAsWritten(Clause(Compatible, "1.0.pre1", Version(0, [1, 0], true)), parseVersion).value,
                        Version(0, [1, 5], false))
    ensures FromClause(Clause(Compatible, "1.0.pre1", Version(0, [1, 0], true))).Ok?
    ensures S.Contains(FromClause(Clause(Compatible, "1.0.pre1", Version(0, [1, 0], true))).value, Version(0, [1, 5], false))
  {
    var c := Clause(Compatible, "1.0.pre1", Version(0, [1, 0], true));
    VersionSplitOfDottedPreRelease();
    TagsKept();
    CompatibleUpperOfPreRelease(c.text, parseVersion, "pre1");
    MisreadRangeExcludes(c, parseVersion);
    CorrectRangeAdmits(c);
  }

  lemma VersionSplitOfPrefixed()
    ensures Utils.VersionSplit("v1.0") == ["v1", "0"]
  {
    Text.SplitJoin(["v1", "0"], ".");
    assert Text.Join(["v1", "0"], ".") == "v1.0";
    NonDigitFieldWhole("v1");
    SplitFieldPlain("0");
    var fs := ["v1", "0"];
    assert fs[1..] == ["0"] && fs[1..][1..] == [];
  }

  /** The `v` stays glued to the first segment, so incrementing it fails on `int("v1")`. */
  lemma CompatibleUpperOfPrefixed(parseVersion: string -> Option<Version>)
    ensures CompatibleUpperAsWritten("v1.0", parseVersion) == Err(ValueError)
  {
    VersionSplitOfPrefixed();
    KeepsPrefixedSegments();
    assert ["v1", "0"][..1] == ["v1"];
    PrefixedBumpFails();
  }

  lemma KeepsPrefixedSegments()
    ensures Utils.TakeWhileNotSuffix(["v1", "0"]) == ["v1", "0"]
  {
    var ps := ["v1", "0"];
    TagsKept();
    assert ps[1..] == ["0"] && ps[1..][1..] == [];
  }

  lemma PrefixedBumpFails()
    ensures BumpLast(["v1"]) == Err(ValueError)
  {
    assert Text.ParseInt("v1").None? by { assert !Text.IsDigit("v1"[0]); }
  }

  /**
   * `~=v1.0`: PEP 440 allows a leading `v` and packaging parses `1.0`, but
   * the source's `int("v1")` raises; the clause means `[1.0, 2.0)`, which
   * holds `1.5`.
   */
  lemma PrefixedCompatibleRefused(parseVersion: string -> Option<Version>)
    ensures FromClauseAsWritten(Clause(Compatible, "v1.0", Version(0, [1, 0], false)), parseVersion) == Err(ValueError)
    ensures FromClause(Clause(Compatible, "v1.0", Version(0, [1, 0], false))).Ok?
    ensures S.Contains(FromClause(Clause(Compatible, "v1.0", Version(0, [1, 0], false))).value, Version(0, [1, 5], false))
  {
    var c := Clause(Compatible, "v1.0", Version(0, [1, 0], false));
    CompatibleUpperOfPrefixed(parseVersion);
    CompatibleAsWrittenFails(c, parseVersion);
    CorrectRangeAdmits(c);
  }

  lemma UpperCaseTagFields()
    ensures Text.SplitOn("1.0.RC1", ".") == ["1", "0", "RC1"]
  {
    Text.SplitJoin(["1", "0", "RC1"], ".");
    assert Text.Join(["1", "0", "RC1"], ".") == "1.0.RC1";
  }

  lemma UpperCaseTagWhole()
    ensures Utils.SplitFields(["1", "0", "RC1"]) == ["1", "0", "RC1"]
  {
    NonDigitFieldWhole("RC1");
    SplitFieldPlain("0");
    SplitFieldPlain("1");
    WholeFields("1", "0", "RC1");
  }

  /** `is_not_suffix` compares case-sensitively, so it keeps `RC1`. */
  lemma UpperCaseTagKept()
    ensures Utils.IsNotSuffix("RC1")
  {
    assert "RC1"[..2] != "rc" by { assert "RC1"[..2][0] == 'R'; }
    assert "RC1"[0] == 'R';
  }

  /**
   * `~=1.0.RC1`: packaging matches tags in any case and reads `1.0rc1`,
   * but `is_not_suffix` only knows the lower-case prefixes, so `RC1` is
   * kept as a segment and the bound becomes `1.1.0` instead of `2.0`.
   */
  lemma UpperCaseTagMisread(parseVersion: string -> Option<Version>)
    requires parseVersion("1.1.0") == Some(Version(0, [1, 1, 0], false))
    ensures CompatibleUpperAsWritten("1.0.RC1", parseVersion) == Ok(Version(0, [1, 1, 0], false))
    ensures FromClauseAsWritten(Clause(Compatible, "1.0.RC1", Version(0, [1, 0], true)), parseVersion).Ok?
    ensures !S.Contains(FromClauseAsWritten(Clause(Compatible, "1.0.RC1", Version(0, [1, 0], true)), parseVersion).value,
                        Version(0, [1, 5], false))
    ensures FromClause(Clause(Compatible, "1.0.RC1", Version(0, [1, 0], true))).Ok?
    ensures S.Contains(FromClause(Clause(Compatible, "1.0.RC1", Version(0, [1, 0], true))).value, Version(0, [1, 5], false))
  {
    var c := Clause(Compatible, "1.0.RC1", Version(0, [1, 0], true));
    UpperCaseTagFields();
    UpperCaseTagWhole();
    SplitOfWholeFields("1.0.RC1", ["1", "0", "RC1"]);
    UpperCaseTagKept();
    CompatibleUpperOfPreRelease(c.text, parseVersion, "RC1");
    MisreadRangeExcludes(c, parseVersion);
    CorrectRangeAdmits(c);
  }

  lemma SeparatedTagFields()
    ensures Text.SplitOn("1.0.c.1", ".") == ["1", "0", "c", "1"]
  {
    Text.SplitJoin(["1", "0", "c", "1"], ".");
    assert Text.Join(["1", "0", "c", "1"], ".") == "1.0.c.1";
  }

  lemma SeparatedTagWhole()
    ensures Utils.SplitFields(["1", "0", "c", "1"]) == ["1", "0", "c", "1"]
  {
    NonDigitFieldWhole("c");
    SplitFieldPlain("0");
    SplitFieldPlain("1");
    WholeFourFields("1", "0", "c", "1");
  }

  /** Four fields that `version_split` leaves whole come out unchanged. */
  lemma WholeFourFields(a: string, b: string, c: string, d: string)
    requires Utils.SplitField(a) == [a] && Utils.SplitField(b) == [b]
    requires Utils.SplitField(c) == [c] && Utils.SplitField(d) == [d]
    ensures Utils.SplitFields([a, b, c, d]) == [a, b, c, d]
  {
    WholeFields(b, c, d);
    assert [a, b, c, d][1..] == [b, c, d];
  }

  lemma KeepsSeparatedSegments()
    ensures Utils.TakeWhileNotSuffix(["1", "0", "c", "1"]) == ["1", "0", "c", "1"]
  {
    var ps := ["1", "0", "c", "1"];
    assert Utils.IsNotSuffix("1") && Utils.IsNotSuffix("0") && Utils.IsNotSuffix("c");
    assert ps[1..] == ["0", "c", "1"] && ps[1..][1..] == ["c", "1"];
    assert ps[1..][1..][1..] == ["1"] && ps[1..][1..][1..][1..] == [];
    assert Utils.TakeWhileNotSuffix(["1"]) == ["1"];
    assert Utils.TakeWhileNotSuffix(["c", "1"]) == ["c", "1"];
  }

  /** Once the tag is its own segment, `[:-1]` leaves it last and `int("c")` fails. */
  lemma CompatibleUpperOfSeparatedTag(parseVersion: string -> Option<Version>)
    ensures CompatibleUpperAsWritten("1.0.c.1", parseVersion) == Err(ValueError)
  {
    SeparatedTagFields();
    SeparatedTagWhole();
    SplitOfWholeFields("1.0.c.1", ["1", "0", "c", "1"]);
    KeepsSeparatedSegments();
    assert ["1", "0", "c", "1"][..3] == ["1", "0", "c"];
    assert Text.ParseInt("c").None? by { assert !Text.IsDigit("c"[0]); }
  }

  /**
   * `~=1.0.c.1`: PEP 440 allows a `.` between a pre-release tag and its
   * number, and packaging reads `1.0rc1`; the source splits `c` and `1`
   * into segments of their own, keeps both, and raises on `int("c")`.
   * The clause means `[1.0rc1, 2.0)`, which holds `1.5`.
   */
  lemma SeparatedTagRefused(parseVersion: string -> Option<Version>)
    ensures FromClauseAsWritten(Clause(Compatible, "1.0.c.1", Version(0, [1, 0], true)), parseVersion) == Err(ValueError)
    ensures FromClause(Clause(Compatible, "1.0.c.1", Version(0, [1, 0], true))).Ok?
    ensures S.Contains(FromClause(Clause(Compatible, "1.0.c.1", Version(0, [1, 0], true))).value, Version(0, [1, 5], false))
  {
    var c := Clause(Compatible, "1.0.c.1", Version(0, [1, 0], true));
    CompatibleUpperOfSeparatedTag(parseVersion);
    CompatibleAsWrittenFails(c, parseVersion);
    CorrectRangeAdmits(c);
  }

  // ---------------------------------------------------------------------
  // from_specifierset / parse
  // ---------------------------------------------------------------------

  /** `functools.reduce(operator.and_, map(_from_pkg_specifier, clauses), acc)` */
  function AndClauses(acc: S.Spec, clauses: seq<Clause>): Result<S.Spec, Error>
    decreases |clauses|
  {
    if |clauses| == 0 then Ok(acc)
    else match FromClause(clauses[0])
      case Err(e) => Err(e)
      case Ok(s) => AndClauses(A.And(acc, s), clauses[1..])
  }

  /** `from_specifierset(spec)`, the set given as its clauses. */
  function FromSpecifierSet(clauses: seq<Clause>): Result<S.Spec, Error> {
    AndClauses(S.Single(R.AnyRange), clauses)
  }

  /** Every clause translates. */
  predicate AllTranslate(clauses: seq<Clause>) {
    forall i :: 0 <= i < |clauses| ==> FromClause(clauses[i]).Ok?
  }

  /** `x` satisfies every clause. */
  predicate SatisfiesAll(clauses: seq<Clause>, x: Version)
    requires AllTranslate(clauses)
  {
    forall i :: 0 <= i < |clauses| ==> S.Contains(FromClause(clauses[i]).value, x)
  }

  lemma {:induction false} AndClausesSpec(acc: S.Spec, clauses: seq<Clause>, x: Version)
    requires S.Valid(acc)
    ensures AndClauses(acc, clauses).Ok? <==> AllTranslate(clauses)
    ensures AndClauses(acc, clauses).Ok? ==>
      S.Valid(AndClauses(acc, clauses).value) &&
      (S.Contains(AndClauses(acc, clauses).value, x) <==> S.Contains(acc, x) && SatisfiesAll(clauses, x))
    decreases |clauses|
  {
    if |clauses| > 0 {
      var t := clauses[1..];
      assert forall i :: 0 <= i < |t| ==> t[i] == clauses[i + 1];
      match FromClause(clauses[0])
      case Err(_) =>
      case Ok(s) =>
        FromClauseValid(clauses[0]);
        A.AndValid(acc, s);
        A.AndContains(acc, s, x);
        AndClausesSpec(A.And(acc, s), t, x);
    }
  }

  /**
   * A clause set translates when each clause does; the result is well
   * formed and admits exactly the versions every clause admits (all of
   * them for no clause at all).
   */
  lemma FromSpecifierSetSpec(clauses: seq<Clause>, x: Version)
    ensures FromSpecifierSet(clauses).Ok? <==> AllTranslate(clauses)
    ensures FromSpecifierSet(clauses).Ok? ==>
      S.Valid(FromSpecifierSet(clauses).value) &&
      (S.Contains(FromSpecifierSet(clauses).value, x) <==> SatisfiesAll(clauses, x))
    ensures clauses == [] ==> FromSpecifierSet(clauses) == Ok(S.Single(R.AnyRange))
  {
    AndClausesSpec(S.Single(R.AnyRange), clauses, x);
  }

  /**
   * `parse` on a string without `||`: the empty marker, or the clause set
   * `specifierSet` reads from the string (`None` where `SpecifierSet`
   * raises).
   */
  function ParsePart(s: string, specifierSet: string -> Option<seq<Clause>>): Result<S.Spec, Error> {
    if s == "<empty>" then Ok(S.Empty)
    else match specifierSet(s)
      case None => Err(InvalidSpecifier)
      case Some(clauses) => FromSpecifierSet(clauses)
  }

  /** `functools.reduce(operator.or_, map(parse, parts), acc)` */
  function OrParts(acc: S.Spec, parts: seq<string>, specifierSet: string -> Option<seq<Clause>>): Result<S.Spec, Error>
    decreases |parts|
  {
    if |parts| == 0 then Ok(acc)
    else match ParsePart(parts[0], specifierSet)
      case Err(e) => Err(e)
      case Ok(p) => OrParts(A.Or(acc, p), parts[1..], specifierSet)
  }

  /**
   * `parse(spec)`. The parts of a split on `||` contain no `||`
   * (`ParseOfPart`), so `parse` applied to them is `ParsePart`.
   */
  function Parse(s: string, specifierSet: string -> Option<seq<Clause>>): Result<S.Spec, Error> {
    if s == "<empty>" then Ok(S.Empty)
    else if Text.Occurs(s, "||") then
      var parts := Text.SplitOn(s, "||");
      match ParsePart(parts[0], specifierSet)
      case Err(e) => Err(e)
      case Ok(first) => OrParts(first, parts[1..], specifierSet)
    else ParsePart(s, specifierSet)
  }

  /** The pieces `parse` reads: the `||`-separated parts, or the string itself. */
  function Parts(s: string): seq<string> {
    if s != "<empty>" && Text.Occurs(s, "||") then Text.SplitOn(s, "||") else [s]
  }

  /** `parse` of a piece of a `||`-split takes the no-`||` route. */
  lemma ParseOfPart(s: string, i: nat, specifierSet: string -> Option<seq<Clause>>)
    requires i < |Text.SplitOn(s, "||")|
    ensures Parse(Text.SplitOn(s, "||")[i], specifierSet) == ParsePart(Text.SplitOn(s, "||")[i], specifierSet)
  {
    Text.SplitFieldsFree(s, "||");
  }

  /** Every piece parses. */
  predicate AllParse(parts: seq<string>, specifierSet: string -> Option<seq<Clause>>) {
    forall i :: 0 <= i < |parts| ==> ParsePart(parts[i], specifierSet).Ok?
  }

  /** Some piece admits `x`. */
  predicate SomeAdmits(parts: seq<string>, specifierSet: string -> Option<seq<Clause>>, x: Version)
    requires AllParse(parts, specifierSet)
  {
    exists i :: 0 <= i < |parts| && S.Contains(ParsePart(parts[i], specifierSet).value, x)
  }

  lemma ParsePartSpec(s: string, specifierSet: string -> Option<seq<Clause>>)
    requires ParsePart(s, specifierSet).Ok?
    ensures S.Valid(ParsePart(s, specifierSet).value)
  {
    if s != "<empty>" {
      var x :| true;
      FromSpecifierSetSpec(specifierSet(s).value, x);
    }
  }

  lemma {:induction false} OrPartsSpec(acc: S.Spec, parts: seq<string>, specifierSet: string -> Option<seq<Clause>>, x: Version)
    requires S.Valid(acc)
    ensures OrParts(acc, parts, specifierSet).Ok? <==> AllParse(parts, specifierSet)
    ensures OrParts(acc, parts, specifierSet).Ok? ==>
      S.Valid(OrParts(acc, parts, specifierSet).value) &&
      (S.Contains(OrParts(acc, parts, specifierSet).value, x) <==>
        S.Contains(acc, x) || SomeAdmits(parts, specifierSet, x))
    decreases |parts|
  {
    if |parts| > 0 {
      var t := parts[1..];
      assert forall i :: 0 <= i < |t| ==> t[i] == parts[i + 1];
      match ParsePart(parts[0], specifierSet)
      case Err(_) =>
      case Ok(p) =>
        ParsePartSpec(parts[0], specifierSet);
        A.OrValid(acc, p);
        A.OrContains(acc, p, x);
        OrPartsSpec(A.Or(acc, p), t, specifierSet, x);
        if OrParts(acc, parts, specifierSet).Ok? {
          if SomeAdmits(parts, specifierSet, x) {
            var i :| 0 <= i < |parts| && S.Contains(ParsePart(parts[i], specifierSet).value, x);
            if i > 0 {
              assert S.Contains(ParsePart(t[i - 1], specifierSet).value, x);
            }
          }
          if SomeAdmits(t, specifierSet, x) {
            var i :| 0 <= i < |t| && S.Contains(ParsePart(t[i], specifierSet).value, x);
            assert S.Contains(ParsePart(parts[i + 1], specifierSet).value, x);
          }
        }
    }
  }

  /**
   * `parse("<empty>")` is the empty specifier; otherwise the string parses
   * when each `||`-piece does, and the result is well formed and admits
   * exactly what some piece admits.
   */
  lemma ParseSpec(s: string, specifierSet: string -> Option<seq<Clause>>, x: Version)
    ensures s == "<empty>" ==> Parse(s, specifierSet) == Ok(S.Empty)
    ensures Parse(s, specifierSet).Ok? <==> AllParse(Parts(s), specifierSet)
    ensures Parse(s, specifierSet).Ok? ==>
      S.Valid(Parse(s, specifierSet).value) &&
      (S.Contains(Parse(s, specifierSet).value, x) <==> SomeAdmits(Parts(s), specifierSet, x))
  {
    var parts := Parts(s);
    if s != "<empty>" && Text.Occurs(s, "||") {
      var t := parts[1..];
      assert forall i :: 0 <= i < |t| ==> t[i] == parts[i + 1];
      match ParsePart(parts[0], specifierSet)
      case Err(_) =>
      case Ok(first) =>
        ParsePartSpec(parts[0], specifierSet);
        OrPartsSpec(first, t, specifierSet, x);
        if Parse(s, specifierSet).Ok? {
          if SomeAdmits(parts, specifierSet, x) {
            var i :| 0 <= i < |parts| && S.Contains(ParsePart(parts[i], specifierSet).value, x);
            if i > 0 {
              assert S.Contains(ParsePart(t[i - 1], specifierSet).value, x);
            }
          }
          if SomeAdmits(t, specifierSet, x) {
            var i :| 0 <= i < |t| && S.Contains(ParsePart(t[i], specifierSet).value, x);
            assert S.Contains(ParsePart(parts[i + 1], specifierSet).value, x);
          }
        }
    } else {
      ParseWhole(s, specifierSet, x);
    }
  }

  /** Without `||` (or on `<empty>`) `parse` reads the string as one piece. */
  lemma ParseWhole(s: string, specifierSet: string -> Option<seq<Clause>>, x: Version)
    requires !(s != "<empty>" && Text.Occurs(s, "||"))
    ensures Parts(s) == [s] && Parse(s, specifierSet) == ParsePart(s, specifierSet)
    ensures AllParse([s], specifierSet) <==> ParsePart(s, specifierSet).Ok?
    ensures ParsePart(s, specifierSet).Ok? ==>
      S.Valid(ParsePart(s, specifierSet).value) &&
      (SomeAdmits([s], specifierSet, x) <==> S.Contains(ParsePart(s, specifierSet).value, x))
  {
    var parts := [s];
    assert parts[0] == s;
    if ParsePart(s, specifierSet).Ok? {
      ParsePartSpec(s, specifierSet);
      assert S.Contains(ParsePart(parts[0], specifierSet).value, x) ==> SomeAdmits(parts, specifierSet, x);
    }
  }
}

=== FILE: specs.dfy ===
/**
 * The three kinds of version specifier (`BaseSpecifier`): the empty set,
 * a single range, and a union of two or more sorted, pairwise separated
 * ranges, with the membership test they share and the invariant every
 * constructed specifier keeps.
 */
module Specs {
  import opened Wrappers
  import opened Versions
  import opened Ranges

  /**
   * `EmptySpecifier`, `RangeSpecifier`, or `UnionSpecifier(ranges, simplified)`;
   * `simplified` is the clause text a `!=` specifier was parsed from.
   */
  datatype Spec =
    | Empty
    | Single(range: Range)
    | Union(ranges: seq<Range>, simplified: Option<string>)

  /** Some range of the list admits `x`. */
  predicate AnyContains(rs: seq<Range>, x: Version)
    decreases |rs|
  {
    |rs| > 0 && (Ranges.Contains(rs[0], x) || AnyContains(rs[1..], x))
  }

  /** `spec.contains(x)` */
  predicate Contains(s: Spec, x: Version) {
    match s
    case Empty => false
    case Single(r) => Ranges.Contains(r, x)
    case Union(rs, _) => AnyContains(rs, x)
  }

  /** Ranges well formed and each separated from its successor by a gap. */
  predicate Sorted(rs: seq<Range>) {
    (forall i :: 0 <= i < |rs| ==> WellFormed(rs[i]))
    && (forall i :: 0 <= i < |rs| - 1 ==> Separated(rs[i], rs[i + 1]))
  }

  /** Every range of the list lies below every later one. */
  predicate SortedAll(rs: seq<Range>) {
    (forall i :: 0 <= i < |rs| ==> WellFormed(rs[i]))
    && (forall i, j :: 0 <= i < j < |rs| ==> Separated(rs[i], rs[j]))
  }

  /** The invariant of every specifier the algebra builds. */
  predicate Valid(s: Spec) {
    match s
    case Empty => true
    case Single(r) => WellFormed(r)
    case Union(rs, _) => |rs| >= 2 && Sorted(rs)
  }

  /** Structural equality that ignores `simplified`, as the dataclass field is `compare=False`. */
  predicate Equal(a: Spec, b: Spec) {
    match (a, b)
    case (Union(ra, _), Union(rb, _)) => ra == rb
    case _ => a == b
  }

  /** `UnionSpecifier._from_ranges` */
  function FromRanges(rs: seq<Range>): (s: Spec)
    ensures |rs| == 0 <==> s == Empty
    ensures |rs| == 1 <==> s.Single?
    ensures |rs| == 1 ==> s == Single(rs[0])
    ensures |rs| >= 2 <==> s.Union?
    ensures |rs| >= 2 ==> s == Union(rs, None)
  {
    if |rs| == 0 then Empty
    else if |rs| == 1 then Single(rs[0])
    else Union(rs, None)
  }

  lemma FromRangesContains(rs: seq<Range>, x: Version)
    ensures Contains(FromRanges(rs), x) <==> AnyContains(rs, x)
  {
    if |rs| == 1 {
      assert !AnyContains(rs[1..], x);
    }
  }

  lemma FromRangesValid(rs: seq<Range>)
    requires Sorted(rs)
    ensures Valid(FromRanges(rs))
  {
  }

  lemma {:induction false} AnyContainsIndex(rs: seq<Range>, x: Version)
    ensures AnyContains(rs, x) <==> exists i :: 0 <= i < |rs| && Ranges.Contains(rs[i], x)
    decreases |rs|
  {
    if |rs| > 0 {
      AnyContainsIndex(rs[1..], x);
      if exists i :: 0 <= i < |rs| && Ranges.Contains(rs[i], x) {
        var i :| 0 <= i < |rs| && Ranges.Contains(rs[i], x);
        if i > 0 {
          assert Ranges.Contains(rs[1..][i - 1], x);
        }
      }
      if AnyContains(rs[1..], x) {
        var i :| 0 <= i < |rs[1..]| && Ranges.Contains(rs[1..][i], x);
        assert Ranges.Contains(rs[i + 1], x);
      }
    }
  }

  lemma AnyContainsAppend(a: seq<Range>, b: seq<Range>, x: Version)
    ensures AnyContains(a + b, x) <==> AnyContains(a, x) || AnyContains(b, x)
  {
    AnyContainsIndex(a + b, x);
    AnyContainsIndex(a, x);
    AnyContainsIndex(b, x);
    if AnyContains(b, x) {
      var i :| 0 <= i < |b| && Ranges.Contains(b[i], x);
      assert (a + b)[|a| + i] == b[i];
    }
    if AnyContains(a, x) {
      var i :| 0 <= i < |a| && Ranges.Contains(a[i], x);
      assert (a + b)[i] == a[i];
    }
    if AnyContains(a + b, x) {
      var i :| 0 <= i < |a + b| && Ranges.Contains((a + b)[i], x);
      if i < |a| {
        assert (a + b)[i] == a[i];
      } else {
        assert (a + b)[i] == b[i - |a|];
      }
    }
  }

  lemma {:induction false} SortedIsSortedAll(rs: seq<Range>)
    requires Sorted(rs)
    ensures SortedAll(rs)
    decreases |rs|
  {
    if |rs| > 1 {
      var t := rs[1..];
      assert Sorted(t) by {
        assert forall i :: 0 <= i < |t| ==> t[i] == rs[i + 1];
      }
      SortedIsSortedAll(t);
      forall i, j | 0 <= i < j < |rs| ensures Separated(rs[i], rs[j]) {
        if i > 0 {
          assert t[i - 1] == rs[i] && t[j - 1] == rs[j];
        } else if j > 1 {
          assert t[0] == rs[1] && t[j - 1] == rs[j];
          SeparatedTransitive(rs[0], rs[1], rs[j]);
        }
      }
    }
  }

  /** Joining two sorted lists with every range of the first below every range of the second. */
  lemma SortedAllAppend(a: seq<Range>, b: seq<Range>)
    requires SortedAll(a) && SortedAll(b)
    requires forall i, j :: 0 <= i < |a| && 0 <= j < |b| ==> Separated(a[i], b[j])
    ensures SortedAll(a + b)
  {
    var c := a + b;
    forall i, j | 0 <= i < j < |c| ensures Separated(c[i], c[j]) {
      if j < |a| {
      } else if i >= |a| {
        assert c[i] == b[i - |a|] && c[j] == b[j - |a|];
      } else {
        assert c[j] == b[j - |a|];
      }
    }
  }

  lemma SortedTail(rs: seq<Range>)
    requires Sorted(rs) && |rs| > 0
    ensures Sorted(rs[1..])
  {
    assert forall k :: 0 <= k < |rs| - 1 ==> rs[1..][k] == rs[k + 1];
  }

  lemma AnyContainsPair(a: Range, b: Range, x: Version)
    ensures AnyContains([a, b], x) <==> Ranges.Contains(a, x) || Ranges.Contains(b, x)
  {
    assert [a, b][1..] == [b] && [b][1..] == [];
    assert AnyContains([b], x) <==> Ranges.Contains(b, x) || AnyContains([], x);
    assert AnyContains([a, b], x) <==> Ranges.Contains(a, x) || AnyContains([b], x);
  }
}

=== FILE: tags.dfy ===
/**
 * Wheel tags (src/dep_logic/tags/tags.py): splitting a wheel file name
 * into its python, ABI and platform tag lists, the interpreter
 * implementation record, and the ranking of a wheel's tags against an
 * environment.
 *
 * The environment's `requires_python` specifier enters only through the
 * question "is `parse_version_specifier(text) & requires_python` empty?",
 * which every ranking function takes as the oracle `excluded`:
 * `Some(true)` when the intersection is empty, `Some(false)` when it is
 * not, `None` when `text` does not parse as a specifier.
 */
module Tags {
  import opened Wrappers
  import Text
  import Utils
  import Platforms

  /**
   * `InvalidWheelFilename`, `UnsupportedImplementation`, the
   * `InvalidSpecifier` of a specifier text that does not parse, the
   * `IndexError` / `ValueError` of indexing and `int()`, and the
   * `PlatformError` of a platform without tags.
   */
  datatype Failure =
    | InvalidWheelFilename
    | UnsupportedImplementation
    | InvalidSpecifier
    | IndexError
    | ValueError
    | PlatformError

  function FromPlatformFailure(e: Platforms.Failure): Failure {
    match e
    case PlatformError => PlatformError
    case ValueError => ValueError
  }

  // ---------------------------------------------------------------------
  // parse_wheel_tags
  // ---------------------------------------------------------------------

  datatype WheelTags = WheelTags(python: seq<string>, abi: seq<string>, platform: seq<string>)

  /** The file name without its four-character extension. */
  function Stem(filename: string): string
    requires |filename| >= 4
  {
    filename[..|filename| - 4]
  }

  /**
   * `parse_wheel_tags`: the name must end in `.whl` and its stem hold four
   * or five dashes; the last three dash-separated fields, each split on
   * `.`, are the python, ABI and platform tags.
   */
  function ParseWheelTags(filename: string): (r: Result<WheelTags, Failure>)
    ensures r.Err? <==> !Text.EndsWith(filename, ".whl") || Text.Count(Stem(filename), '-') !in {4, 5}
    ensures r.Err? ==> r.error == InvalidWheelFilename
    ensures r.Ok? ==>
      var parts := Text.SplitOn(Stem(filename), "-");
      (|parts| == 5 || |parts| == 6)
      && |r.value.python| >= 1 && |r.value.abi| >= 1 && |r.value.platform| >= 1
      && Text.Join(r.value.python, ".") == parts[|parts| - 3]
      && Text.Join(r.value.abi, ".") == parts[|parts| - 2]
      && Text.Join(r.value.platform, ".") == parts[|parts| - 1]
  {
    if !Text.EndsWith(filename, ".whl") then Err(InvalidWheelFilename)
    else
      var stem := Stem(filename);
      var dashes := Text.Count(stem, '-');
      if dashes != 4 && dashes != 5 then Err(InvalidWheelFilename)
      else
        Text.SplitCount(stem, '-');
        var parts := Text.SplitOn(stem, "-");
        var n := |parts|;
        Text.JoinSplit(parts[n - 3], ".");
        Text.JoinSplit(parts[n - 2], ".");
        Text.JoinSplit(parts[n - 1], ".");
        Ok(WheelTags(Text.SplitOn(parts[n - 3], "."), Text.SplitOn(parts[n - 2], "."), Text.SplitOn(parts[n - 1], ".")))
  }

  /** No character of `s` is `c`. */
  predicate Avoids(s: string, c: char) {
    forall i :: 0 <= i < |s| ==> s[i] != c
  }

  /** A tag list as a wheel file name can carry it: at least one tag, none holding `.` or `-`. */
  predicate TagList(ts: seq<string>) {
    |ts| >= 1 && forall k :: 0 <= k < |ts| ==> Avoids(ts[k], '.') && Avoids(ts[k], '-')
  }

  /** The dash-separated fields of a PEP 427 file name: name, version, optional build tag, then the three tag sets. */
  function WheelFields(name: string, version: string, build: Option<string>, tags: WheelTags): seq<string>
    requires TagList(tags.python) && TagList(tags.abi) && TagList(tags.platform)
  {
    [name, version] + (if build.Some? then [build.value] else [])
    + [Text.Join(tags.python, "."), Text.Join(tags.abi, "."), Text.Join(tags.platform, ".")]
  }

  /** `{name}-{version}(-{build})?-{python}-{abi}-{platform}.whl`, section "File name convention" of PEP 427. */
  function WheelFilename(name: string, version: string, build: Option<string>, tags: WheelTags): string
    requires TagList(tags.python) && TagList(tags.abi) && TagList(tags.platform)
  {
    Text.Join(WheelFields(name, version, build, tags), "-") + ".whl"
  }

  /** Joining fields that avoid `c` with a separator that avoids `c` gives a string that avoids `c`. */
  lemma {:induction false} JoinAvoids(parts: seq<string>, sep: string, c: char)
    requires |parts| >= 1 && Avoids(sep, c)
    requires forall k :: 0 <= k < |parts| ==> Avoids(parts[k], c)
    ensures Avoids(Text.Join(parts, sep), c)
    decreases |parts|
  {
    if |parts| > 1 {
      JoinAvoids(parts[1..], sep, c);
    }
  }

  /** A tag list survives being joined with `.` and split again. */
  lemma TagListRoundTrip(ts: seq<string>)
    requires TagList(ts)
    ensures Text.SplitOn(Text.Join(ts, "."), ".") == ts
    ensures Avoids(Text.Join(ts, "."), '-')
  {
    Text.SplitJoin(ts, ".");
    JoinAvoids(ts, ".", '-');
  }

  /**
   * Every well-formed wheel file name gives back exactly the tag lists it
   * was built from, with or without a build tag.
   */
  lemma ParseWheelTagsRoundTrip(name: string, version: string, build: Option<string>, tags: WheelTags)
    requires Avoids(name, '-') && Avoids(version, '-') && (build.Some? ==> Avoids(build.value, '-'))
    requires TagList(tags.python) && TagList(tags.abi) && TagList(tags.platform)
    ensures ParseWheelTags(WheelFilename(name, version, build, tags)) == Ok(tags)
  {
    var fields := WheelFields(name, version, build, tags);
    var filename := WheelFilename(name, version, build, tags);
    WheelStem(fields, filename);
    WheelFieldsSplit(name, version, build, tags);
    TagListRoundTrip(tags.python);
    TagListRoundTrip(tags.abi);
    TagListRoundTrip(tags.platform);
  }

  /** A name built with the `.whl` extension ends in it, and its stem is the joined fields. */
  lemma WheelStem(fields: seq<string>, filename: string)
    requires |fields| >= 1 && filename == Text.Join(fields, "-") + ".whl"
    ensures Text.EndsWith(filename, ".whl") && Stem(filename) == Text.Join(fields, "-")
  {
    assert filename[|filename| - 4..] == ".whl";
  }

  /** The stem of a well-formed name splits on `-` into its fields, the last three being the joined tag lists. */
  lemma WheelFieldsSplit(name: string, version: string, build: Option<string>, tags: WheelTags)
    requires Avoids(name, '-') && Avoids(version, '-') && (build.Some? ==> Avoids(build.value, '-'))
    requires TagList(tags.python) && TagList(tags.abi) && TagList(tags.platform)
    ensures var fields := WheelFields(name, version, build, tags);
      var stem := Text.Join(fields, "-");
      var n := |fields|;
      Text.SplitOn(stem, "-") == fields && Text.Count(stem, '-') == n - 1 && (n == 5 || n == 6)
      && fields[n - 3] == Text.Join(tags.python, ".")
      && fields[n - 2] == Text.Join(tags.abi, ".")
      && fields[n - 1] == Text.Join(tags.platform, ".")
  {
    var fields := WheelFields(name, version, build, tags);
    WheelFieldsAvoid(name, version, build, tags);
    Text.SplitJoin(fields, "-");
    Text.SplitCount(Text.Join(fields, "-"), '-');
  }

  lemma WheelFieldsAvoid(name: string, version: string, build: Option<string>, tags: WheelTags)
    requires Avoids(name, '-') && Avoids(version, '-') && (build.Some? ==> Avoids(build.value, '-'))
    requires TagList(tags.python) && TagList(tags.abi) && TagList(tags.platform)
    ensures var fields := WheelFields(name, version, build, tags);
      |fields| >= 1 && forall k, i :: 0 <= k < |fields| && 0 <= i < |fields[k]| ==> fields[k][i] != "-"[0]
  {
    var fields := WheelFields(name, version, build, tags);
    TagListRoundTrip(tags.python);
    TagListRoundTrip(tags.abi);
    TagListRoundTrip(tags.platform);
    assert forall k :: 0 <= k < |fields| ==> Avoids(fields[k], '-');
  }

  // ---------------------------------------------------------------------
  // Implementation
  // ---------------------------------------------------------------------

  datatype ImplName = CPython | PyPy | Pyston

  /** The interpreter a wheel is installed into; `gilDisabled` is CPython's free-threaded build. */
  datatype Implementation = Implementation(name: ImplName, gilDisabled: bool)

  /** The lower-case name `Implementation.name` holds. */
  function NameText(n: ImplName): string {
    match n
    case CPython => "cpython"
    case PyPy => "pypy"
    case Pyston => "pyston"
  }

  /** `Implementation.short`: the two-letter prefix of its python tags. */
  function Short(n: ImplName): string {
    match n
    case CPython => "cp"
    case PyPy => "pp"
    case Pyston => "pt"
  }

  /** `Implementation.parse`: the three known names; only CPython may run without the GIL. */
  function ParseImplementation(name: string, gilDisabled: bool): (r: Result<Implementation, Failure>)
    ensures r.Ok? <==> name == "cpython" || (!gilDisabled && (name == "pypy" || name == "pyston"))
    ensures r.Ok? ==> NameText(r.value.name) == name && r.value.gilDisabled == gilDisabled
    ensures r.Err? ==> r.error == UnsupportedImplementation
  {
    if gilDisabled && name != "cpython" then Err(UnsupportedImplementation)
    else if name == "cpython" then Ok(Implementation(CPython, gilDisabled))
    else if name == "pypy" then Ok(Implementation(PyPy, gilDisabled))
    else if name == "pyston" then Ok(Implementation(Pyston, gilDisabled))
    else Err(UnsupportedImplementation)
  }

  /** Every implementation `parse` can build is given back from its own name. */
  lemma ParseImplementationOfName(i: Implementation)
    requires i.gilDisabled ==> i.name == CPython
    ensures ParseImplementation(NameText(i.name), i.gilDisabled) == Ok(i)
  {
  }

  /** The short names are distinct, two letters long, and none is the generic `py`. */
  lemma ShortDistinct(a: ImplName, b: ImplName)
    ensures Short(a) == Short(b) <==> a == b
    ensures |Short(a)| == 2 && Short(a) != "py"
  {
  }

  // ---------------------------------------------------------------------
  // _evaluate_python
  // ---------------------------------------------------------------------

  /** `(major, minor, kind)`, compared as a Python tuple; kind is 0 for `none`, 1 for `abi3`, 2 for a matching ABI. */
  type PythonScore = (nat, nat, nat)

  /** Python's lexicographic `<=` on triples. */
  predicate ScoreLe(a: PythonScore, b: PythonScore) {
    a.0 < b.0 || (a.0 == b.0 && (a.1 < b.1 || (a.1 == b.1 && a.2 <= b.2)))
  }

  /** The ABI tag's implementation part: before the first `_`, `pypy` → `pp`, `pyston` → `pt`, lower-cased. */
  function AbiImpl(abiTag: string): string {
    var head := match Text.SplitOnce(abiTag, '_') case None => abiTag case Some((h, _)) => h;
    Text.Lower(Text.Replace(Text.Replace(head, "pypy", "pp"), "pyston", "pt"))
  }

  /** `int(minor or 0)` */
  function MinorValue(minor: string): Option<nat> {
    if minor == "" then Some(0) else Text.ParseInt(minor)
  }

  /** The specifier text an `abi3` wheel is checked against: `>=major.minor`, minor 0 when absent. */
  function Abi3Text(major: string, minor: string): string {
    ">=" + major + "." + (if minor == "" then "0" else minor)
  }

  /** The wheel's python range: `==major.minor.*`, or `==major.*` without a minor. */
  function RangeText(major: string, minor: string): string {
    if minor != "" then "==" + major + "." + minor + ".*" else "==" + major + ".*"
  }

  /** Ask the oracle about `text`; when the wheel's range meets `requires_python`, read the version numbers. */
  function Admit(text: string, excluded: string -> Option<bool>, major: string, minor: string, kind: nat)
    : (r: Result<Option<PythonScore>, Failure>)
    ensures r.Ok? && r.value.Some? <==>
      excluded(text) == Some(false) && Text.ParseInt(major).Some? && MinorValue(minor).Some?
    ensures r.Ok? && r.value.Some? ==>
      r.value.value == (Text.ParseInt(major).value, MinorValue(minor).value, kind)
    ensures r == Ok(None) <==> excluded(text) == Some(true)
    ensures r.Err? ==> (r.error == InvalidSpecifier <==> excluded(text).None?)
    ensures r.Err? ==> (r.error == ValueError || r.error == InvalidSpecifier)
  {
    match excluded(text)
    case None => Err(InvalidSpecifier)
    case Some(true) => Ok(None)
    case Some(false) =>
      match (Text.ParseInt(major), MinorValue(minor))
      case (Some(ma), Some(mi)) => Ok(Some((ma, mi, kind)))
      case _ => Err(ValueError)
  }

  /**
   * `EnvSpec._evaluate_python`: `None` unless the tag's two-letter prefix
   * is the implementation's short name or `py`; an `abi3` CPython tag is
   * checked against `>=major.minor` and scores kind 1; otherwise the ABI
   * must be `none` (kind 0) or start with the python tag (kind 2) and the
   * wheel's python range must meet `requires_python`.
   */
  function EvaluatePython(impl: Implementation, pythonTag: string, abiTag: string, excluded: string -> Option<bool>)
    : Result<Option<PythonScore>, Failure>
  {
    if |pythonTag| < 3 then Err(IndexError)
    else
      var prefix, major, minor := pythonTag[..2], pythonTag[2..3], pythonTag[3..];
      if prefix != Short(impl.name) && prefix != "py" then Ok(None)
      else
        var abi := AbiImpl(abiTag);
        if prefix == "cp" && abi == "abi3" then Admit(Abi3Text(major, minor), excluded, major, minor, 1)
        else if abi != "none" && !Text.StartsWith(abi, Text.Lower(pythonTag)) then Ok(None)
        else Admit(RangeText(major, minor), excluded, major, minor, if abi == "none" then 0 else 2)
  }

  /** Which tags `_evaluate_python` turns away before it looks at the version. */
  lemma EvaluatePythonRefuses(impl: Implementation, pythonTag: string, abiTag: string, excluded: string -> Option<bool>)
    ensures |pythonTag| < 3 ==> EvaluatePython(impl, pythonTag, abiTag, excluded) == Err(IndexError)
    ensures |pythonTag| >= 3 && pythonTag[..2] != Short(impl.name) && pythonTag[..2] != "py" ==>
      EvaluatePython(impl, pythonTag, abiTag, excluded) == Ok(None)
    ensures (|pythonTag| >= 3 && !(pythonTag[..2] == "cp" && AbiImpl(abiTag) == "abi3")
             && AbiImpl(abiTag) != "none" && !Text.StartsWith(AbiImpl(abiTag), Text.Lower(pythonTag))) ==>
      EvaluatePython(impl, pythonTag, abiTag, excluded) == Ok(None)
  {
  }

  /**
   * What an accepted tag means: the prefix names the implementation (or
   * is `py`), the score's numbers are the tag's major digit and minor,
   * the kind says which ABI rule admitted it, and the oracle found the
   * corresponding range compatible with `requires_python`.
   */
  lemma EvaluatePythonAccepted(impl: Implementation, pythonTag: string, abiTag: string, excluded: string -> Option<bool>, s: PythonScore)
    requires EvaluatePython(impl, pythonTag, abiTag, excluded) == Ok(Some(s))
    ensures |pythonTag| >= 3
    ensures pythonTag[..2] == Short(impl.name) || pythonTag[..2] == "py"
    ensures Text.ParseInt(pythonTag[2..3]) == Some(s.0) && MinorValue(pythonTag[3..]) == Some(s.1)
    ensures s.2 == 1 <==> pythonTag[..2] == "cp" && AbiImpl(abiTag) == "abi3"
    ensures s.2 == 1 ==> excluded(Abi3Text(pythonTag[2..3], pythonTag[3..])) == Some(false)
    ensures s.2 == 0 <==> AbiImpl(abiTag) == "none"
    ensures s.2 == 2 <==> s.2 != 0 && s.2 != 1
    ensures s.2 == 2 ==> Text.StartsWith(AbiImpl(abiTag), Text.Lower(pythonTag))
    ensures s.2 != 1 ==> excluded(RangeText(pythonTag[2..3], pythonTag[3..])) == Some(false)
  {
  }

  /**
   * The converse: a well-formed tag with the right prefix and ABI whose
   * range the oracle finds compatible is accepted.
   */
  lemma EvaluatePythonAccepts(impl: Implementation, pythonTag: string, abiTag: string, excluded: string -> Option<bool>)
    requires |pythonTag| >= 3 && Text.IsDigit(pythonTag[2])
    requires pythonTag[3..] == "" || Text.IsDigits(pythonTag[3..])
    requires pythonTag[..2] == Short(impl.name) || pythonTag[..2] == "py"
    requires var abi := AbiImpl(abiTag);
      if pythonTag[..2] == "cp" && abi == "abi3" then excluded(Abi3Text(pythonTag[2..3], pythonTag[3..])) == Some(false)
      else ((abi == "none" || Text.StartsWith(abi, Text.Lower(pythonTag)))
            && excluded(RangeText(pythonTag[2..3], pythonTag[3..])) == Some(false))
    ensures EvaluatePython(impl, pythonTag, abiTag, excluded).Ok?
    ensures EvaluatePython(impl, pythonTag, abiTag, excluded).value.Some?
  {
    assert Text.IsDigits(pythonTag[2..3]);
  }

  // ---------------------------------------------------------------------
  // _evaluate_platform
  // ---------------------------------------------------------------------

  /**
   * `EnvSpec._evaluate_platform` given the platform's compatible tags:
   * with `any` appended, the list's length minus the tag's first index.
   */
  function EvaluatePlatform(compatible: seq<string>, tag: string): (r: Option<nat>)
    ensures r.None? <==> tag !in compatible && tag != "any"
    ensures r.Some? ==> 1 <= r.value <= |compatible| + 1
  {
    var all := compatible + ["any"];
    if tag in all then Some(|all| - Utils.Index(all, tag)) else None
  }

  /** A tag first listed at position `i` scores `|compatible| + 1 - i`: earlier tags score strictly higher. */
  lemma EvaluatePlatformPosition(compatible: seq<string>, i: nat)
    requires i < |compatible| && compatible[i] !in compatible[..i]
    ensures EvaluatePlatform(compatible, compatible[i]) == Some(|compatible| + 1 - i)
  {
    var all := compatible + ["any"];
    assert all[..i] == compatible[..i];
    Utils.IndexUnique(all, compatible[i], i);
  }

  /** `any`, when the platform does not list it, scores 1, below every listed tag. */
  lemma EvaluatePlatformAny(compatible: seq<string>)
    requires "any" !in compatible
    ensures EvaluatePlatform(compatible, "any") == Some(1)
    ensures forall t :: t in compatible ==> EvaluatePlatform(compatible, t).value >= 2
  {
    var all := compatible + ["any"];
    assert all[..|compatible|] == compatible;
    Utils.IndexUnique(all, "any", |compatible|);
    forall t | t in compatible
      ensures EvaluatePlatform(compatible, t).value >= 2
    {
      var i := Utils.Index(compatible, t);
      EvaluatePlatformPosition(compatible, i);
    }
  }

  /** On every platform that has tags, `any` scores exactly 1. */
  lemma PlatformAnyScoresOne(p: Platforms.Platform)
    requires Platforms.CompatibleTags(p).Ok?
    ensures EvaluatePlatform(Platforms.CompatibleTags(p).value, "any") == Some(1)
  {
    Platforms.TagsAreNotAny(p);
    EvaluatePlatformAny(Platforms.CompatibleTags(p).value);
  }

  // ---------------------------------------------------------------------
  // compatibility
  // ---------------------------------------------------------------------

  /** The environment a wheel is ranked against; its `requires_python` is the oracle `excluded`. */
  datatype EnvSpec = EnvSpec(platform: Platforms.Platform, implementation: Implementation)

  /** Every (python, ABI) pair, python tag in the outer loop. */
  function Combinations(pythonTags: seq<string>, abiTags: seq<string>): seq<(string, string)>
    decreases |pythonTags|
  {
    if |pythonTags| == 0 then []
    else seq(|abiTags|, j requires 0 <= j < |abiTags| => (pythonTags[0], abiTags[j])) + Combinations(pythonTags[1..], abiTags)
  }

  /** There is one pair per python tag and ABI tag. */
  lemma {:induction false} CombinationsLength(pythonTags: seq<string>, abiTags: seq<string>)
    ensures |Combinations(pythonTags, abiTags)| == |pythonTags| * |abiTags|
    decreases |pythonTags|
  {
    if |pythonTags| > 0 {
      CombinationsLength(pythonTags[1..], abiTags);
      assert |pythonTags| * |abiTags| == |abiTags| + (|pythonTags| - 1) * |abiTags|;
    }
  }

  /** Pair `(i, j)` sits at `i * |abiTags| + j`. */
  lemma {:induction false} CombinationsAt(pythonTags: seq<string>, abiTags: seq<string>, i: nat, j: nat)
    requires i < |pythonTags| && j < |abiTags|
    ensures i * |abiTags| + j < |Combinations(pythonTags, abiTags)|
    ensures Combinations(pythonTags, abiTags)[i * |abiTags| + j] == (pythonTags[i], abiTags[j])
    decreases i
  {
    var n := |abiTags|;
    var row := seq(n, j requires 0 <= j < n => (pythonTags[0], abiTags[j]));
    var rest := Combinations(pythonTags[1..], abiTags);
    assert Combinations(pythonTags, abiTags) == row + rest;
    if i > 0 {
      CombinationsAt(pythonTags[1..], abiTags, i - 1, j);
      assert i * n + j == n + ((i - 1) * n + j);
    }
  }

  function Evaluate(impl: Implementation, excluded: string -> Option<bool>, c: (string, string))
    : Result<Option<PythonScore>, Failure>
  {
    EvaluatePython(impl, c.0, c.1, excluded)
  }

  /** The larger of two optional scores; an absent one loses. */
  function MaxScore(a: Option<PythonScore>, b: Option<PythonScore>): Option<PythonScore> {
    if a.None? then b
    else if b.None? then a
    else if ScoreLe(a.value, b.value) then b
    else a
  }

  /** Scores are totally ordered, lexicographically. */
  lemma ScoreOrder(a: PythonScore, b: PythonScore, c: PythonScore)
    ensures ScoreLe(a, b) || ScoreLe(b, a)
    ensures ScoreLe(a, b) && ScoreLe(b, c) ==> ScoreLe(a, c)
  {
  }

  /** What evaluating one pair gives: a score, a refusal, or an exception. */
  type Outcome = Result<Option<PythonScore>, Failure>

  /** The pairs' outcomes, in order. */
  function Evaluations(impl: Implementation, excluded: string -> Option<bool>, combos: seq<(string, string)>): (rs: seq<Outcome>)
    ensures |rs| == |combos|
    ensures forall k :: 0 <= k < |combos| ==> rs[k] == Evaluate(impl, excluded, combos[k])
  {
    seq(|combos|, k requires 0 <= k < |combos| => Evaluate(impl, excluded, combos[k]))
  }

  /**
   * `max(filter(None, ...), default=None)` over outcomes taken left to
   * right: the first exception stops it.
   */
  function BestOf(rs: seq<Outcome>): Outcome
    decreases |rs|
  {
    if |rs| == 0 then Ok(None)
    else
      match rs[0]
      case Err(e) => Err(e)
      case Ok(v) =>
        match BestOf(rs[1..])
        case Err(e) => Err(e)
        case Ok(w) => Ok(MaxScore(v, w))
  }

  /** The best python score over the (python tag, ABI tag) pairs. */
  function BestPython(impl: Implementation, excluded: string -> Option<bool>, combos: seq<(string, string)>): Outcome {
    BestOf(Evaluations(impl, excluded, combos))
  }

  /**
   * `BestPython` fails exactly when some pair does, with the error of the
   * first failing pair; otherwise it is `None` exactly when no pair is
   * accepted, and else a score that some pair reaches and no pair beats.
   */
  lemma BestPythonSpec(impl: Implementation, excluded: string -> Option<bool>, combos: seq<(string, string)>)
    ensures BestPython(impl, excluded, combos).Ok? <==>
      forall k :: 0 <= k < |combos| ==> Evaluate(impl, excluded, combos[k]).Ok?
    ensures BestPython(impl, excluded, combos).Err? ==>
      exists k :: 0 <= k < |combos| && Evaluate(impl, excluded, combos[k]) == Err(BestPython(impl, excluded, combos).error)
        && (forall j :: 0 <= j < k ==> Evaluate(impl, excluded, combos[j]).Ok?)
    ensures BestPython(impl, excluded, combos) == Ok(None) <==>
      forall k :: 0 <= k < |combos| ==> Evaluate(impl, excluded, combos[k]) == Ok(None)
    ensures BestPython(impl, excluded, combos).Ok? && BestPython(impl, excluded, combos).value.Some? ==>
      (exists k :: 0 <= k < |combos| && Evaluate(impl, excluded, combos[k]) == BestPython(impl, excluded, combos))
      && forall k :: (0 <= k < |combos| && Evaluate(impl, excluded, combos[k]).Ok?
                      && Evaluate(impl, excluded, combos[k]).value.Some?) ==>
           ScoreLe(Evaluate(impl, excluded, combos[k]).value.value, BestPython(impl, excluded, combos).value.value)
  {
    var rs := Evaluations(impl, excluded, combos);
    BestOfFails(rs);
    BestOfNone(rs);
    BestOfMax(rs);
  }

  /** The fold fails exactly when some outcome does, with the first failure's error. */
  lemma {:induction false} BestOfFails(rs: seq<Outcome>)
    ensures BestOf(rs).Ok? <==> forall k :: 0 <= k < |rs| ==> rs[k].Ok?
    ensures BestOf(rs).Err? ==>
      exists k :: 0 <= k < |rs| && rs[k] == Err(BestOf(rs).error) && forall j :: 0 <= j < k ==> rs[j].Ok?
    decreases |rs|
  {
    if |rs| > 0 {
      var tail := rs[1..];
      BestOfFails(tail);
      assert forall k :: 1 <= k < |rs| ==> rs[k] == tail[k - 1];
      if rs[0].Ok? && BestOf(tail).Err? {
        var k :| 0 <= k < |tail| && tail[k] == Err(BestOf(tail).error) && forall j :: 0 <= j < k ==> tail[j].Ok?;
        assert rs[k + 1] == Err(BestOf(rs).error);
      }
    }
  }

  /** The fold is `None` exactly when every outcome is a refusal. */
  lemma {:induction false} BestOfNone(rs: seq<Outcome>)
    ensures BestOf(rs) == Ok(None) <==> forall k :: 0 <= k < |rs| ==> rs[k] == Ok(None)
    decreases |rs|
  {
    if |rs| > 0 {
      var tail := rs[1..];
      BestOfNone(tail);
      assert forall k :: 1 <= k < |rs| ==> rs[k] == tail[k - 1];
    }
  }

  /** A score the fold returns is some outcome's, and no outcome's score is above it. */
  lemma {:induction false} BestOfMax(rs: seq<Outcome>)
    ensures BestOf(rs).Ok? && BestOf(rs).value.Some? ==>
      (exists k :: 0 <= k < |rs| && rs[k] == BestOf(rs))
      && forall k :: 0 <= k < |rs| && rs[k].Ok? && rs[k].value.Some? ==>
           ScoreLe(rs[k].value.value, BestOf(rs).value.value)
    decreases |rs|
  {
    if |rs| > 0 {
      var tail := rs[1..];
      BestOfMax(tail);
      assert forall k :: 1 <= k < |rs| ==> rs[k] == tail[k - 1];
      var r := BestOf(rs);
      if rs[0].Ok? && r.Ok? && r.value.Some? {
        var rest := BestOf(tail);
        if rs[0].value.Some? && (rest.value.None? || !ScoreLe(rs[0].value.value, rest.value.value)) {
          assert rs[0] == r;
          BestOfNone(tail);
          forall k | 0 <= k < |tail| && tail[k].Ok? && tail[k].value.Some?
            ensures ScoreLe(tail[k].value.value, r.value.value)
          {
            if rest.value.Some? {
              ScoreOrder(tail[k].value.value, rest.value.value, r.value.value);
            }
          }
        } else {
          var k :| 0 <= k < |tail| && tail[k] == rest;
          assert rs[k + 1] == r;
        }
      }
    }
  }

  /** `max(filter(None, map(_evaluate_platform, tags)), default=None)` */
  function BestPlatform(compatible: seq<string>, platformTags: seq<string>): Option<nat>
    decreases |platformTags|
  {
    if |platformTags| == 0 then None
    else
      var v := EvaluatePlatform(compatible, platformTags[0]);
      var w := BestPlatform(compatible, platformTags[1..]);
      if v.None? then w
      else if w.None? then v
      else if v.value >= w.value then v
      else w
  }

  /**
   * `BestPlatform` is `None` exactly when no tag scores, and otherwise a
   * score that some tag reaches and no tag beats.
   */
  lemma {:induction false} BestPlatformSpec(compatible: seq<string>, platformTags: seq<string>)
    ensures BestPlatform(compatible, platformTags).None? <==>
      forall k :: 0 <= k < |platformTags| ==> EvaluatePlatform(compatible, platformTags[k]).None?
    ensures BestPlatform(compatible, platformTags).Some? ==>
      exists k ::
        0 <= k < |platformTags| && EvaluatePlatform(compatible, platformTags[k]) == BestPlatform(compatible, platformTags)
    ensures BestPlatform(compatible, platformTags).Some? ==>
      forall k :: 0 <= k < |platformTags| && EvaluatePlatform(compatible, platformTags[k]).Some? ==>
        EvaluatePlatform(compatible, platformTags[k]).value <= BestPlatform(compatible, platformTags).value
    decreases |platformTags|
  {
    if |platformTags| > 0 {
      var tail := platformTags[1..];
      BestPlatformSpec(compatible, tail);
      assert forall k :: 1 <= k < |platformTags| ==> platformTags[k] == tail[k - 1];
      var r := BestPlatform(compatible, platformTags);
      var v := EvaluatePlatform(compatible, platformTags[0]);
      var w := BestPlatform(compatible, tail);
      if r.Some? {
        if v.Some? && (w.None? || v.value >= w.value) {
          assert EvaluatePlatform(compatible, platformTags[0]) == r;
        } else {
          var k :| 0 <= k < |tail| && EvaluatePlatform(compatible, tail[k]) == w;
          assert EvaluatePlatform(compatible, platformTags[k + 1]) == r;
        }
      }
    }
  }

  /**
   * `EnvSpec.compatibility`: the best python score followed by the best
   * platform score, `None` when either is missing. The platform's tag
   * list is only computed once a python pair is accepted and the wheel
   * names at least one platform tag.
   */
  function Compatibility(env: EnvSpec, excluded: string -> Option<bool>, tags: WheelTags)
    : Result<Option<(nat, nat, nat, nat)>, Failure>
  {
    Rank(BestPython(env.implementation, excluded, Combinations(tags.python, tags.abi)),
         tags.platform, Platforms.CompatibleTags(env.platform))
  }

  /**
   * The combination step of `Compatibility`, given the python outcome, the
   * wheel's platform tags and the platform's own tag list (consulted only
   * once a python pair is accepted and the wheel names a platform tag).
   */
  function Rank(best: Outcome, platformTags: seq<string>, compatible: Result<seq<string>, Platforms.Failure>)
    : Result<Option<(nat, nat, nat, nat)>, Failure>
  {
    match best
    case Err(e) => Err(e)
    case Ok(None) => Ok(None)
    case Ok(Some(py)) =>
      if |platformTags| == 0 then Ok(None)
      else
        match compatible
        case Err(e) => Err(FromPlatformFailure(e))
        case Ok(tagList) =>
          match BestPlatform(tagList, platformTags)
          case None => Ok(None)
          case Some(s) => Ok(Some((py.0, py.1, py.2, s)))
  }

  /** A ranked outcome carries the python score and a platform score. */
  lemma RankSome(best: Outcome, platformTags: seq<string>, compatible: Result<seq<string>, Platforms.Failure>, c: (nat, nat, nat, nat))
    requires Rank(best, platformTags, compatible) == Ok(Some(c))
    ensures best == Ok(Some((c.0, c.1, c.2)))
    ensures compatible.Ok? && BestPlatform(compatible.value, platformTags) == Some(c.3)
  {
  }

  /** With the platform's tag list known, the outcome is unranked exactly in these cases. */
  lemma RankNone(best: Outcome, platformTags: seq<string>, compatible: Result<seq<string>, Platforms.Failure>)
    requires compatible.Ok?
    ensures Rank(best, platformTags, compatible) == Ok(None) <==>
      best == Ok(None) || (best.Ok? && (|platformTags| == 0 || BestPlatform(compatible.value, platformTags).None?))
  {
  }

  /**
   * A ranked wheel's first three numbers are the score of some (python,
   * ABI) pair; every pair evaluates without error and none scores higher.
   */
  lemma CompatibilityPython(env: EnvSpec, excluded: string -> Option<bool>, tags: WheelTags, c: (nat, nat, nat, nat))
    requires Compatibility(env, excluded, tags) == Ok(Some(c))
    ensures exists k ::
      0 <= k < |Combinations(tags.python, tags.abi)|
      && Evaluate(env.implementation, excluded, Combinations(tags.python, tags.abi)[k]) == Ok(Some((c.0, c.1, c.2)))
    ensures forall k :: 0 <= k < |Combinations(tags.python, tags.abi)| ==>
      (Evaluate(env.implementation, excluded, Combinations(tags.python, tags.abi)[k]).Ok?
       && (Evaluate(env.implementation, excluded, Combinations(tags.python, tags.abi)[k]).value.Some? ==>
             ScoreLe(Evaluate(env.implementation, excluded, Combinations(tags.python, tags.abi)[k]).value.value, (c.0, c.1, c.2))))
  {
    var combos := Combinations(tags.python, tags.abi);
    RankSome(BestPython(env.implementation, excluded, combos), tags.platform, Platforms.CompatibleTags(env.platform), c);
    BestPythonWins(env.implementation, excluded, combos, (c.0, c.1, c.2));
  }

  /** An accepted best score is reached by some pair, and every pair evaluates to no more. */
  lemma BestPythonWins(impl: Implementation, excluded: string -> Option<bool>, combos: seq<(string, string)>, py: PythonScore)
    requires BestPython(impl, excluded, combos) == Ok(Some(py))
    ensures exists k :: 0 <= k < |combos| && Evaluate(impl, excluded, combos[k]) == Ok(Some(py))
    ensures forall k :: 0 <= k < |combos| ==>
      (Evaluate(impl, excluded, combos[k]).Ok?
       && (Evaluate(impl, excluded, combos[k]).value.Some? ==> ScoreLe(Evaluate(impl, excluded, combos[k]).value.value, py)))
  {
    BestPythonSpec(impl, excluded, combos);
  }

  /**
   * A ranked wheel's last number is the score of some platform tag of the
   * wheel, and no tag of the wheel scores higher.
   */
  lemma CompatibilityPlatform(env: EnvSpec, excluded: string -> Option<bool>, tags: WheelTags, c: (nat, nat, nat, nat))
    requires Compatibility(env, excluded, tags) == Ok(Some(c))
    ensures Platforms.CompatibleTags(env.platform).Ok?
    ensures exists k ::
      0 <= k < |tags.platform|
      && EvaluatePlatform(Platforms.CompatibleTags(env.platform).value, tags.platform[k]) == Some(c.3)
    ensures forall k :: (0 <= k < |tags.platform|
                         && EvaluatePlatform(Platforms.CompatibleTags(env.platform).value, tags.platform[k]).Some?) ==>
      EvaluatePlatform(Platforms.CompatibleTags(env.platform).value, tags.platform[k]).value <= c.3
  {
    var combos := Combinations(tags.python, tags.abi);
    RankSome(BestPython(env.implementation, excluded, combos), tags.platform, Platforms.CompatibleTags(env.platform), c);
    BestPlatformSpec(Platforms.CompatibleTags(env.platform).value, tags.platform);
  }

  /** Every pair evaluates without an exception. */
  predicate NoPairFails(impl: Implementation, excluded: string -> Option<bool>, combos: seq<(string, string)>) {
    forall k :: 0 <= k < |combos| ==> Evaluate(impl, excluded, combos[k]).Ok?
  }

  /** Every pair evaluates to a refusal. */
  predicate NoPairAccepted(impl: Implementation, excluded: string -> Option<bool>, combos: seq<(string, string)>) {
    forall k :: 0 <= k < |combos| ==> Evaluate(impl, excluded, combos[k]) == Ok(None)
  }

  /** No platform tag of the wheel is listed by the platform, and none is `any`. */
  predicate NoPlatformTagListed(platformTags: seq<string>, compatible: seq<string>) {
    forall k :: 0 <= k < |platformTags| ==> platformTags[k] !in compatible && platformTags[k] != "any"
  }

  /**
   * A wheel is unranked exactly when every pair evaluates without error
   * and none is accepted, or when some pair is accepted but no platform
   * tag of the wheel is one the platform lists (or `any`).
   */
  lemma CompatibilityNone(env: EnvSpec, excluded: string -> Option<bool>, tags: WheelTags)
    requires Platforms.CompatibleTags(env.platform).Ok?
    ensures Compatibility(env, excluded, tags) == Ok(None) <==>
      NoPairFails(env.implementation, excluded, Combinations(tags.python, tags.abi))
      && (NoPairAccepted(env.implementation, excluded, Combinations(tags.python, tags.abi))
          || NoPlatformTagListed(tags.platform, Platforms.CompatibleTags(env.platform).value))
  {
    var compatible := Platforms.CompatibleTags(env.platform);
    assert compatible == Ok(compatible.value);
    RankedNone(env.implementation, excluded, Combinations(tags.python, tags.abi), tags.platform, compatible.value);
  }

  /** `CompatibilityNone` for any pairs, wheel platform tags and platform tag list. */
  lemma RankedNone(impl: Implementation, excluded: string -> Option<bool>, combos: seq<(string, string)>,
                   platformTags: seq<string>, compatible: seq<string>)
    ensures Rank(BestPython(impl, excluded, combos), platformTags, Ok(compatible)) == Ok(None) <==>
      NoPairFails(impl, excluded, combos)
      && (NoPairAccepted(impl, excluded, combos) || NoPlatformTagListed(platformTags, compatible))
  {
    RankNone(BestPython(impl, excluded, combos), platformTags, Ok(compatible));
    BestPythonSpec(impl, excluded, combos);
    BestPlatformSpec(compatible, platformTags);
  }

  /** `EnvSpec.wheel_compatibility`: split the file name, then rank its tags. */
  function WheelCompatibility(env: EnvSpec, excluded: string -> Option<bool>, filename: string)
    : Result<Option<(nat, nat, nat, nat)>, Failure>
  {
    match ParseWheelTags(filename)
    case Err(e) => Err(e)
    case Ok(tags) => Compatibility(env, excluded, tags)
  }

  /** Ranking a well-formed wheel file name ranks exactly the tags it was built from. */
  lemma WheelCompatibilityOfName(env: EnvSpec, excluded: string -> Option<bool>,
                                  name: string, version: string, build: Option<string>, tags: WheelTags)
    requires Avoids(name, '-') && Avoids(version, '-') && (build.Some? ==> Avoids(build.value, '-'))
    requires TagList(tags.python) && TagList(tags.abi) && TagList(tags.platform)
    ensures WheelCompatibility(env, excluded, WheelFilename(name, version, build, tags)) == Compatibility(env, excluded, tags)
  {
    ParseWheelTagsRoundTrip(name, version, build, tags);
  }
}

=== FILE: text.dfy ===
/**
 * The handful of Python `str` operations the source relies on, over
 * `string` (a `seq<char>`): prefix/suffix tests, substring search,
 * `split`, `join`, `count`, `replace`, ASCII `lower` and the decimal
 * conversions `int(s)` / `str(n)` restricted to ASCII digits.
 */
module Text {
  import opened Wrappers

  predicate StartsWith(s: string, prefix: string) {
    |prefix| <= |s| && s[..|prefix|] == prefix
  }

  predicate EndsWith(s: string, suffix: string) {
    |suffix| <= |s| && s[|s| - |suffix|..] == suffix
  }

  /** `sub in s` */
  predicate Occurs(s: string, sub: string)
    decreases |s|
  {
    StartsWith(s, sub) || (|s| > 0 && Occurs(s[1..], sub))
  }

  /** `s.count(c)` for a one-character argument */
  function Count(s: string, c: char): nat
    decreases |s|
  {
    if |s| == 0 then 0 else (if s[0] == c then 1 else 0) + Count(s[1..], c)
  }

  /** `s.split(sep)`: left-to-right, non-overlapping, keeping empty fields. */
  function SplitOn(s: string, sep: string): (parts: seq<string>)
    requires |sep| > 0
    ensures |parts| >= 1
    ensures parts[0] <= s
    decreases |s|
  {
    if |s| == 0 then [""]
    else if StartsWith(s, sep) then [""] + SplitOn(s[|sep|..], sep)
    else
      var rest := SplitOn(s[1..], sep);
      [[s[0]] + rest[0]] + rest[1..]
  }

  /** `sep.join(parts)` */
  function Join(parts: seq<string>, sep: string): string
    requires |parts| >= 1
    decreases |parts|
  {
    if |parts| == 1 then parts[0] else parts[0] + sep + Join(parts[1..], sep)
  }

  /** `s.replace(old, new)`: every non-overlapping occurrence of `pattern`, left to right. */
  function Replace(s: string, pattern: string, replacement: string): string
    requires |pattern| > 0
    decreases |s|
  {
    if |s| == 0 then ""
    else if StartsWith(s, pattern) then replacement + Replace(s[|pattern|..], pattern, replacement)
    else [s[0]] + Replace(s[1..], pattern, replacement)
  }

  /** `s.lower()` on the ASCII letters; every other character is kept. */
  function Lower(s: string): (r: string)
    ensures |r| == |s|
    ensures forall i :: 0 <= i < |s| ==> r[i] == LowerChar(s[i])
  {
    seq(|s|, i requires 0 <= i < |s| => LowerChar(s[i]))
  }

  function LowerChar(c: char): char {
    if 'A' <= c <= 'Z' then (c as int - 'A' as int + 'a' as int) as char else c
  }

  predicate IsDigit(c: char) { '0' <= c <= '9' }

  /** A non-empty run of ASCII digits: what `int(s)` accepts in this model. */
  predicate IsDigits(s: string) {
    |s| > 0 && forall i :: 0 <= i < |s| ==> IsDigit(s[i])
  }

  function DigitChar(d: nat): (c: char)
    requires d < 10
    ensures IsDigit(c)
  {
    ('0' as int + d) as char
  }

  function DigitValue(c: char): (d: nat)
    requires IsDigit(c)
    ensures d < 10
  {
    c as int - '0' as int
  }

  /** The decimal value of a digit string (0 for the empty string). */
  function DigitsValue(s: string): nat
    requires forall i :: 0 <= i < |s| ==> IsDigit(s[i])
    decreases |s|
  {
    if |s| == 0 then 0 else DigitsValue(s[..|s| - 1]) * 10 + DigitValue(s[|s| - 1])
  }

  /** `str(n)` */
  function NatToString(n: nat): (s: string)
    ensures IsDigits(s)
    decreases n
  {
    if n < 10 then [DigitChar(n)] else NatToString(n / 10) + [DigitChar(n % 10)]
  }

  /** `int(s)`, with `None` where Python raises `ValueError`. */
  function ParseInt(s: string): Option<nat> {
    if IsDigits(s) then Some(DigitsValue(s)) else None
  }

  /** `s.split(c, 1)` when `c` occurs: the text before its first occurrence and the text after. */
  function SplitOnce(s: string, c: char): (r: Option<(string, string)>)
    ensures r.None? <==> c !in s
    ensures r.Some? ==> s == r.value.0 + [c] + r.value.1 && c !in r.value.0
    decreases |s|
  {
    if |s| == 0 then None
    else if s[0] == c then
      assert s == [] + [c] + s[1..];
      Some(([], s[1..]))
    else match SplitOnce(s[1..], c)
      case None =>
        assert s == [s[0]] + s[1..];
        None
      case Some((a, b)) =>
        assert s == ([s[0]] + a) + [c] + b;
        Some(([s[0]] + a, b))
  }

  // ---------------------------------------------------------------------
  // Lemmas
  // ---------------------------------------------------------------------

  /** `int(str(n)) == n` */
  lemma {:induction false} ParseIntOfNatToString(n: nat)
    ensures ParseInt(NatToString(n)) == Some(n)
    decreases n
  {
    var s := NatToString(n);
    if n >= 10 {
      ParseIntOfNatToString(n / 10);
      assert s[..|s| - 1] == NatToString(n / 10);
      assert DigitValue(s[|s| - 1]) == n % 10;
      assert DigitsValue(s) == (n / 10) * 10 + n % 10;
    } else {
      assert s[..|s| - 1] == [];
      assert DigitsValue(s) == DigitValue(DigitChar(n));
    }
  }

  /** Joining the fields of a split with the same separator gives the string back. */
  lemma {:induction false} JoinSplit(s: string, sep: string)
    requires |sep| > 0
    ensures Join(SplitOn(s, sep), sep) == s
    decreases |s|
  {
    if |s| == 0 {
    } else if StartsWith(s, sep) {
      var t := SplitOn(s[|sep|..], sep);
      JoinSplit(s[|sep|..], sep);
      assert SplitOn(s, sep) == [""] + t;
      assert ([""] + t)[1..] == t;
      assert s == sep + s[|sep|..];
    } else {
      var rest := SplitOn(s[1..], sep);
      assert SplitOn(s, sep) == [[s[0]] + rest[0]] + rest[1..];
      JoinSplit(s[1..], sep);
      JoinConsHead(s[0], rest, sep);
      assert s == [s[0]] + s[1..];
    }
  }

  lemma JoinConsHead(c: char, parts: seq<string>, sep: string)
    requires |parts| >= 1
    ensures Join([[c] + parts[0]] + parts[1..], sep) == [c] + Join(parts, sep)
  {
    var q := [[c] + parts[0]] + parts[1..];
    if |parts| > 1 {
      assert q[1..] == parts[1..];
    }
  }

  /** Splitting a prefix-free piece glued in front of a string only extends the first field. */
  lemma {:induction false} SplitPrefix(p: string, rest: string, sep: string)
    requires |sep| > 0
    requires forall i :: 0 <= i < |p| ==> p[i] != sep[0]
    ensures SplitOn(p + rest, sep) ==
      [p + SplitOn(rest, sep)[0]] + SplitOn(rest, sep)[1..]
    decreases |p|
  {
    var x := SplitOn(rest, sep);
    if |p| > 0 {
      var s := p + rest;
      assert !StartsWith(s, sep) by { assert s[0] == p[0]; }
      assert s[1..] == p[1..] + rest;
      var t := SplitOn(s[1..], sep);
      SplitPrefix(p[1..], rest, sep);
      assert t[0] == p[1..] + x[0] && t[1..] == x[1..];
      assert SplitOn(s, sep) == [[s[0]] + t[0]] + t[1..];
      assert [s[0]] + (p[1..] + x[0]) == p + x[0];
    } else {
      assert p + rest == rest;
      assert p + x[0] == x[0];
      assert [x[0]] + x[1..] == x;
    }
  }

  /**
   * `sep.join(parts).split(sep) == parts` when no field contains the first
   * character of the separator.
   */
  lemma {:induction false} SplitJoin(parts: seq<string>, sep: string)
    requires |sep| > 0 && |parts| >= 1
    requires forall k, i :: 0 <= k < |parts| && 0 <= i < |parts[k]| ==> parts[k][i] != sep[0]
    ensures SplitOn(Join(parts, sep), sep) == parts
    decreases |parts|
  {
    if |parts| == 1 {
      SplitPrefix(parts[0], "", sep);
      assert parts[0] + "" == parts[0];
    } else {
      var tail := Join(parts[1..], sep);
      SplitJoin(parts[1..], sep);
      assert Join(parts, sep) == parts[0] + (sep + tail);
      SplitPrefix(parts[0], sep + tail, sep);
      assert StartsWith(sep + tail, sep);
      assert (sep + tail)[|sep|..] == tail;
      var y := SplitOn(sep + tail, sep);
      assert y == [""] + parts[1..];
      assert parts[0] + y[0] == parts[0];
      assert y[1..] == parts[1..];
      assert parts == [parts[0]] + parts[1..];
    }
  }

  /** No field of a split contains the separator. */
  lemma {:induction false} SplitFieldsFree(s: string, sep: string)
    requires |sep| > 0
    ensures forall k :: 0 <= k < |SplitOn(s, sep)| ==> !Occurs(SplitOn(s, sep)[k], sep)
    decreases |s|
  {
    var parts := SplitOn(s, sep);
    if |s| == 0 {
      assert !Occurs("", sep);
    } else if StartsWith(s, sep) {
      SplitFieldsFree(s[|sep|..], sep);
      assert !Occurs("", sep);
      assert forall k :: 1 <= k < |parts| ==> parts[k] == SplitOn(s[|sep|..], sep)[k - 1];
    } else {
      var rest := SplitOn(s[1..], sep);
      SplitFieldsFree(s[1..], sep);
      var first := [s[0]] + rest[0];
      assert first <= s by { assert rest[0] <= s[1..]; }
      assert !StartsWith(first, sep) by {
        if |sep| <= |first| {
          assert first[..|sep|] == s[..|sep|];
        }
      }
      assert first[1..] == rest[0];
      assert !Occurs(first, sep);
      assert forall k :: 1 <= k < |parts| ==> parts[k] == rest[k];
    }
  }

  /** A string holding the separator splits into at least two fields. */
  lemma {:induction false} SplitOccurs(s: string, sep: string)
    requires |sep| > 0 && Occurs(s, sep)
    ensures |SplitOn(s, sep)| >= 2
    decreases |s|
  {
    if StartsWith(s, sep) {
    } else {
      SplitOccurs(s[1..], sep);
    }
  }

  /** Splitting on one character yields one field more than it occurs. */
  lemma {:induction false} SplitCount(s: string, c: char)
    ensures |SplitOn(s, [c])| == Count(s, c) + 1
    decreases |s|
  {
    if |s| > 0 {
      SplitCount(s[1..], c);
      if s[0] == c {
        assert StartsWith(s, [c]);
      } else {
        assert !StartsWith(s, [c]);
      }
    }
  }

  /** `s.replace(pattern, replacement) == replacement.join(s.split(pattern))` */
  lemma {:induction false} ReplaceIsSplitJoin(s: string, pattern: string, replacement: string)
    requires |pattern| > 0
    ensures Replace(s, pattern, replacement) == Join(SplitOn(s, pattern), replacement)
    decreases |s|
  {
    if |s| == 0 {
    } else if StartsWith(s, pattern) {
      ReplaceIsSplitJoin(s[|pattern|..], pattern, replacement);
    } else {
      ReplaceIsSplitJoin(s[1..], pattern, replacement);
      JoinConsHead(s[0], SplitOn(s[1..], pattern), replacement);
    }
  }

  lemma {:induction false} JoinAppend(parts: seq<string>, last: string, sep: string)
    requires |parts| >= 1
    ensures Join(parts + [last], sep) == Join(parts, sep) + sep + last
    decreases |parts|
  {
    if |parts| > 1 {
      assert (parts + [last])[1..] == parts[1..] + [last];
      JoinAppend(parts[1..], last, sep);
    }
  }

  /** `str(i)` for any integer. */
  function IntToString(i: int): (s: string)
    ensures |s| > 0
    ensures forall k :: 0 <= k < |s| ==> IsDigit(s[k]) || s[k] == '-'
  {
    if i < 0 then "-" + NatToString(-i) else NatToString(i)
  }
}

=== FILE: union.dfy ===
/**
 * `UnionSpecifier`: union with a range (an ordered single pass that
 * merges every combinable range), intersection (all pairwise
 * intersections in order), complement (the gaps between the ranges),
 * and the `!=` print idioms.
 */
module Unions {
  import opened Wrappers
  import opened Versions
  import opened Ranges
  import opened Specs
  import Utils
  import Text

  // ---------------------------------------------------------------------
  // `|` with a range
  // ---------------------------------------------------------------------

  /**
   * The loop of `__or__` for a range `o`: ranges strictly below `o` are
   * copied, combinable ones are folded into `o`, and `o` goes in front of
   * the first range strictly above it (or last).
   */
  function Insert(rs: seq<Range>, o: Range): (out: seq<Range>)
    ensures 1 <= |out| <= |rs| + 1
    decreases |rs|
  {
    if |rs| == 0 then [o]
    else if CanCombine(rs[0], o) then Insert(rs[1..], Merge(o, rs[0]))
    else if AllowsLower(o, rs[0]) then [o] + rs
    else [rs[0]] + Insert(rs[1..], o)
  }

  lemma {:induction false} InsertContains(rs: seq<Range>, o: Range, x: Version)
    ensures AnyContains(Insert(rs, o), x) <==> AnyContains(rs, x) || Ranges.Contains(o, x)
    decreases |rs|
  {
    if |rs| > 0 {
      if CanCombine(rs[0], o) {
        InsertContains(rs[1..], Merge(o, rs[0]), x);
        MergeContains(o, rs[0], x);
      } else if AllowsLower(o, rs[0]) {
        assert ([o] + rs)[1..] == rs;
      } else {
        InsertContains(rs[1..], o, x);
        assert ([rs[0]] + Insert(rs[1..], o))[1..] == Insert(rs[1..], o);
      }
    }
  }

  lemma SortedAllTail(rs: seq<Range>)
    requires SortedAll(rs) && |rs| > 0
    ensures SortedAll(rs[1..])
  {
    var t := rs[1..];
    forall i, j | 0 <= i < j < |t| ensures Separated(t[i], t[j]) {
      assert t[i] == rs[i + 1] && t[j] == rs[j + 1];
    }
  }

  lemma SortedAllToSorted(rs: seq<Range>)
    requires SortedAll(rs)
    ensures Sorted(rs)
  {
    forall i | 0 <= i < |rs| - 1 ensures Separated(rs[i], rs[i + 1]) {
    }
  }

  /** A range below `o` and below every range of `rs` is below the whole result. */
  lemma {:induction false} InsertAbove(p: Range, rs: seq<Range>, o: Range)
    requires forall i :: 0 <= i < |rs| ==> Separated(p, rs[i])
    requires Separated(p, o)
    ensures forall k :: 0 <= k < |Insert(rs, o)| ==> Separated(p, Insert(rs, o)[k])
    decreases |rs|
  {
    if |rs| > 0 {
      var t := rs[1..];
      assert forall i :: 0 <= i < |t| ==> t[i] == rs[i + 1];
      if CanCombine(rs[0], o) {
        SeparatedMerge(p, o, rs[0]);
        InsertAbove(p, t, Merge(o, rs[0]));
      } else if AllowsLower(o, rs[0]) {
        var out := [o] + rs;
        assert forall k :: 1 <= k < |out| ==> out[k] == rs[k - 1];
      } else {
        InsertAbove(p, t, o);
        var out := [rs[0]] + Insert(t, o);
        assert forall k :: 1 <= k < |out| ==> out[k] == Insert(t, o)[k - 1];
      }
    }
  }

  lemma {:induction false} InsertSortedAll(rs: seq<Range>, o: Range)
    requires SortedAll(rs) && WellFormed(o)
    ensures SortedAll(Insert(rs, o))
    decreases |rs|
  {
    if |rs| > 0 {
      var t := rs[1..];
      SortedAllTail(rs);
      assert forall i :: 0 <= i < |t| ==> t[i] == rs[i + 1];
      if CanCombine(rs[0], o) {
        MergeWellFormed(o, rs[0]);
        InsertSortedAll(t, Merge(o, rs[0]));
      } else if AllowsLower(o, rs[0]) {
        AllowsLowerOrders(o, rs[0]);
        forall j | 0 <= j < |rs| ensures Separated(o, rs[j]) {
          if j > 0 {
            SeparatedTransitive(o, rs[0], rs[j]);
          }
        }
        SortedAllAppend([o], rs);
      } else {
        AllowsLowerOrders(o, rs[0]);
        InsertSortedAll(t, o);
        InsertAbove(rs[0], t, o);
        SortedAllAppend([rs[0]], Insert(t, o));
      }
    }
  }

  /** The merge keeps a sorted, disjoint list sorted and disjoint. */
  lemma InsertSorted(rs: seq<Range>, o: Range)
    requires Sorted(rs) && WellFormed(o)
    ensures Sorted(Insert(rs, o))
  {
    SortedIsSortedAll(rs);
    InsertSortedAll(rs, o);
    SortedAllToSorted(Insert(rs, o));
  }

  /** A range strictly below `o` is copied unchanged to the same position. */
  lemma {:induction false} InsertKeepsLower(rs: seq<Range>, o: Range, i: nat)
    requires Sorted(rs) && WellFormed(o)
    requires i < |rs| && Separated(rs[i], o)
    ensures i < |Insert(rs, o)| && Insert(rs, o)[i] == rs[i]
    decreases |rs|
  {
    SortedIsSortedAll(rs);
    if i > 0 {
      SeparatedTransitive(rs[0], rs[i], o);
    }
    SeparatedNotAllowsLower(rs[0], o);
    if i > 0 {
      var t := rs[1..];
      assert Sorted(t) by {
        assert forall k :: 0 <= k < |t| ==> t[k] == rs[k + 1];
      }
      assert t[i - 1] == rs[i];
      InsertKeepsLower(t, o, i - 1);
    }
  }

  /** A range strictly above `o` is copied unchanged. */
  lemma {:induction false} InsertKeepsHigher(rs: seq<Range>, o: Range, i: nat)
    requires Sorted(rs) && WellFormed(o)
    requires i < |rs| && Separated(o, rs[i])
    ensures rs[i] in Insert(rs, o)
    decreases |rs|
  {
    SortedIsSortedAll(rs);
    var t := rs[1..];
    assert Sorted(t) by {
      assert forall k :: 0 <= k < |t| ==> t[k] == rs[k + 1];
    }
    if i == 0 {
      SeparatedNotAllowsLower(o, rs[0]);
    } else if CanCombine(rs[0], o) {
      MergeWellFormed(o, rs[0]);
      MergeSeparated(o, rs[0], rs[i]);
      assert t[i - 1] == rs[i];
      InsertKeepsHigher(t, Merge(o, rs[0]), i - 1);
    } else if !AllowsLower(o, rs[0]) {
      assert t[i - 1] == rs[i];
      InsertKeepsHigher(t, o, i - 1);
    }
  }

  /** `UnionSpecifier.__or__` with a range. */
  function OrRange(rs: seq<Range>, o: Range): (s: Spec)
    ensures IsAny(o) ==> s == Single(o)
  {
    if IsAny(o) then Single(o) else FromRanges(Insert(rs, o))
  }

  /** `RangeSpecifier.__or__`: one merged range, or both in ascending order. */
  function RangeOr(a: Range, b: Range): Spec {
    if CanCombine(a, b) then Single(Merge(a, b))
    else if AllowsLower(a, b) then Union([a, b], None)
    else Union([b, a], None)
  }

  /** The accumulator step of union with a union: `result | range` for any kind of `result`. */
  function OrWith(acc: Spec, r: Range): Spec {
    match acc
    case Empty => Single(r)
    case Single(a) => RangeOr(a, r)
    case Union(rs, _) => OrRange(rs, r)
  }

  /** `UnionSpecifier.__or__` with a union: fold `|` over the other union's ranges, left to right. */
  function OrFold(acc: Spec, ts: seq<Range>): Spec
    decreases |ts|
  {
    if |ts| == 0 then acc else OrFold(OrWith(acc, ts[0]), ts[1..])
  }

  lemma OrRangeContains(rs: seq<Range>, o: Range, x: Version)
    ensures Specs.Contains(OrRange(rs, o), x) <==> AnyContains(rs, x) || Ranges.Contains(o, x)
  {
    if !IsAny(o) {
      FromRangesContains(Insert(rs, o), x);
      InsertContains(rs, o, x);
    }
  }

  lemma OrRangeValid(rs: seq<Range>, o: Range)
    requires Sorted(rs) && WellFormed(o)
    ensures Valid(OrRange(rs, o))
  {
    if !IsAny(o) {
      InsertSorted(rs, o);
      FromRangesValid(Insert(rs, o));
    }
  }

  lemma RangeOrContains(a: Range, b: Range, x: Version)
    ensures Specs.Contains(RangeOr(a, b), x) <==> Ranges.Contains(a, x) || Ranges.Contains(b, x)
  {
    if CanCombine(a, b) {
      MergeContains(a, b, x);
    } else if AllowsLower(a, b) {
      assert RangeOr(a, b) == Union([a, b], None);
      assert [a, b][1..] == [b] && [b][1..] == [];
      assert AnyContains([b], x) <==> Ranges.Contains(b, x);
    } else {
      assert RangeOr(a, b) == Union([b, a], None);
      assert [b, a][1..] == [a] && [a][1..] == [];
      assert AnyContains([a], x) <==> Ranges.Contains(a, x);
    }
  }

  lemma RangeOrValid(a: Range, b: Range)
    requires WellFormed(a) && WellFormed(b)
    ensures Valid(RangeOr(a, b))
  {
    if CanCombine(a, b) {
      MergeWellFormed(a, b);
    } else {
      AllowsLowerOrders(a, b);
    }
  }

  lemma OrWithContains(acc: Spec, r: Range, x: Version)
    ensures Specs.Contains(OrWith(acc, r), x) <==> Specs.Contains(acc, x) || Ranges.Contains(r, x)
  {
    match acc
    case Empty =>
    case Single(a) => RangeOrContains(a, r, x);
    case Union(rs, _) => OrRangeContains(rs, r, x);
  }

  lemma OrWithValid(acc: Spec, r: Range)
    requires Valid(acc) && WellFormed(r)
    ensures Valid(OrWith(acc, r))
  {
    match acc
    case Empty =>
    case Single(a) => RangeOrValid(a, r);
    case Union(rs, _) => OrRangeValid(rs, r);
  }

  lemma {:induction false} OrFoldContains(acc: Spec, ts: seq<Range>, x: Version)
    ensures Specs.Contains(OrFold(acc, ts), x) <==> Specs.Contains(acc, x) || AnyContains(ts, x)
    decreases |ts|
  {
    if |ts| > 0 {
      OrWithContains(acc, ts[0], x);
      OrFoldContains(OrWith(acc, ts[0]), ts[1..], x);
    }
  }

  lemma {:induction false} OrFoldValid(acc: Spec, ts: seq<Range>)
    requires Valid(acc)
    requires forall i :: 0 <= i < |ts| ==> WellFormed(ts[i])
    ensures Valid(OrFold(acc, ts))
    decreases |ts|
  {
    if |ts| > 0 {
      OrWithValid(acc, ts[0]);
      assert forall i :: 0 <= i < |ts| - 1 ==> ts[1..][i] == ts[i + 1];
      OrFoldValid(OrWith(acc, ts[0]), ts[1..]);
    }
  }

  // ---------------------------------------------------------------------
  // `&`
  // ---------------------------------------------------------------------

  /** A range lies within `a`: its bounds are no looser than `a`'s. */
  predicate Within(r: Range, a: Range) {
    LoLe(a.lo, r.lo) && HiGe(a.hi, r.hi)
  }

  /** The non-empty intersections of `a` with each of `ts`, in order. */
  function Row(a: Range, ts: seq<Range>): (out: seq<Range>)
    ensures |out| <= |ts|
    ensures forall k :: 0 <= k < |out| ==> WellFormed(out[k]) && Within(out[k], a)
    decreases |ts|
  {
    if |ts| == 0 then []
    else
      var rest := Row(a, ts[1..]);
      match Intersect(a, ts[0])
      case None => rest
      case Some(r) =>
        IntersectBounds(a, ts[0]);
        [r] + rest
  }

  /**
   * The flat `itertools.product` comprehension of `__and__`: for each
   * range of `rs` in turn, its non-empty intersections with `ts`.
   */
  function Product(rs: seq<Range>, ts: seq<Range>): seq<Range>
    decreases |rs|
  {
    if |rs| == 0 then [] else Row(rs[0], ts) + Product(rs[1..], ts)
  }

  /** At most one intersection per pair. */
  lemma {:induction false} ProductLength(rs: seq<Range>, ts: seq<Range>)
    ensures |Product(rs, ts)| <= |rs| * |ts|
    decreases |rs|
  {
    if |rs| > 0 {
      ProductLength(rs[1..], ts);
      assert |rs| * |ts| == |ts| + (|rs| - 1) * |ts|;
    }
  }

  lemma {:induction false} RowContains(a: Range, ts: seq<Range>, x: Version)
    ensures AnyContains(Row(a, ts), x) <==> Ranges.Contains(a, x) && AnyContains(ts, x)
    decreases |ts|
  {
    if |ts| > 0 {
      RowContains(a, ts[1..], x);
      IntersectContains(a, ts[0], x);
      match Intersect(a, ts[0])
      case None =>
      case Some(r) =>
        assert ([r] + Row(a, ts[1..]))[1..] == Row(a, ts[1..]);
    }
  }

  lemma {:induction false} ProductContains(rs: seq<Range>, ts: seq<Range>, x: Version)
    ensures AnyContains(Product(rs, ts), x) <==> AnyContains(rs, x) && AnyContains(ts, x)
    decreases |rs|
  {
    if |rs| > 0 {
      RowContains(rs[0], ts, x);
      ProductContains(rs[1..], ts, x);
      AnyContainsAppend(Row(rs[0], ts), Product(rs[1..], ts), x);
    }
  }

  /** A range below every range of `ts` is below every intersection with them. */
  lemma {:induction false} RowBelow(p: Range, a: Range, ts: seq<Range>)
    requires forall j :: 0 <= j < |ts| ==> Separated(p, ts[j])
    ensures forall k :: 0 <= k < |Row(a, ts)| ==> Separated(p, Row(a, ts)[k])
    decreases |ts|
  {
    if |ts| > 0 {
      assert forall j :: 0 <= j < |ts| - 1 ==> ts[1..][j] == ts[j + 1];
      RowBelow(p, a, ts[1..]);
      match Intersect(a, ts[0])
      case None =>
      case Some(r) =>
        IntersectBounds(a, ts[0]);
        BoundOrderReflexive(p.hi);
        SeparatedShrink(p, ts[0], p, r);
    }
  }

  lemma {:induction false} RowSortedAll(a: Range, ts: seq<Range>)
    requires SortedAll(ts)
    ensures SortedAll(Row(a, ts))
    decreases |ts|
  {
    if |ts| > 0 {
      var t := ts[1..];
      SortedAllTail(ts);
      RowSortedAll(a, t);
      match Intersect(a, ts[0])
      case None =>
      case Some(r) =>
        IntersectBounds(a, ts[0]);
        forall j | 0 <= j < |t| ensures Separated(r, t[j]) {
          assert t[j] == ts[j + 1];
          BoundOrderReflexive(t[j].lo);
          SeparatedShrink(ts[0], t[j], r, t[j]);
        }
        RowBelow(r, a, t);
        SortedAllAppend([r], Row(a, t));
    }
  }

  /** A range below every range of `rs` is below every range of the product. */
  lemma {:induction false} ProductBelow(p: Range, rs: seq<Range>, ts: seq<Range>)
    requires forall i :: 0 <= i < |rs| ==> Separated(p, rs[i])
    ensures forall k :: 0 <= k < |Product(rs, ts)| ==> Separated(p, Product(rs, ts)[k])
    decreases |rs|
  {
    if |rs| > 0 {
      assert forall i :: 0 <= i < |rs| - 1 ==> rs[1..][i] == rs[i + 1];
      ProductBelow(p, rs[1..], ts);
      var row := Row(rs[0], ts);
      var rest := Product(rs[1..], ts);
      RowWithinBelow(p, rs[0], ts);
      var out := row + rest;
      assert Product(rs, ts) == out;
      forall k | 0 <= k < |out| ensures Separated(p, out[k]) {
        if k < |row| {
          assert out[k] == row[k];
        } else {
          assert out[k] == rest[k - |row|];
        }
      }
    }
  }

  /** A range below `a` is below every piece of `a` cut out by `ts`. */
  lemma RowWithinBelow(p: Range, a: Range, ts: seq<Range>)
    requires Separated(p, a)
    ensures forall k :: 0 <= k < |Row(a, ts)| ==> Separated(p, Row(a, ts)[k])
  {
    var row := Row(a, ts);
    BoundOrderReflexive(p.hi);
    forall k | 0 <= k < |row| ensures Separated(p, row[k]) {
      SeparatedShrink(p, a, p, row[k]);
    }
  }

  lemma {:induction false} ProductSortedAll(rs: seq<Range>, ts: seq<Range>)
    requires SortedAll(rs) && SortedAll(ts)
    ensures SortedAll(Product(rs, ts))
    decreases |rs|
  {
    if |rs| > 0 {
      var t := rs[1..];
      SortedAllTail(rs);
      ProductSortedAll(t, ts);
      RowSortedAll(rs[0], ts);
      var row := Row(rs[0], ts);
      forall k, j | 0 <= k < |row| && 0 <= j < |Product(t, ts)|
        ensures Separated(row[k], Product(t, ts)[j])
      {
        forall i | 0 <= i < |t| ensures Separated(row[k], t[i]) {
          assert t[i] == rs[i + 1];
          BoundOrderReflexive(t[i].lo);
          SeparatedShrink(rs[0], t[i], row[k], t[i]);
        }
        ProductBelow(row[k], t, ts);
      }
      SortedAllAppend(row, Product(t, ts));
    }
  }

  /** The product of two sorted, disjoint lists is sorted and disjoint. */
  lemma ProductSorted(rs: seq<Range>, ts: seq<Range>)
    requires Sorted(rs) && Sorted(ts)
    ensures Sorted(Product(rs, ts))
  {
    SortedIsSortedAll(rs);
    SortedIsSortedAll(ts);
    ProductSortedAll(rs, ts);
    SortedAllToSorted(Product(rs, ts));
  }

  /** `UnionSpecifier.__and__` with a range (also `__rand__`). */
  function AndRange(u: Spec, o: Range): (s: Spec)
    requires u.Union?
    ensures IsAny(o) ==> s == u
  {
    if IsAny(o) then u else FromRanges(Product(u.ranges, [o]))
  }

  /** `UnionSpecifier.__and__` with a union. */
  function AndUnion(u: Spec, v: Spec): Spec
    requires u.Union? && v.Union?
  {
    FromRanges(Product(u.ranges, v.ranges))
  }

  lemma AndRangeContains(u: Spec, o: Range, x: Version)
    requires u.Union?
    ensures Specs.Contains(AndRange(u, o), x) <==> Specs.Contains(u, x) && Ranges.Contains(o, x)
  {
    if !IsAny(o) {
      FromRangesContains(Product(u.ranges, [o]), x);
      ProductContains(u.ranges, [o], x);
      assert [o][1..] == [];
    }
  }

  lemma AndRangeValid(u: Spec, o: Range)
    requires u.Union? && Valid(u) && WellFormed(o)
    ensures Valid(AndRange(u, o))
  {
    if !IsAny(o) {
      ProductSorted(u.ranges, [o]);
      FromRangesValid(Product(u.ranges, [o]));
    }
  }

  lemma AndUnionContains(u: Spec, v: Spec, x: Version)
    requires u.Union? && v.Union?
    ensures Specs.Contains(AndUnion(u, v), x) <==> Specs.Contains(u, x) && Specs.Contains(v, x)
  {
    FromRangesContains(Product(u.ranges, v.ranges), x);
    ProductContains(u.ranges, v.ranges, x);
  }

  lemma AndUnionValid(u: Spec, v: Spec)
    requires u.Union? && v.Union? && Valid(u) && Valid(v)
    ensures Valid(AndUnion(u, v))
  {
    ProductSorted(u.ranges, v.ranges);
    FromRangesValid(Product(u.ranges, v.ranges));
  }

  // ---------------------------------------------------------------------
  // `~`
  // ---------------------------------------------------------------------

  /** Everything below the first range, when that range has a lower bound. */
  function Head(rs: seq<Range>): seq<Range>
    requires |rs| > 0
  {
    if rs[0].lo.At? then [Range(Unbounded, Flip(rs[0].lo))] else []
  }

  /** The gap between each range and the next (`zip(ranges, ranges[1:])`). */
  function Gaps(rs: seq<Range>): (out: seq<Range>)
    ensures |rs| > 0 ==> |out| == |rs| - 1
    ensures |rs| == 0 ==> out == []
  {
    if |rs| == 0 then []
    else seq(|rs| - 1, i requires 0 <= i < |rs| - 1 => Range(Flip(rs[i].hi), Flip(rs[i + 1].lo)))
  }

  /** Everything above the last range, when that range has an upper bound. */
  function Tail(rs: seq<Range>): seq<Range>
    requires |rs| > 0
  {
    var last := rs[|rs| - 1];
    if last.hi.At? then [Range(Flip(last.hi), Unbounded)] else []
  }

  /** `UnionSpecifier.__invert__` on the list of ranges; the complement of one range is the same construction on `[r]`. */
  function InvertRanges(rs: seq<Range>): seq<Range>
    requires |rs| > 0
  {
    Head(rs) + Gaps(rs) + Tail(rs)
  }

  lemma GapsCons(rs: seq<Range>)
    requires |rs| >= 2
    ensures Gaps(rs) == [Range(Flip(rs[0].hi), Flip(rs[1].lo))] + Gaps(rs[1..])
    ensures Tail(rs) == Tail(rs[1..])
  {
    var t := rs[1..];
    var g := Gaps(rs);
    var gt := Gaps(t);
    var g' := [Range(Flip(rs[0].hi), Flip(rs[1].lo))] + gt;
    assert |g| == |g'|;
    forall k | 0 <= k < |g| ensures g[k] == g'[k] {
      if k == 0 {
        assert g[0] == Range(Flip(rs[0].hi), Flip(rs[1].lo));
      } else {
        assert g'[k] == gt[k - 1];
        assert t[k - 1] == rs[k] && t[k] == rs[k + 1];
        assert gt[k - 1] == Range(Flip(t[k - 1].hi), Flip(t[k].lo));
        assert g[k] == Range(Flip(rs[k].hi), Flip(rs[k + 1].lo));
      }
    }
    assert g == g';
    assert t[|t| - 1] == rs[|rs| - 1];
  }

  /** A version below the first range of a sorted list is in none of them. */
  lemma {:induction false} BelowAll(rs: seq<Range>, x: Version)
    requires Sorted(rs) && |rs| > 0 && !AboveLo(rs[0].lo, x)
    ensures !AnyContains(rs, x)
    decreases |rs|
  {
    if |rs| > 1 {
      BelowLoBelowHi(rs[0], x);
      SeparatedBelow(rs[0], rs[1], x);
      SortedTail(rs);
      BelowAll(rs[1..], x);
    }
  }

  /** The gaps after the first range admit what lies above it and in no later range. */
  lemma {:induction false} AfterContains(rs: seq<Range>, x: Version)
    requires Sorted(rs) && |rs| > 0
    ensures AnyContains(Gaps(rs) + Tail(rs), x) <==> !BelowHi(rs[0].hi, x) && !AnyContains(rs[1..], x)
    decreases |rs|
  {
    if |rs| == 1 {
      assert Gaps(rs) + Tail(rs) == Tail(rs);
      if rs[0].hi.At? {
        FlipComplement(rs[0].hi, x);
        assert Tail(rs)[1..] == [];
      }
    } else {
      var t := rs[1..];
      SortedTail(rs);
      GapsCons(rs);
      var gap := Range(Flip(rs[0].hi), Flip(rs[1].lo));
      assert Gaps(rs) + Tail(rs) == [gap] + (Gaps(t) + Tail(t));
      assert ([gap] + (Gaps(t) + Tail(t)))[1..] == Gaps(t) + Tail(t);
      AfterContains(t, x);
      FlipComplement(rs[0].hi, x);
      FlipComplement(rs[1].lo, x);
      assert t[0] == rs[1];
      if !AboveLo(rs[1].lo, x) {
        BelowAll(t, x);
      }
      if BelowHi(rs[0].hi, x) {
        SeparatedBelow(rs[0], rs[1], x);
        BelowLoBelowHi(rs[1], x);
      }
    }
  }

  /** The complement admits exactly the versions the union does not. */
  lemma InvertContains(rs: seq<Range>, x: Version)
    requires Sorted(rs) && |rs| > 0
    ensures AnyContains(InvertRanges(rs), x) <==> !AnyContains(rs, x)
  {
    assert InvertRanges(rs) == Head(rs) + (Gaps(rs) + Tail(rs));
    AnyContainsAppend(Head(rs), Gaps(rs) + Tail(rs), x);
    AfterContains(rs, x);
    if rs[0].lo.At? {
      FlipComplement(rs[0].lo, x);
      assert Head(rs)[1..] == [];
      if !AboveLo(rs[0].lo, x) {
        BelowAll(rs, x);
      }
    }
  }

  /** The complement has a leading piece, one gap per adjacent pair and a trailing piece. */
  lemma InvertLength(rs: seq<Range>)
    requires |rs| > 0
    ensures |InvertRanges(rs)| ==
      (if rs[0].lo.At? then 1 else 0) + |rs| - 1 + (if rs[|rs| - 1].hi.At? then 1 else 0)
  {
  }

  /**
   * Position `k` of the complement is the gap between ranges `k - h` and
   * `k - h + 1`, where `h` counts the leading piece and the missing
   * neighbours at either end stand for an absent bound.
   */
  lemma InvertAt(rs: seq<Range>, k: int)
    requires |rs| > 0 && 0 <= k < |InvertRanges(rs)|
    ensures var h := if rs[0].lo.At? then 1 else 0;
            var inv := InvertRanges(rs);
            inv[k].lo == (if k - h == -1 then Unbounded else Flip(rs[k - h].hi)) &&
            inv[k].hi == (if k - h + 1 == |rs| then Unbounded else Flip(rs[k - h + 1].lo))
  {
    var h := if rs[0].lo.At? then 1 else 0;
    InvertLength(rs);
    if k < h {
      InvertAtHead(rs);
    } else if k - h < |rs| - 1 {
      InvertAtGap(rs, h, k);
    } else {
      InvertAtTail(rs, h, k);
    }
  }

  lemma InvertAtHead(rs: seq<Range>)
    requires |rs| > 0 && rs[0].lo.At?
    ensures |InvertRanges(rs)| > 0 && InvertRanges(rs)[0] == Range(Unbounded, Flip(rs[0].lo))
  {
    assert InvertRanges(rs) == Head(rs) + (Gaps(rs) + Tail(rs));
  }

  lemma InvertAtGap(rs: seq<Range>, h: int, k: int)
    requires |rs| > 0 && h == (if rs[0].lo.At? then 1 else 0) && 0 <= k - h < |rs| - 1
    ensures k < |InvertRanges(rs)| && InvertRanges(rs)[k] == Range(Flip(rs[k - h].hi), Flip(rs[k - h + 1].lo))
  {
    var g := Gaps(rs);
    assert InvertRanges(rs) == (Head(rs) + g) + Tail(rs);
    assert |Head(rs)| == h;
    assert (Head(rs) + g)[k] == g[k - h];
  }

  lemma InvertAtTail(rs: seq<Range>, h: int, k: int)
    requires |rs| > 0 && h == (if rs[0].lo.At? then 1 else 0) && k - h == |rs| - 1
    requires k < |InvertRanges(rs)|
    ensures InvertRanges(rs)[k] == Range(Flip(rs[|rs| - 1].hi), Unbounded)
  {
    var pre := Head(rs) + Gaps(rs);
    assert InvertRanges(rs) == pre + Tail(rs);
    assert |pre| == k;
  }

  /** `InvertAt` for every position at once. */
  lemma InvertIndex(rs: seq<Range>)
    requires |rs| > 0
    ensures var h := if rs[0].lo.At? then 1 else 0;
            var t := if rs[|rs| - 1].hi.At? then 1 else 0;
            var inv := InvertRanges(rs);
            |inv| == h + |rs| - 1 + t &&
            forall k :: 0 <= k < |inv| ==>
              inv[k].lo == (if k - h == -1 then Unbounded else Flip(rs[k - h].hi)) &&
              inv[k].hi == (if k - h + 1 == |rs| then Unbounded else Flip(rs[k - h + 1].lo))
  {
    InvertLength(rs);
    forall k | 0 <= k < |InvertRanges(rs)| {
      InvertAt(rs, k);
    }
  }

  /** Every piece of the complement of a sorted list is well formed. */
  lemma InvertWellFormedAt(rs: seq<Range>, k: int)
    requires Sorted(rs) && |rs| > 0 && 0 <= k < |InvertRanges(rs)|
    ensures WellFormed(InvertRanges(rs)[k])
  {
    var h := if rs[0].lo.At? then 1 else 0;
    InvertAt(rs, k);
    if 0 <= k - h && k - h + 1 < |rs| {
      assert Separated(rs[k - h], rs[k - h + 1]);
      GapWellFormed(rs[k - h], rs[k - h + 1]);
    }
  }

  /** Adjacent pieces of the complement are separated by the range between them. */
  lemma InvertSeparatedAt(rs: seq<Range>, k: int)
    requires Sorted(rs) && |rs| > 0 && 0 <= k && k + 1 < |InvertRanges(rs)|
    ensures Separated(InvertRanges(rs)[k], InvertRanges(rs)[k + 1])
  {
    var h := if rs[0].lo.At? then 1 else 0;
    var t := if rs[|rs| - 1].hi.At? then 1 else 0;
    InvertLength(rs);
    InvertAt(rs, k);
    InvertAt(rs, k + 1);
    var j := k - h + 1;
    assert 0 <= j < |rs|;
    if j > 0 {
      assert Separated(rs[j - 1], rs[j]);
    }
    if j < |rs| - 1 {
      assert Separated(rs[j], rs[j + 1]);
    }
    FlipSeparated(rs[j], InvertRanges(rs)[k], InvertRanges(rs)[k + 1]);
  }

  /** The complement of a sorted, disjoint list is sorted and disjoint. */
  lemma InvertSorted(rs: seq<Range>)
    requires Sorted(rs) && |rs| > 0
    ensures Sorted(InvertRanges(rs))
  {
    var inv := InvertRanges(rs);
    forall k | 0 <= k < |inv| ensures WellFormed(inv[k]) {
      InvertWellFormedAt(rs, k);
    }
    forall k | 0 <= k < |inv| - 1 ensures Separated(inv[k], inv[k + 1]) {
      InvertSeparatedAt(rs, k);
    }
  }

  /** The complement has a leading piece exactly when the list has none, and likewise at the end. */
  lemma InvertEnds(rs: seq<Range>)
    requires Sorted(rs) && |rs| > 0 && |InvertRanges(rs)| > 0
    ensures var inv := InvertRanges(rs);
            inv[0].lo.At? <==> rs[0].lo.Unbounded?
    ensures var inv := InvertRanges(rs);
            inv[|inv| - 1].hi.At? <==> rs[|rs| - 1].hi.Unbounded?
  {
    var n := |rs|;
    InvertLength(rs);
    InvertAt(rs, 0);
    InvertAt(rs, |InvertRanges(rs)| - 1);
    if n > 1 {
      assert Separated(rs[0], rs[1]);
      assert Separated(rs[n - 2], rs[n - 1]);
    }
  }

  /** 1 when the complement starts with a piece below the first range, else 0. */
  function Lead(rs: seq<Range>): int
    requires |rs| > 0
  {
    if rs[0].lo.At? then 1 else 0
  }

  /** The lower bound of a piece after the start is the flipped upper bound of the range before it. */
  lemma InvertLoAt(rs: seq<Range>, k: int, j: int)
    requires |rs| > 0 && 0 <= k < |InvertRanges(rs)| && j == k - Lead(rs) && 0 <= j
    ensures InvertRanges(rs)[k].lo == Flip(rs[j].hi)
  {
    InvertAt(rs, k);
  }

  /** The upper bound of a piece before the end is the flipped lower bound of the range after it. */
  lemma InvertHiAt(rs: seq<Range>, k: int, j: int)
    requires |rs| > 0 && 0 <= k < |InvertRanges(rs)| && j == k - Lead(rs) + 1 && j < |rs|
    ensures InvertRanges(rs)[k].hi == Flip(rs[j].lo)
  {
    InvertAt(rs, k);
  }

  /** Position `m` of the double complement is range `m` of the list. */
  lemma InvertTwiceAt(rs: seq<Range>, m: int)
    requires Sorted(rs) && |rs| > 0 && |InvertRanges(rs)| > 0
    requires 0 <= m < |InvertRanges(InvertRanges(rs))| && m < |rs|
    ensures InvertRanges(InvertRanges(rs))[m] == rs[m]
  {
    var inv := InvertRanges(rs);
    var back := InvertRanges(inv);
    var h := Lead(rs);
    var t := if rs[|rs| - 1].hi.At? then 1 else 0;
    InvertEnds(rs);
    InvertLength(rs);
    assert Lead(inv) == 1 - h;
    assert |inv| == h + |rs| - 1 + t;
    if m - Lead(inv) == -1 {
      InvertAtHead(inv);
    } else {
      InvertLoAt(inv, m, m - Lead(inv));
      InvertHiAt(rs, m - Lead(inv), m);
      FlipFlip(rs[m].lo);
    }
    if m == |rs| - 1 && t == 0 {
      InvertLength(inv);
      InvertAtTail(inv, Lead(inv), m);
    } else {
      InvertHiAt(inv, m, m + h);
      InvertLoAt(rs, m + h, m);
      FlipFlip(rs[m].hi);
    }
  }

  /** Taking the complement twice gives back the original list. */
  lemma InvertInvolution(rs: seq<Range>)
    requires Sorted(rs) && |rs| > 0 && |InvertRanges(rs)| > 0
    ensures InvertRanges(InvertRanges(rs)) == rs
  {
    var inv := InvertRanges(rs);
    InvertEnds(rs);
    InvertLength(rs);
    InvertLength(inv);
    var back := InvertRanges(inv);
    assert |back| == |rs|;
    forall m | 0 <= m < |rs| ensures back[m] == rs[m] {
      InvertTwiceAt(rs, m);
    }
  }

  // ---------------------------------------------------------------------
  // `_simplified_form`, `is_simple`, `__str__`
  // ---------------------------------------------------------------------

  /** The two ranges `!=v` stands for: below `v` and above `v`. */
  function NotEqualRanges(v: Version): seq<Range> {
    [Range(Unbounded, At(v, false)), Range(At(v, false), Unbounded)]
  }

  /** The two ranges `!=e!P.*` stands for: below `e!P.0` and from `e!P'.0` on. */
  function NotEqualPrefixRanges(epoch: nat, prefix: seq<nat>): seq<Range>
    requires |prefix| > 0
  {
    [Range(Unbounded, At(Version(epoch, prefix + [0], false), false)),
     Range(At(Version(epoch, Bump(prefix) + [0], false), true), Unbounded)]
  }

  /** A printable idiom for a union: the supplied text, `!=v`, or `!=e!P.*`. */
  datatype Form =
    | Supplied(text: string)
    | NotEqual(v: Version)
    | NotEqualPrefix(epoch: nat, prefix: seq<nat>)

  /** `[v.epoch, *v.release]` padded with zeros to `n` entries. */
  function Stable(v: Version, n: nat): (s: seq<int>)
    requires 1 + |v.release| <= n
    ensures |s| == n && s[0] == v.epoch
    ensures forall k :: 0 <= k < n - 1 ==> s[k + 1] == Seg(v.release, k)
  {
    var s := Utils.PadZeros([v.epoch] + v.release, n);
    assert forall k :: 0 <= k < |v.release| ==> ([v.epoch] + v.release)[k + 1] == v.release[k];
    s
  }

  /** Python's `set(s) == {0}`: `s` is non-empty and all zeros. */
  predicate OnlyZeros(s: seq<int>) {
    (set z | z in s) == {0}
  }

  /** Final releases whose padded segment lists agree are equal versions. */
  lemma StableEqualSame(a: Version, b: Version, n: nat)
    requires !a.pre && !b.pre
    requires 1 + |a.release| <= n && 1 + |b.release| <= n
    ensures Stable(a, n) == Stable(b, n) ==> Same(a, b)
  {
    if Stable(a, n) == Stable(b, n) {
      forall k | 0 <= k < |a.release| + |b.release| ensures Seg(a.release, k) == Seg(b.release, k) {
        if k < n - 1 {
          assert Stable(a, n)[k + 1] == Stable(b, n)[k + 1];
        }
      }
      PaddedCmpPointwise(a.release, b.release);
    }
  }

  /** How the `!=X.*` branch cuts the printed prefix out of the left bound. */
  datatype Cut =
    | Unpadded  // `left_max.release[:first_different]`, as written
    | Padded    // the same number of segments of the zero-padded release

  function PrefixOf(cut: Cut, v: Version, n: nat): seq<nat> {
    match cut
    case Unpadded => v.release[..if n <= |v.release| then n else |v.release|]
    case Padded => seq(n, k requires 0 <= k < n => Seg(v.release, k))
  }

  /**
   * The `!=X.*` test on the bounds `<lm` and `>=rm`: `Some(d)` with the
   * first position `d` where `[epoch, *release]` differ, when that
   * position is past the epoch, the right segment there is one more than
   * the left, and every later segment of both is zero (at least one).
   */
  function PrefixGap(lm: Version, rm: Version): (d: Option<nat>)
    requires !lm.pre && !rm.pre && Lt(lm, rm)
    ensures d.Some? ==> 0 < d.value
  {
    var n := if |lm.release| < |rm.release| then 1 + |rm.release| else 1 + |lm.release|;
    var ls := Stable(lm, n);
    var rs := Stable(rm, n);
    StableEqualSame(lm, rm, n);
    var fd := Utils.FirstDifferentIndex(ls, rs);
    if fd > 0 && rs[fd] - ls[fd] == 1 && OnlyZeros(ls[fd + 1..] + rs[fd + 1..]) then Some(fd)
    else None
  }

  /** `_simplified_form`, with the prefix of `!=X.*` cut as `cut` says. */
  function SimplifiedFormBy(u: Spec, cut: Cut): Option<Form>
    requires u.Union? && Valid(u)
  {
    if u.simplified.Some? then Some(Supplied(u.simplified.value))
    else if |u.ranges| > 2 then None
    else
      var left := u.ranges[0];
      var right := u.ranges[1];
      if left.lo.Unbounded? && left.hi.At? && !left.hi.inclusive
         && right.lo.At? && !right.lo.inclusive && right.hi.Unbounded?
         && Same(left.hi.v, right.lo.v)
      then Some(NotEqual(left.hi.v))
      else if left.lo.Unbounded? && left.hi.At? && !left.hi.inclusive
         && right.lo.At? && right.lo.inclusive && right.hi.Unbounded?
      then
        if left.hi.v.pre || right.lo.v.pre then None
        else match PrefixGap(left.hi.v, right.lo.v)
          case None => None
          case Some(fd) => Some(NotEqualPrefix(left.hi.v.epoch, PrefixOf(cut, left.hi.v, fd)))
      else None
  }

  /** `_simplified_form` as written in the source. */
  function SimplifiedFormAsWritten(u: Spec): Option<Form>
    requires u.Union? && Valid(u)
  {
    SimplifiedFormBy(u, Unpadded)
  }

  /** `_simplified_form` with the printed prefix taken from the padded release. */
  function SimplifiedForm(u: Spec): Option<Form>
    requires u.Union? && Valid(u)
  {
    SimplifiedFormBy(u, Padded)
  }

  /**
   * The cases of `_simplified_form`: a supplied text wins; otherwise only a
   * union of two ranges, open below and open above, has a short form, and
   * the `!=X.*` form needs two final-release bounds.
   */
  lemma SimplifiedFormCases(u: Spec)
    requires u.Union? && Valid(u)
    ensures u.simplified.Some? ==> SimplifiedForm(u) == Some(Supplied(u.simplified.value))
    ensures u.simplified.None? && |u.ranges| > 2 ==> SimplifiedForm(u).None?
    ensures u.simplified.None? && SimplifiedForm(u).Some? ==>
      |u.ranges| == 2 && u.ranges[0].lo.Unbounded? && u.ranges[1].hi.Unbounded?
      && u.ranges[0].hi.At? && u.ranges[1].lo.At?
    ensures SimplifiedForm(u).Some? && SimplifiedForm(u).value.NotEqualPrefix? ==>
      u.simplified.None? && u.ranges[0].hi.At? && u.ranges[1].lo.At?
      && !u.ranges[0].hi.v.pre && !u.ranges[1].lo.v.pre
      && !u.ranges[0].hi.inclusive && u.ranges[1].lo.inclusive
  {
  }

  /** `is_simple` */
  predicate IsSimple(u: Spec)
    requires u.Union? && Valid(u)
  {
    SimplifiedForm(u).Some?
  }

  lemma OnlyZerosAll(ls: seq<int>, rs: seq<int>, fd: nat)
    requires fd < |ls| == |rs| && OnlyZeros(ls[fd + 1..] + rs[fd + 1..])
    ensures forall j :: fd < j < |ls| ==> ls[j] == 0 && rs[j] == 0
  {
    var tail := ls[fd + 1..] + rs[fd + 1..];
    var zs := set z | z in tail;
    assert zs == {0};
    forall z | z in tail ensures z == 0 {
      assert z in zs;
    }
    forall j | fd < j < |ls| ensures ls[j] == 0 && rs[j] == 0 {
      assert ls[j] == tail[j - fd - 1] && tail[j - fd - 1] in tail;
      assert rs[j] == tail[|ls| - fd - 1 + j - fd - 1] && tail[|ls| - fd - 1 + j - fd - 1] in tail;
    }
  }

  /** The left bound equals `e!P.0` for the padded prefix `P` up to `fd`. */
  lemma LeftBoundIsPrefix(lm: Version, n: nat, fd: nat)
    requires !lm.pre && 1 + |lm.release| <= n && 0 < fd < n
    requires forall j :: fd < j < n ==> Stable(lm, n)[j] == 0
    ensures Same(lm, Version(lm.epoch, PrefixOf(Padded, lm, fd) + [0], false))
  {
    var p := PrefixOf(Padded, lm, fd);
    var lo := Version(lm.epoch, p + [0], false);
    var ls := Stable(lm, n);
    forall k | 0 <= k < |lm.release| + |lo.release| ensures Seg(lm.release, k) == Seg(lo.release, k) {
      if k < fd {
        assert (p + [0])[k] == p[k];
      } else if k + 1 < n {
        assert ls[k + 1] == 0;
      }
    }
    PaddedCmpPointwise(lm.release, lo.release);
  }

  /** The right bound equals `e!P'.0` when it is one more than the left at `fd` and zero after. */
  lemma RightBoundIsBump(lm: Version, rm: Version, n: nat, fd: nat)
    requires !rm.pre && 1 + |lm.release| <= n && 1 + |rm.release| <= n && 0 < fd < n
    requires forall j :: 0 <= j < fd ==> Stable(lm, n)[j] == Stable(rm, n)[j]
    requires Stable(rm, n)[fd] == Stable(lm, n)[fd] + 1
    requires forall j :: fd < j < n ==> Stable(rm, n)[j] == 0
    ensures Same(rm, Version(lm.epoch, Bump(PrefixOf(Padded, lm, fd)) + [0], false))
  {
    var p := PrefixOf(Padded, lm, fd);
    var hi := Version(lm.epoch, Bump(p) + [0], false);
    var ls := Stable(lm, n);
    var rs := Stable(rm, n);
    assert rm.epoch == rs[0] == ls[0];
    forall k | 0 <= k < |rm.release| + |hi.release| ensures Seg(rm.release, k) == Seg(hi.release, k) {
      if k < fd - 1 {
        assert (Bump(p) + [0])[k] == Bump(p)[k] == p[k];
        assert rs[k + 1] == ls[k + 1];
      } else if k == fd - 1 {
        assert (Bump(p) + [0])[k] == Bump(p)[k] == p[k] + 1;
      } else if k + 1 < n {
        assert rs[k + 1] == 0;
      }
    }
    PaddedCmpPointwise(rm.release, hi.release);
  }

  /** The `!=X.*` test only fires for bounds `e!P.0` and `e!P'.0` (as versions). */
  lemma PrefixGapBounds(lm: Version, rm: Version)
    requires !lm.pre && !rm.pre && Lt(lm, rm) && PrefixGap(lm, rm).Some?
    ensures var p := PrefixOf(Padded, lm, PrefixGap(lm, rm).value);
            |p| > 0 &&
            Same(lm, Version(lm.epoch, p + [0], false)) &&
            Same(rm, Version(lm.epoch, Bump(p) + [0], false))
  {
    var n := if |lm.release| < |rm.release| then 1 + |rm.release| else 1 + |lm.release|;
    var ls := Stable(lm, n);
    var rs := Stable(rm, n);
    StableEqualSame(lm, rm, n);
    var fd := Utils.FirstDifferentIndex(ls, rs);
    assert PrefixGap(lm, rm) == Some(fd);
    OnlyZerosAll(ls, rs, fd);
    LeftBoundIsPrefix(lm, n, fd);
    RightBoundIsBump(lm, rm, n, fd);
  }

  /**
   * The printed idiom denotes the union's set of versions: `!=v` admits
   * what `(<v, >v)` admits and `!=e!P.*` what `(<e!P.0, >=e!P'.0)` admits.
   */
  lemma SimplifiedFormMeaning(u: Spec, x: Version)
    requires u.Union? && Valid(u)
    ensures SimplifiedForm(u).Some? && SimplifiedForm(u).value.NotEqual? ==>
      (Specs.Contains(u, x) <==> AnyContains(NotEqualRanges(SimplifiedForm(u).value.v), x))
    ensures SimplifiedForm(u).Some? && SimplifiedForm(u).value.NotEqualPrefix? ==>
      var f := SimplifiedForm(u).value;
      |f.prefix| > 0 && (Specs.Contains(u, x) <==> AnyContains(NotEqualPrefixRanges(f.epoch, f.prefix), x))
  {
    var rs := u.ranges;
    if u.simplified.None? && |rs| == 2 {
      assert rs == [rs[0], rs[1]];
      AnyContainsPair(rs[0], rs[1], x);
      var left := rs[0];
      var right := rs[1];
      match SimplifiedForm(u)
      case None =>
      case Some(f) =>
        if f.NotEqual? {
          var v := left.hi.v;
          assert left == Range(Unbounded, At(v, false));
          assert right == Range(At(right.lo.v, false), Unbounded);
          assert f == NotEqual(v);
          SameBounds(v, right.lo.v, false, x);
          AnyContainsPair(NotEqualRanges(v)[0], NotEqualRanges(v)[1], x);
        } else if f.NotEqualPrefix? {
          PrefixGapBounds(left.hi.v, right.lo.v);
          var w := NotEqualPrefixRanges(f.epoch, f.prefix);
          SameBounds(left.hi.v, w[0].hi.v, false, x);
          SameBounds(right.lo.v, w[1].lo.v, true, x);
          AnyContainsPair(w[0], w[1], x);
        }
    }
  }

  /** The `!=X.*` test on `<1` and `>=1.1.0` fires at position 2 of `[epoch, *release]`. */
  lemma PrefixGapExample()
    ensures PrefixGap(Version(0, [1], false), Version(0, [1, 1, 0], false)) == Some(2)
  {
    var lm := Version(0, [1], false);
    var rm := Version(0, [1, 1, 0], false);
    StableExample();
    FirstDifferentExample();
    var ls: seq<int> := [0, 1, 0, 0];
    var rs: seq<int> := [0, 1, 1, 0];
    assert ls[3..] + rs[3..] == [0, 0];
    OnlyZerosPair();
  }

  lemma StableExample()
    ensures Stable(Version(0, [1], false), 4) == [0, 1, 0, 0]
    ensures Stable(Version(0, [1, 1, 0], false), 4) == [0, 1, 1, 0]
  {
    var ls := Stable(Version(0, [1], false), 4);
    var rs := Stable(Version(0, [1, 1, 0], false), 4);
    assert ls[1] == 1 && ls[2] == 0 && ls[3] == 0;
    assert rs[1] == 1 && rs[2] == 1 && rs[3] == 0;
  }

  lemma FirstDifferentExample()
    ensures Utils.FirstDifferentIndex([0, 1, 0, 0], [0, 1, 1, 0]) == 2
  {
    var ls: seq<int> := [0, 1, 0, 0];
    var rs: seq<int> := [0, 1, 1, 0];
    assert ls[1..] == [1, 0, 0] && rs[1..] == [1, 1, 0];
    assert ls[1..][1..] == [0, 0] && rs[1..][1..] == [1, 0];
  }

  lemma OnlyZerosPair()
    ensures OnlyZeros([0, 0])
  {
    assert 0 in [0, 0];
  }

  /**
   * As written, the prefix is cut from the unpadded release: `<1 || >=1.1.0`
   * yields `!=1.*`, which excludes `1.5` although the union admits it.
   */
  lemma SimplifiedFormAsWrittenMisprints()
    ensures var lm := Version(0, [1], false);
            var rm := Version(0, [1, 1, 0], false);
            var u := Union([Range(Unbounded, At(lm, false)), Range(At(rm, true), Unbounded)], None);
            var x := Version(0, [1, 5], false);
            Valid(u) &&
            SimplifiedFormAsWritten(u) == Some(NotEqualPrefix(0, [1])) &&
            SimplifiedForm(u) == Some(NotEqualPrefix(0, [1, 0])) &&
            Specs.Contains(u, x) && !AnyContains(NotEqualPrefixRanges(0, [1]), x)
  {
    var lm := Version(0, [1], false);
    var rm := Version(0, [1, 1, 0], false);
    var u := Union([Range(Unbounded, At(lm, false)), Range(At(rm, true), Unbounded)], None);
    var x := Version(0, [1, 5], false);
    MisprintForms(u);
    MisprintPrefixes();
    MisprintAdmits(u, x);
    MisprintExcludes(x);
  }

  lemma MisprintForms(u: Spec)
    requires u == Union([Range(Unbounded, At(Version(0, [1], false), false)),
                         Range(At(Version(0, [1, 1, 0], false), true), Unbounded)], None)
    ensures Valid(u)
    ensures forall cut :: SimplifiedFormBy(u, cut) == Some(NotEqualPrefix(0, PrefixOf(cut, Version(0, [1], false), 2)))
  {
    var lm := Version(0, [1], false);
    var rm := Version(0, [1, 1, 0], false);
    assert Lt(lm, rm);
    PrefixGapExample();
  }

  lemma MisprintPrefixes()
    ensures PrefixOf(Padded, Version(0, [1], false), 2) == [1, 0]
    ensures PrefixOf(Unpadded, Version(0, [1], false), 2) == [1]
  {
  }

  lemma MisprintAdmits(u: Spec, x: Version)
    requires u == Union([Range(Unbounded, At(Version(0, [1], false), false)),
                         Range(At(Version(0, [1, 1, 0], false), true), Unbounded)], None)
    requires x == Version(0, [1, 5], false)
    ensures Specs.Contains(u, x)
  {
    assert Lt(Version(0, [1, 1, 0], false), x);
    AnyContainsPair(u.ranges[0], u.ranges[1], x);
  }

  /** `!=1.*` as printed, `[<1.0, >=2.0]`, leaves `1.5` out. */
  lemma MisprintExcludes(x: Version)
    requires x == Version(0, [1, 5], false)
    ensures !AnyContains(NotEqualPrefixRanges(0, [1]), x)
  {
    var w := NotEqualPrefixRanges(0, [1]);
    assert Bump([1]) == [2];
    assert w[0].hi.v == Version(0, [1, 0], false) && w[1].lo.v == Version(0, [2, 0], false);
    assert Cmp(x, Version(0, [1, 0], false)) == 1;
    assert Cmp(Version(0, [2, 0], false), x) == 1;
    assert !Ranges.Contains(w[0], x) && !Ranges.Contains(w[1], x);
    AnyContainsPair(w[0], w[1], x);
  }

  /** `".".join(map(str, segments))` */
  function SegmentsText(segments: seq<nat>): string {
    if |segments| == 0 then ""
    else Text.Join(seq(|segments|, i requires 0 <= i < |segments| => Text.NatToString(segments[i])), ".")
  }

  /** The text of a printable idiom; `versionText` is packaging's `str(Version)`. */
  function FormText(f: Form, versionText: Version -> string): string {
    match f
    case Supplied(t) => t
    case NotEqual(v) => "!=" + versionText(v)
    case NotEqualPrefix(e, p) =>
      "!=" + (if e == 0 then "" else Text.NatToString(e) + "!") + SegmentsText(p) + ".*"
  }

  /** The `str()` of each range, in order. */
  function RangeTexts(rs: seq<Range>, rangeText: Range -> string): (texts: seq<string>)
    ensures |texts| == |rs|
  {
    seq(|rs|, i requires 0 <= i < |rs| => rangeText(rs[i]))
  }

  /**
   * `UnionSpecifier.__str__`: the simplified form when there is one, else
   * the ranges joined with `||`. `rangeText` is `RangeSpecifier.__str__`,
   * whose source is not part of this model.
   */
  function UnionStr(u: Spec, rangeText: Range -> string, versionText: Version -> string): string
    requires u.Union? && Valid(u)
  {
    match SimplifiedForm(u)
    case Some(f) => FormText(f, versionText)
    case None => Text.Join(RangeTexts(u.ranges, rangeText), "||")
  }

  /** A supplied clause text is printed verbatim. */
  lemma UnionStrSupplied(u: Spec, rangeText: Range -> string, versionText: Version -> string)
    requires u.Union? && Valid(u) && u.simplified.Some?
    ensures UnionStr(u, rangeText, versionText) == u.simplified.value
    ensures IsSimple(u)
  {
  }

  /**
   * Without a simplified form the text splits on `||` back into the
   * ranges' own texts, provided those contain no `|`.
   */
  lemma UnionStrSplits(u: Spec, rangeText: Range -> string, versionText: Version -> string)
    requires u.Union? && Valid(u) && !IsSimple(u)
    requires forall i :: 0 <= i < |u.ranges| ==> '|' !in rangeText(u.ranges[i])
    ensures Text.SplitOn(UnionStr(u, rangeText, versionText), "||") == RangeTexts(u.ranges, rangeText)
  {
    var texts := RangeTexts(u.ranges, rangeText);
    forall k, i | 0 <= k < |texts| && 0 <= i < |texts[k]| ensures texts[k][i] != "||"[0] {
      assert texts[k][i] in rangeText(u.ranges[k]);
    }
    Text.SplitJoin(texts, "||");
  }
}

=== FILE: utils.dfy ===
/**
 * The list and string helpers of the version-range code
 * (src/pkg_logical/utils.py): splitting a version string into segments,
 * recognising pre/post/dev suffix segments, flattening nested groups
 * without duplicates, locating the first difference between two
 * sequences and padding a sequence with zeros.
 */
module Utils {
  import opened Wrappers
  import opened Text

  // ---------------------------------------------------------------------
  // version_split
  // ---------------------------------------------------------------------

  /** The pre-release letters `_prefix_regex` accepts between two digit runs. */
  predicate IsPreTag(t: string) {
    t == "a" || t == "b" || t == "c" || t == "rc"
  }

  /**
   * Reference reading of `^([0-9]+)((?:a|b|c|rc)[0-9]+)$`: the body is a
   * digit run, a pre-release tag and another digit run.
   */
  ghost predicate DigitsTagDigits(body: string) {
    exists i, j :: 0 < i < j < |body| && IsDigits(body[..i]) && IsPreTag(body[i..j]) && IsDigits(body[j..])
  }

  /** Python's `$` also matches just before one final newline. */
  function Body(field: string): string {
    if EndsWith(field, "\n") then field[..|field| - 1] else field
  }

  /** Number of leading ASCII digits of `s`. */
  function LeadingDigits(s: string): (n: nat)
    ensures n <= |s|
    ensures forall k :: 0 <= k < n ==> IsDigit(s[k])
    ensures n < |s| ==> !IsDigit(s[n])
    decreases |s|
  {
    if |s| > 0 && IsDigit(s[0]) then 1 + LeadingDigits(s[1..]) else 0
  }

  /** A hand-written recogniser for `_prefix_regex`, giving its two groups. */
  function MatchPrefixed(field: string): (m: Option<(string, string)>)
    ensures m.Some? <==> DigitsTagDigits(Body(field))
    ensures m.Some? ==> m.value.0 + m.value.1 == Body(field) && IsDigits(m.value.0)
  {
    var body := Body(field);
    var i := LeadingDigits(body);
    var rest := body[i..];
    var tagLength := if StartsWith(rest, "rc") then 2 else 1;
    if i > 0 && tagLength < |rest| && IsPreTag(rest[..tagLength]) && IsDigits(rest[tagLength..]) then
      assert body[..i] + rest == body;
      assert body[i..i + tagLength] == rest[..tagLength];
      assert body[i + tagLength..] == rest[tagLength..];
      Some((body[..i], rest))
    else
      DigitsTagDigitsShape(body);
      None
  }

  /** Any body of the regex's shape passes the recogniser's checks. */
  lemma DigitsTagDigitsShape(body: string)
    ensures DigitsTagDigits(body) ==>
      var i := LeadingDigits(body);
      var rest := body[i..];
      var tagLength := if StartsWith(rest, "rc") then 2 else 1;
      i > 0 && tagLength < |rest| && IsPreTag(rest[..tagLength]) && IsDigits(rest[tagLength..])
  {
    if DigitsTagDigits(body) {
      var a, b :| 0 < a < b < |body| && IsDigits(body[..a]) && IsPreTag(body[a..b]) && IsDigits(body[b..]);
      ShapeAt(body, a, b);
    }
  }

  /** With the split points `a` and `b` in hand: the digit run is `body[..a]` and the tag is `body[a..b]`. */
  lemma ShapeAt(body: string, a: int, b: int)
    requires 0 < a < b < |body| && IsDigits(body[..a]) && IsPreTag(body[a..b]) && IsDigits(body[b..])
    ensures var i := LeadingDigits(body);
      var rest := body[i..];
      var tagLength := if StartsWith(rest, "rc") then 2 else 1;
      i > 0 && tagLength < |rest| && IsPreTag(rest[..tagLength]) && IsDigits(rest[tagLength..])
  {
    assert body[a..b][0] == body[a];
    assert !IsDigit(body[a]);
    assert forall k :: 0 <= k < a ==> body[..a][k] == body[k];
    LeadingDigitsStop(body, a);
    var rest := body[a..];
    assert rest[..b - a] == body[a..b];
    assert rest[b - a..] == body[b..];
    assert StartsWith(rest, "rc") <==> b - a == 2 by {
      assert rest[0] == body[a];
      if b - a == 2 { assert body[a..b] == "rc"; }
    }
  }

  /** The digit run ends at the first non-digit. */
  lemma {:induction false} LeadingDigitsStop(s: string, n: nat)
    requires n < |s| && !IsDigit(s[n])
    requires forall k :: 0 <= k < n ==> IsDigit(s[k])
    ensures LeadingDigits(s) == n
    decreases n
  {
    if n > 0 {
      LeadingDigitsStop(s[1..], n - 1);
    }
  }

  /** One dot-field of `version_split`: the two regex groups, or the field itself. */
  function SplitField(field: string): (parts: seq<string>)
    ensures |parts| == 2 <==> DigitsTagDigits(Body(field))
    ensures |parts| == 1 || |parts| == 2
    ensures |parts| == 1 ==> parts[0] == field
    ensures |parts| == 2 ==> parts[0] + parts[1] == Body(field)
  {
    match MatchPrefixed(field)
    case Some((digits, suffix)) => [digits, suffix]
    case None => [field]
  }

  function SplitFields(fields: seq<string>): seq<string>
    decreases |fields|
  {
    if |fields| == 0 then [] else SplitField(fields[0]) + SplitFields(fields[1..])
  }

  /** `version_split(version)` */
  function VersionSplit(version: string): seq<string> {
    SplitFields(SplitOn(version, "."))
  }

  /** For k dot-fields, `version_split` yields between k and 2k parts. */
  lemma {:induction false} SplitFieldsLength(fields: seq<string>)
    ensures |fields| <= |SplitFields(fields)| <= 2 * |fields|
    decreases |fields|
  {
    if |fields| > 0 {
      SplitFieldsLength(fields[1..]);
    }
  }

  lemma VersionSplitLength(version: string)
    ensures |SplitOn(version, ".")| <= |VersionSplit(version)| <= 2 * |SplitOn(version, ".")|
  {
    SplitFieldsLength(SplitOn(version, "."));
  }

  // ---------------------------------------------------------------------
  // is_not_suffix
  // ---------------------------------------------------------------------

  /** `is_not_suffix(segment)` */
  function IsNotSuffix(segment: string): (r: bool)
    ensures !r <==> (|segment| > 0 &&
      (segment[0] == 'a' || segment[0] == 'b'
       || (|segment| >= 2 && segment[..2] == "rc")
       || (|segment| >= 3 && segment[..3] == "dev")
       || (|segment| >= 4 && segment[..4] == "post")))
  {
    !(StartsWith(segment, "dev") || StartsWith(segment, "a") || StartsWith(segment, "b")
      || StartsWith(segment, "rc") || StartsWith(segment, "post"))
  }

  /** `itertools.takewhile(is_not_suffix, parts)` */
  function TakeWhileNotSuffix(parts: seq<string>): (r: seq<string>)
    ensures r <= parts
    ensures forall k :: 0 <= k < |r| ==> IsNotSuffix(parts[k])
    ensures |r| < |parts| ==> !IsNotSuffix(parts[|r|])
    decreases |parts|
  {
    if |parts| == 0 || !IsNotSuffix(parts[0]) then [] else [parts[0]] + TakeWhileNotSuffix(parts[1..])
  }

  // ---------------------------------------------------------------------
  // first_different_index / pad_zeros
  // ---------------------------------------------------------------------

  /**
   * `first_different_index(a, b)`. The source reads the loop variable
   * after the loop, which is unbound for an empty argument, hence the
   * precondition.
   */
  function FirstDifferentIndex(a: seq<int>, b: seq<int>): (r: nat)
    requires |a| > 0 && |b| > 0
    ensures r <= |a| && r <= |b|
    ensures forall j :: 0 <= j < r ==> a[j] == b[j]
    ensures r < |a| && r < |b| ==> a[r] != b[r]
    ensures (r == |a| || r == |b|) ==> (a <= b || b <= a)
    decreases |a|
  {
    if a[0] != b[0] then 0
    else if |a| == 1 || |b| == 1 then 1
    else 1 + FirstDifferentIndex(a[1..], b[1..])
  }

  /** `pad_zeros(parts, to_length)` */
  function PadZeros(parts: seq<int>, toLength: int): (r: seq<int>)
    ensures |parts| >= toLength ==> r == parts
    ensures |parts| < toLength ==> |r| == toLength
    ensures r[..|parts|] == parts
    ensures forall k :: |parts| <= k < |r| ==> r[k] == 0
  {
    if |parts| >= toLength then parts else parts + seq(toLength - |parts|, _ => 0)
  }

  // ---------------------------------------------------------------------
  // flatten_items
  // ---------------------------------------------------------------------

  /** An item, or a group of items of the class being flattened. */
  datatype Item<T> = Leaf(value: T) | Group(items: seq<Item<T>>)

  function Size<T>(items: seq<Item<T>>): nat
    decreases items
  {
    if |items| == 0 then 0
    else
      (match items[0]
       case Leaf(_) => 1
       case Group(sub) => 1 + Size(sub)) + Size(items[1..])
  }

  /** Every leaf, in order, duplicates included. */
  function Leaves<T>(items: seq<Item<T>>): seq<T>
    decreases Size(items)
  {
    if |items| == 0 then []
    else
      match items[0]
      case Leaf(x) => [x] + Leaves(items[1..])
      case Group(sub) => Leaves(sub) + Leaves(items[1..])
  }

  /** `if x not in acc: acc.append(x)` */
  function AddNew<T(==)>(acc: seq<T>, x: T): seq<T> {
    if x in acc then acc else acc + [x]
  }

  /** Appends the elements of `xs` not already present, in order. */
  function AddAll<T(==)>(acc: seq<T>, xs: seq<T>): seq<T>
    decreases |xs|
  {
    if |xs| == 0 then acc else AddAll(AddNew(acc, xs[0]), xs[1..])
  }

  predicate NoDuplicates<T(==)>(s: seq<T>) {
    forall i, j :: 0 <= i < j < |s| ==> s[i] != s[j]
  }

  /** The loop of `flatten_items`, continuing from the list built so far. */
  function FlattenInto<T(==)>(acc: seq<T>, items: seq<Item<T>>): seq<T>
    decreases Size(items)
  {
    if |items| == 0 then acc
    else
      match items[0]
      case Leaf(x) => FlattenInto(AddNew(acc, x), items[1..])
      case Group(sub) => FlattenInto(AddAll(acc, FlattenInto([], sub)), items[1..])
  }

  /** `flatten_items(items, flatten_cls)`, with groups standing for `flatten_cls`. */
  function FlattenItems<T(==)>(items: seq<Item<T>>): seq<T> {
    FlattenInto([], items)
  }

  lemma {:induction false} AddAllAppend<T>(acc: seq<T>, xs: seq<T>, ys: seq<T>)
    ensures AddAll(acc, xs + ys) == AddAll(AddAll(acc, xs), ys)
    decreases |xs|
  {
    if |xs| > 0 {
      assert (xs + ys)[1..] == xs[1..] + ys;
      AddAllAppend(AddNew(acc, xs[0]), xs[1..], ys);
    } else {
      assert xs + ys == ys;
    }
  }

  lemma {:induction false} AddAllKeeps<T>(acc: seq<T>, xs: seq<T>)
    ensures acc <= AddAll(acc, xs)
    ensures forall x :: x in xs ==> x in AddAll(acc, xs)
    decreases |xs|
  {
    if |xs| > 0 {
      AddAllKeeps(AddNew(acc, xs[0]), xs[1..]);
      assert xs[0] in AddNew(acc, xs[0]);
      assert forall x :: x in xs ==> x == xs[0] || x in xs[1..];
    }
  }

  lemma {:induction false} AddAllNested<T>(acc: seq<T>, b: seq<T>, xs: seq<T>)
    ensures AddAll(acc, AddAll(b, xs)) == AddAll(AddAll(acc, b), xs)
    decreases |xs|
  {
    if |xs| > 0 {
      var x := xs[0];
      var b' := AddNew(b, x);
      AddAllNested(acc, b', xs[1..]);
      if x in b {
        AddAllKeeps(acc, b);
      } else {
        AddAllAppend(acc, b, [x]);
      }
    }
  }

  lemma {:induction false} FlattenIntoLeaves<T>(acc: seq<T>, items: seq<Item<T>>)
    ensures FlattenInto(acc, items) == AddAll(acc, Leaves(items))
    decreases Size(items)
  {
    if |items| > 0 {
      match items[0]
      case Leaf(x) =>
        FlattenIntoLeaves(AddNew(acc, x), items[1..]);
        assert ([x] + Leaves(items[1..]))[1..] == Leaves(items[1..]);
      case Group(sub) =>
        FlattenIntoLeaves([], sub);
        AddAllNested(acc, [], Leaves(sub));
        FlattenIntoLeaves(AddAll(acc, Leaves(sub)), items[1..]);
        AddAllAppend(acc, Leaves(sub), Leaves(items[1..]));
    }
  }

  lemma {:induction false} AddAllDistinct<T>(acc: seq<T>, xs: seq<T>)
    requires NoDuplicates(acc)
    ensures NoDuplicates(AddAll(acc, xs))
    ensures forall x :: x in AddAll(acc, xs) <==> x in acc || x in xs
    decreases |xs|
  {
    if |xs| > 0 {
      AddAllDistinct(AddNew(acc, xs[0]), xs[1..]);
      assert forall x :: x in xs <==> x == xs[0] || x in xs[1..];
    }
  }

  lemma {:induction false} AddAllFirstOccurrence<T>(acc: seq<T>, xs: seq<T>, x: T, y: T)
    requires x !in acc && y !in acc && x != y
    requires x in xs && y in xs
    ensures var r := AddAll(acc, xs);
      x in r && y in r &&
      (Index(xs, x) < Index(xs, y) <==> Index(r, x) < Index(r, y))
    decreases |xs|
  {
    AddAllKeeps(acc, xs);
    var r := AddAll(acc, xs);
    var z := xs[0];
    if z == x {
      AddAllKeeps(acc + [x], xs[1..]);
      assert Index(r, x) == |acc| by {
        assert (acc + [x])[|acc|] == x;
        IndexOfPrefix(acc + [x], r, x);
      }
      assert Index(r, y) > |acc| by {
        IndexOfPrefix(acc + [x], r, x);
        IndexNotInPrefix(acc + [x], r, y);
      }
    } else if z == y {
      AddAllKeeps(acc + [y], xs[1..]);
      IndexOfPrefix(acc + [y], r, y);
      IndexNotInPrefix(acc + [y], r, x);
    } else {
      AddAllFirstOccurrence(AddNew(acc, z), xs[1..], x, y);
    }
  }

  /** Position of the first occurrence of `x` in `s`. */
  function Index<T(==)>(s: seq<T>, x: T): (i: nat)
    requires x in s
    ensures i < |s| && s[i] == x && x !in s[..i]
    ensures forall k :: 0 <= k < i ==> s[k] != x
    decreases |s|
  {
    if s[0] == x then 0 else 1 + Index(s[1..], x)
  }

  lemma IndexUnique<T>(s: seq<T>, x: T, i: nat)
    requires i < |s| && s[i] == x && x !in s[..i]
    ensures Index(s, x) == i
  {
    assert forall k :: 0 <= k < i ==> s[..i][k] == s[k] && s[k] != x;
  }

  lemma IndexOfPrefix<T>(p: seq<T>, s: seq<T>, x: T)
    requires p <= s && x in p
    ensures Index(s, x) == Index(p, x)
  {
    var i := Index(p, x);
    assert s[..i] == p[..i];
    IndexUnique(s, x, i);
  }

  lemma IndexNotInPrefix<T>(p: seq<T>, s: seq<T>, x: T)
    requires p <= s && x in s && x !in p
    ensures Index(s, x) >= |p|
  {
    assert forall k :: 0 <= k < |p| ==> s[k] == p[k] && p[k] != x;
  }

  /**
   * `flatten_items` returns each leaf of the input, however deeply nested,
   * exactly once, nothing else, in the order of first occurrence.
   */
  lemma FlattenItemsSpec<T>(items: seq<Item<T>>)
    ensures FlattenItems(items) == AddAll([], Leaves(items))
    ensures NoDuplicates(FlattenItems(items))
    ensures forall x :: x in FlattenItems(items) <==> x in Leaves(items)
    ensures forall x, y :: x in Leaves(items) && y in Leaves(items) && x != y ==>
      (Index(Leaves(items), x) < Index(Leaves(items), y) <==>
       Index(FlattenItems(items), x) < Index(FlattenItems(items), y))
  {
    FlattenIntoLeaves([], items);
    AddAllDistinct([], Leaves(items));
    forall x, y | x in Leaves(items) && y in Leaves(items) && x != y
      ensures Index(Leaves(items), x) < Index(Leaves(items), y) <==>
              Index(FlattenItems(items), x) < Index(FlattenItems(items), y)
    {
      AddAllFirstOccurrence([], Leaves(items), x, y);
    }
  }
}

=== FILE: versions.dfy ===
/**
 * The external `packaging` Version, reduced to what the range algebra
 * needs: an epoch, the release segments and whether the version is a
 * pre-release, with PEP 440's total order (epoch first, then the release
 * segments with the shorter list padded with zeros, then a pre-release
 * before the final release it precedes).
 */
module Versions {

  datatype Version = Version(epoch: nat, release: seq<nat>, pre: bool)

  function Drop1(s: seq<nat>): seq<nat> {
    if |s| > 0 then s[1..] else []
  }

  function Head0(s: seq<nat>): nat {
    if |s| > 0 then s[0] else 0
  }

  /** Three-way comparison of two segment lists, the shorter padded with zeros. */
  function PaddedCmp(a: seq<nat>, b: seq<nat>): (c: int)
    ensures -1 <= c <= 1
    decreases |a| + |b|
  {
    if |a| == 0 && |b| == 0 then 0
    else if Head0(a) < Head0(b) then -1
    else if Head0(a) > Head0(b) then 1
    else PaddedCmp(Drop1(a), Drop1(b))
  }

  /** Three-way comparison of two versions (`<`, `==`, `>` of packaging's Version). */
  function Cmp(a: Version, b: Version): (c: int)
    ensures -1 <= c <= 1
  {
    if a.epoch < b.epoch then -1
    else if a.epoch > b.epoch then 1
    else if PaddedCmp(a.release, b.release) != 0 then PaddedCmp(a.release, b.release)
    else if a.pre == b.pre then 0
    else if a.pre then -1
    else 1
  }

  predicate Lt(a: Version, b: Version) { Cmp(a, b) < 0 }

  /** Version equality as packaging defines it: `1.0 == 1.0.0`. */
  predicate Same(a: Version, b: Version) { Cmp(a, b) == 0 }

  /** The release list with its last segment incremented (`X.Y` to `X.(Y+1)`). */
  function Bump(release: seq<nat>): (r: seq<nat>)
    requires |release| > 0
    ensures |r| == |release| && r[..|r| - 1] == release[..|release| - 1]
    ensures r[|r| - 1] == release[|release| - 1] + 1
  {
    release[..|release| - 1] + [release[|release| - 1] + 1]
  }

  lemma {:induction false} PaddedCmpAntisymmetric(a: seq<nat>, b: seq<nat>)
    ensures PaddedCmp(a, b) == -PaddedCmp(b, a)
    decreases |a| + |b|
  {
    if !(|a| == 0 && |b| == 0) && Head0(a) == Head0(b) {
      PaddedCmpAntisymmetric(Drop1(a), Drop1(b));
    }
  }

  lemma {:induction false} PaddedCmpTransitive(a: seq<nat>, b: seq<nat>, c: seq<nat>)
    requires PaddedCmp(a, b) <= 0 && PaddedCmp(b, c) <= 0
    ensures PaddedCmp(a, c) <= 0
    ensures PaddedCmp(a, b) < 0 || PaddedCmp(b, c) < 0 ==> PaddedCmp(a, c) < 0
    decreases |a| + |b| + |c|
  {
    if |a| == 0 && |b| == 0 && |c| == 0 {
    } else if Head0(a) == Head0(b) && Head0(b) == Head0(c) {
      if |a| == 0 && |b| == 0 {
        assert PaddedCmp(a, b) == 0 && PaddedCmp(Drop1(b), Drop1(c)) == PaddedCmp(b, c);
        assert Drop1(a) == a && Drop1(b) == b;
      } else if |b| == 0 && |c| == 0 {
        assert Drop1(b) == b && Drop1(c) == c;
      } else if |a| == 0 && |c| == 0 {
        PaddedCmpAntisymmetric(b, c);
        assert Drop1(a) == a && Drop1(c) == c;
        assert PaddedCmp(Drop1(a), Drop1(b)) <= 0;
        assert PaddedCmp(Drop1(b), Drop1(c)) <= 0;
        PaddedCmpTransitive(Drop1(a), Drop1(b), Drop1(c));
      } else {
        PaddedCmpTransitive(Drop1(a), Drop1(b), Drop1(c));
      }
    }
  }

  lemma CmpAntisymmetric(a: Version, b: Version)
    ensures Cmp(a, b) == -Cmp(b, a)
  {
    PaddedCmpAntisymmetric(a.release, b.release);
  }

  lemma CmpTransitive(a: Version, b: Version, c: Version)
    requires Cmp(a, b) <= 0 && Cmp(b, c) <= 0
    ensures Cmp(a, c) <= 0
  {
    if a.epoch == b.epoch && b.epoch == c.epoch {
      PaddedCmpTransitive(a.release, b.release, c.release);
      PaddedCmpAntisymmetric(a.release, c.release);
      if PaddedCmp(a.release, c.release) == 0 {
        PaddedCmpAntisymmetric(a.release, b.release);
        PaddedCmpAntisymmetric(b.release, c.release);
        if PaddedCmp(a.release, b.release) != 0 {
          PaddedCmpTransitive(c.release, a.release, b.release);
        }
      }
    }
  }

  /**
   * The comparison is a total preorder: antisymmetric as a three-way
   * comparison, reflexive, and transitive.
   */
  lemma OrderLaws()
    ensures forall a: Version, b: Version {:trigger Cmp(a, b)} :: Cmp(a, b) == -Cmp(b, a)
    ensures forall a: Version, b: Version, c: Version {:trigger Cmp(a, b), Cmp(b, c)} ::
      Cmp(a, b) <= 0 && Cmp(b, c) <= 0 ==> Cmp(a, c) <= 0
  {
    forall a: Version, b: Version ensures Cmp(a, b) == -Cmp(b, a) {
      CmpAntisymmetric(a, b);
    }
    forall a: Version, b: Version, c: Version | Cmp(a, b) <= 0 && Cmp(b, c) <= 0
      ensures Cmp(a, c) <= 0
    {
      CmpTransitive(a, b, c);
    }
  }

  /** `P.0 < P'.0` where `P'` is `P` with its last segment incremented. */
  lemma {:induction false} BumpIsGreater(release: seq<nat>, tail: seq<nat>, tail': seq<nat>)
    requires |release| > 0
    ensures PaddedCmp(release + tail, Bump(release) + tail') < 0
    decreases |release|
  {
    var a := release + tail;
    var b := Bump(release) + tail';
    if |release| == 1 {
      assert Head0(a) == release[0] && Head0(b) == release[0] + 1;
    } else {
      assert Head0(a) == Head0(b);
      assert Drop1(a) == release[1..] + tail;
      assert Bump(release[1..]) == Bump(release)[1..];
      assert Drop1(b) == Bump(release[1..]) + tail';
      BumpIsGreater(release[1..], tail, tail');
    }
  }

  /** Segment `k` of a release list, zero past its end. */
  function Seg(s: seq<nat>, k: nat): nat {
    if k < |s| then s[k] else 0
  }

  /** Lists that agree segment by segment once padded compare equal. */
  lemma {:induction false} PaddedCmpPointwise(a: seq<nat>, b: seq<nat>)
    requires forall k :: 0 <= k < |a| + |b| ==> Seg(a, k) == Seg(b, k)
    ensures PaddedCmp(a, b) == 0
    decreases |a| + |b|
  {
    if !(|a| == 0 && |b| == 0) {
      assert Head0(a) == Seg(a, 0) && Head0(b) == Seg(b, 0);
      forall k | 0 <= k < |Drop1(a)| + |Drop1(b)|
        ensures Seg(Drop1(a), k) == Seg(Drop1(b), k)
      {
        assert Seg(Drop1(a), k) == Seg(a, k + 1);
        assert Seg(Drop1(b), k) == Seg(b, k + 1);
      }
      PaddedCmpPointwise(Drop1(a), Drop1(b));
    }
  }
}

=== FILE: wrappers.dfy ===
/** Failure-carrying result types shared by every module of the model. */
module Wrappers {

  /** A value that may be absent (Python's `None`). */
  datatype Option<+T> = None | Some(value: T)

  /** A value or the exception the source would raise instead. */
  datatype Result<+T, +E> = Ok(value: T) | Err(error: E) {
    predicate IsFailure() { Err? }

    function PropagateFailure<U>(): Result<U, E>
      requires Err?
    {
      Err(error)
    }

    function Extract(): T
      requires Ok?
    {
      value
    }
  }
}
